=== FILE: README.md ===
# Reachability fitness of the transfer-testing EvoSuite fork, in Dafny

This project models the reachability fitness of the EvoSuite fork used for transfer testing.
The setting: a client program calls a vulnerable library method (the *callee*) from one of its own methods (the *caller*).
Test generation is done in two phases:

- **Recording.** Running the library's own tests records a *reaching spec* for each test: what the inspectors of every argument passed to the callee returned.
- **Comparing.** Each generated client test is scored by how closely the arguments it passes to the callee resemble a recorded spec. It is also scored by whether it reproduces the recorded exception.

The model covers:

- `Recorder`: `recordObjects`, `putInspectorOutputIntoSpec` and `recursivelyInsertIntoNestedInspector`. These build a spec and count each argument's partition size, the points the comparison can later award.
- `Comparator`: `compareObjects` and `recursivelyCheckNestedInspector`. `Similarity` holds `stringSimilarity` over the Levenshtein distance.
- `ReachingSpecs`: the spec itself. `Checker` holds `isArgumentsSatisfied`, the two `checkInspector`s and `SatisfactionResult`. `Merges` holds the three merge helpers.
- `Fitness`: `ReachabilityCoverageTestFitness.getFitness` and the `isCovered` family.
- `Statements`: `hasCalleeMethodAsTestStatement` and `hasCallerMethodAsTestStatement`.
- `CoverageFactory`: `descriptorToActualName`, `getCoverageGoals` and `targetIdentifier`.
- `AbstractFactory`: `isCUT` and the suite fitness.
- `SerializableInspectors`: `SerializableInspector` and the text handling of its deserializer.
- `ReplaceVisitor`: `ReplaceMethodVisitor`, as a transducer over ASM visitor events.

Conventions:

- **Mutable statics.** The configuration, read once at start-up, is the immutable `Settings.Config`. The mutable statics `getFitness` reads and writes are one `Fitness.FitnessState`, passed in and returned.
- **Exceptions.** An exception is a `Failure` of `Wrappers.Result`.
- **Reflection.** Reflection is data: every non-null `Values.Value` carries what each inspector of its class returned, in the inspector manager's order.
- **Class names.** An anonymous or local class is a `Values.LocalClass`. It has no canonical name, so the mock-proxy test on an object of that class throws a NullPointerException.
- **Floats.** Float and double results are `Floats.Float`: an exact real, NaN or an infinity. Rounding is not modelled.
- **Descriptor conversion.** The statement searches take the descriptor conversion as a parameter; `getFitness` passes `descriptorToActualName`, as the source does.

The nested comparison as written can award points the recorder never counted (see Findings). The model therefore keeps two nested rules:

- `AsWritten` follows the source.
- `Mirrored` awards points for exactly what the recorder counted.

Two results rest on this:

- `SelfMatch.RecordedArgumentsMatch`: with nested checks off, arguments compared with the spec recorded from them score exactly 1.
- `SelfBound.RecordedArgumentsBounded`: under `Mirrored`, the score of the recorded arguments never exceeds 1.

For arguments other than the recorded ones, `OtherBound.OtherArgumentsBounded` proves the same bound with nested checks off. With nested checks on, `OtherBound.NestedStrangerExceedsOne` shows a score of 2.0 under both rules.

Four details of the code, which the model follows literally:

- **Spec lists.** The spec has seven lists. Lazy initialisation in `isArgumentsSatisfied` adds entries to four of them; it leaves out the enum maps, the null flags and the partition sizes.
- **Empty spec.** An empty spec therefore never satisfies an instance callee (`Checker.EmptySpecFailsInstanceCallee`).
- **Output weight.** The output weight is `1 / (1 + n)` in integer division, so it is 1 only for a spec with no arguments (`Fitness.OutputWeight`).
- **Mock filters.** The mock-proxy filters on inspected strings lower-case the text before searching for a mixed-case marker, so they never match (`JavaStrings.MockMarkerTextNever`).

## Model

| member | source | states |
|---|---|---|
| Recorder.RecordProbe | transfer_testing/client/src/main/java/org/evosuite/coverage/line/ReachabilitySpecUnderInferenceUtils.java:515-596 | One inspector's output goes into at most one of the four maps, and the entries of other inspectors are unchanged. A String inspector stores [null] for 1 point, or a kept text for 2 points; a text it does not keep earns 1 point and stores nothing. A Boolean stores its value for 1 point, an enum the `toString()` text of its constant for 1 point. With nested checks on, an object stores its nested node and earns that node's points; null stores the empty node for 0. A thrown exception, an ignored return type, or nested checks off earn 0 and store nothing. It fails exactly for an enum inspector returning null, or for a String inspector that is already filled. |
| Recorder.RecordProbesFrame | transfer_testing/client/src/main/java/org/evosuite/coverage/line/ReachabilitySpecUnderInferenceUtils.java:515-596 | An inspector the loop does not visit keeps what the argument's maps held for it. |
| Recorder.RecordProbesSucceeds | transfer_testing/client/src/main/java/org/evosuite/coverage/line/ReachabilitySpecUnderInferenceUtils.java:515-596 | With distinct inspectors and no earlier String entry, recording an object can fail in only two ways. Its class may have no canonical name, so the mock-proxy test throws (line 522). Or an enum inspector may have returned null. |
| Recorder.NestedProbe | transfer_testing/client/src/main/java/org/evosuite/coverage/line/ReachabilitySpecUnderInferenceUtils.java:666-745 | The recorder descends into an object-like, non-null output below the maximum depth. There it replaces the node's child by the node built for that output and adds that node's points. In every other case the child is left alone. A String inspector whose type differs from the object's own class stops the descent (`goDeeper` false) and resets the node's values: to the kept text for 2 points, or to the empty list for 1 point when the output is null or not kept. |
| Recorder.InsertNestedCount | transfer_testing/client/src/main/java/org/evosuite/coverage/line/ReachabilitySpecUnderInferenceUtils.java:666-745 | The points an object below an argument earns do not depend on the node it is recorded into. |
| Recorder.NestedChildOrigin | transfer_testing/client/src/main/java/org/evosuite/coverage/line/ReachabilitySpecUnderInferenceUtils.java:666-745 | A node's final child is the one it started with, or the node built for the last inspector the recorder descended into. |
| Recorder.Grow | transfer_testing/client/src/main/java/org/evosuite/coverage/line/ReachabilitySpecUnderInferenceUtils.java:372-377 | Each argument first appends fresh entries to the five per-argument lists; the null flags and partition sizes are untouched. |
| Recorder.RecordArg | transfer_testing/client/src/main/java/org/evosuite/coverage/line/ReachabilitySpecUnderInferenceUtils.java:364-447 | Recording one argument adds one entry to every list, including one null flag and one partition size. An object with inspectors whose class has no canonical name (an anonymous or local class) throws a NullPointerException at the mock-proxy test (line 522). |
| Recorder.RecordArgShape | transfer_testing/client/src/main/java/org/evosuite/coverage/line/ReachabilitySpecUnderInferenceUtils.java:364-447 | After one argument the lists stay aligned and earlier entries are unchanged. The new entry is as Recorded describes: null and text arguments are worth one point, with the text kept as the single literal; a mock proxy is worth nothing; an object gets the maps and points of its inspectors. |
| Recorder.RecordFromShape | transfer_testing/client/src/main/java/org/evosuite/coverage/line/ReachabilitySpecUnderInferenceUtils.java:364-447 | Recording the remaining arguments fills one aligned entry per argument and keeps the entries already there. |
| Recorder.RecordObjectsShape | transfer_testing/client/src/main/java/org/evosuite/coverage/line/ReachabilitySpecUnderInferenceUtils.java:364-447 | Recording into a fresh spec leaves seven lists of one entry per argument, each entry as Recorded describes. |
| Recorder.RecordFromSucceeds | transfer_testing/client/src/main/java/org/evosuite/coverage/line/ReachabilitySpecUnderInferenceUtils.java:364-447 | Recording well-formed arguments fails only in two cases: an object argument with inspectors has a class without a canonical name, or one of its enum inspectors returned null. |
| Recorder.KnownAfterRecording | transfer_testing/client/src/main/java/org/evosuite/coverage/line/ReachingSpec.java:65-67 | A fresh spec is known after recording exactly when at least one argument was recorded. |
| ReachingSpecs.SetAdd | transfer_testing/client/src/main/java/org/evosuite/coverage/line/ReachabilitySpecUnderInferenceUtils.java:388-399 | Adding a text literal to a set contains the text and otherwise only what was there before. |
| Similarity.StringSimilarity | transfer_testing/client/src/main/java/org/evosuite/coverage/line/ReachabilitySpecUnderInferenceUtils.java:355-362 | The similarity lies between 0 and 1, and is 1 exactly for equal strings. |
| Similarity.Ratio | transfer_testing/client/src/main/java/org/evosuite/coverage/line/ReachabilitySpecUnderInferenceUtils.java:355-362 | The edit distance divided by the longer length lies between 0 and 1. It is 0 exactly for no edits and 1 exactly when every position needs an edit. |
| Similarity.Sim | transfer_testing/client/src/main/java/org/evosuite/coverage/line/ReachabilitySpecUnderInferenceUtils.java:355-362 | Two empty strings give NaN (0/0 in float). Otherwise the similarity lies between 0 and 1 and is 1 exactly for equal strings. |
| Similarity.LevBounded | transfer_testing/client/src/main/java/org/evosuite/coverage/line/ReachabilitySpecUnderInferenceUtils.java:355-362 | The edit distance never exceeds the longer length, so the similarity is never negative. |
| Similarity.LevZeroIff | transfer_testing/client/src/main/java/org/evosuite/coverage/line/ReachabilitySpecUnderInferenceUtils.java:355-362 | The edit distance is zero exactly for equal strings. |
| Similarity.LevAtMostHamming | transfer_testing/client/src/main/java/org/evosuite/coverage/line/ReachabilitySpecUnderInferenceUtils.java:355-362 | For equal lengths, substitutions alone bound the edit distance. |
| Similarity.LevDisjoint | transfer_testing/client/src/main/java/org/evosuite/coverage/line/ReachabilitySpecUnderInferenceUtils.java:355-362 | Strings with no character in common are as far apart as the longer length. |
| Similarity.SimilarityExtremes | transfer_testing/client/src/main/java/org/evosuite/coverage/line/ReachabilitySpecUnderInferenceUtils.java:355-362 | A non-empty string has similarity 1 to itself and 0 to a character-disjoint string. |
| Similarity.OneSubstitution | transfer_testing/client/src/main/java/org/evosuite/coverage/line/ReachabilitySpecUnderInferenceUtils.java:355-362 | One substituted character out of n gives similarity 1 - 1/n. |
| Similarity.HelloHullo | transfer_testing/client/src/main/java/org/evosuite/coverage/line/ReachabilitySpecUnderInferenceUtils.java:355-362 | A worked case: "hello" against "hullo" scores 0.8. |
| Similarity.NextRow | transfer_testing/client/src/main/java/org/evosuite/coverage/line/ReachabilitySpecUnderInferenceUtils.java:355-362 | One row of the dynamic programme holds the edit distances from a prefix of the first string to every prefix of the second. |
| Similarity.EditDistance | transfer_testing/client/src/main/java/org/evosuite/coverage/line/ReachabilitySpecUnderInferenceUtils.java:355-362 | The dynamic programme computes the Levenshtein distance. |
| Comparator.CompareObjects | transfer_testing/client/src/main/java/org/evosuite/coverage/line/ReachabilitySpecUnderInferenceUtils.java:196-353 | When the spec offers no points at all, the float division cannot yield a number (NaN or an infinity). |
| Comparator.CompareArg | transfer_testing/client/src/main/java/org/evosuite/coverage/line/ReachabilitySpecUnderInferenceUtils.java:207-248 | Scoring an argument the spec has no position for throws. An object with inspectors whose class has no canonical name throws at the mock-proxy test (line 248), unless the spec recorded null at that position. |
| Comparator.NestedAsWrittenScore | transfer_testing/client/src/main/java/org/evosuite/coverage/line/ReachabilitySpecUnderInferenceUtils.java:599-664 | One nested inspector as written: a thrown exception adds 0; a null output of any type adds 1; a string-like output adds 2 against an empty recorded value set and otherwise 1 plus its similarity to the first recorded value; another output adds 0 when the node does not go deeper, the type is a wrapper, or there is no child. A null node, or a null value set, throws once a non-null output reads it. |
| Comparator.NestedAsWrittenDescent | transfer_testing/client/src/main/java/org/evosuite/coverage/line/ReachabilitySpecUnderInferenceUtils.java:645-658 | Where the node goes deeper, for a non-wrapper type with a child, the score adds that of the descent into the child recorded for this inspector, or into null for another inspector; an exception in the descent escapes. |
| Comparator.ArgScore | transfer_testing/client/src/main/java/org/evosuite/coverage/line/ReachabilitySpecUnderInferenceUtils.java:207-248 | Where the spec recorded null, the argument earns its whole partition exactly when it is null, else 0. A null argument earns 0 where the spec recorded an object. A String, byte[] or char[] argument earns its similarity to the first recorded literal times the partition size; with no literal it throws. A mock proxy earns 0. |
| Comparator.StringProbeScore | transfer_testing/client/src/main/java/org/evosuite/coverage/line/ReachabilitySpecUnderInferenceUtils.java:262-298 | A String inspector the spec has no entry for earns 0; an empty entry throws. Null output earns 1 against a recorded null and 0 otherwise. A kept text earns 1 plus its similarity to a recorded text, and 0 against a recorded null or when the text is not kept. |
| Comparator.BoolProbeScore | transfer_testing/client/src/main/java/org/evosuite/coverage/line/ReachabilitySpecUnderInferenceUtils.java:300-309 | A Boolean inspector the spec has no entry for earns 0. Unboxing a null, expected or actual, throws. Otherwise it earns 1 exactly when the output equals the recorded value, and 0 otherwise. |
| Comparator.EnumProbeScore | transfer_testing/client/src/main/java/org/evosuite/coverage/line/ReachabilitySpecUnderInferenceUtils.java:310-320 | An enum inspector the spec has no entry for earns 0; a null constant throws; otherwise it earns the similarity of the constant's `toString()` text to the recorded text. |
| Comparator.OtherProbeScore | transfer_testing/client/src/main/java/org/evosuite/coverage/line/ReachabilitySpecUnderInferenceUtils.java:251-335 | An inspector that threw earns 0. So does an object-like one the spec has no node for, or with nested checks off, or that returned null. |
| OtherBound.ProbesCap | transfer_testing/client/src/main/java/org/evosuite/coverage/line/ReachabilitySpecUnderInferenceUtils.java:240-353 | With nested checks off, each inspector of any argument earns at most what the recorder filed for it. A recorded String is worth two points, and a null String, a Boolean or an enum one point each. |
| OtherBound.RecordCaps | transfer_testing/client/src/main/java/org/evosuite/coverage/line/ReachabilitySpecUnderInferenceUtils.java:515-596 | Recording an object raises what distinct inspectors can earn by no more than the points it adds to the partition. |
| OtherBound.ArgBoundOther | transfer_testing/client/src/main/java/org/evosuite/coverage/line/ReachabilitySpecUnderInferenceUtils.java:207-353 | With nested checks off, any well-formed argument earns at most the partition recorded at its position, whatever argument was recorded there. |
| OtherBound.OtherArgumentsBounded | transfer_testing/client/src/main/java/org/evosuite/coverage/line/ReachabilitySpecUnderInferenceUtils.java:196-353 | With nested checks off, any well-formed arguments score in [0,1] (or NaN) against a spec recorded from any well-formed arguments, under either nested rule. |
| OtherBound.NestedStrangerExceedsOne | transfer_testing/client/src/main/java/org/evosuite/coverage/line/ReachabilitySpecUnderInferenceUtils.java:599-664 | With nested checks on, one argument scores 2.0 under both nested rules, against a spec recorded from another argument that is worth one point. The argument's delegate has a String inspector that returned null, and nothing recorded counts that inspector. |
| SelfMatch.ProbeSelfMatch | transfer_testing/client/src/main/java/org/evosuite/coverage/line/ReachabilitySpecUnderInferenceUtils.java:243-338 | With nested checks off, one fully comparable inspector scores exactly the points recorded for it. |
| SelfMatch.ProbesSelfMatch | transfer_testing/client/src/main/java/org/evosuite/coverage/line/ReachabilitySpecUnderInferenceUtils.java:243-338 | With nested checks off, the inspectors of an object argument score exactly the points recorded for them. |
| SelfMatch.ArgSelfMatch | transfer_testing/client/src/main/java/org/evosuite/coverage/line/ReachabilitySpecUnderInferenceUtils.java:196-353 | With nested checks off, a comparable argument scores exactly its partition size against the entry recorded from it. |
| SelfMatch.FromScores | transfer_testing/client/src/main/java/org/evosuite/coverage/line/ReachabilitySpecUnderInferenceUtils.java:196-353 | Arguments that each score their partition size score the sum of the sizes together. |
| SelfMatch.RecordedArgumentsMatch | transfer_testing/client/src/main/java/org/evosuite/coverage/line/ReachabilitySpecUnderInferenceUtils.java:196-353 | Recording arguments into a fresh spec and comparing the same arguments against it gives exactly 1, or NaN when nothing was counted (nested checks off). |
| SelfBound.SelfNestedBound | transfer_testing/client/src/main/java/org/evosuite/coverage/line/ReachabilitySpecUnderInferenceUtils.java:599-664 | Under the corrected nested rule, an object below an argument earns at most the points recorded for it. |
| SelfBound.ProbeBound | transfer_testing/client/src/main/java/org/evosuite/coverage/line/ReachabilitySpecUnderInferenceUtils.java:243-338 | Under the corrected nested rule, one inspector of an argument earns at most the points recorded for it. |
| SelfBound.ProbesBound | transfer_testing/client/src/main/java/org/evosuite/coverage/line/ReachabilitySpecUnderInferenceUtils.java:243-338 | Under the corrected nested rule, all inspectors of an argument earn at most the points recorded for them. |
| SelfBound.ArgBound | transfer_testing/client/src/main/java/org/evosuite/coverage/line/ReachabilitySpecUnderInferenceUtils.java:196-353 | Under the corrected nested rule, an argument earns at most its partition size. |
| SelfBound.RecordedArgumentsBounded | transfer_testing/client/src/main/java/org/evosuite/coverage/line/ReachabilitySpecUnderInferenceUtils.java:196-353 | Under the corrected nested rule, the arguments a spec was recorded from score between 0 and 1 against it (or NaN), for any settings. |
| SelfBound.DelegateAsWritten | transfer_testing/client/src/main/java/org/evosuite/coverage/line/ReachabilitySpecUnderInferenceUtils.java:622-625 | As written, a nested inspector returning null earns a point even when it is an Integer inspector the recorder ignored. |
| SelfBound.DelegateMirrored | transfer_testing/client/src/main/java/org/evosuite/coverage/line/ReachabilitySpecUnderInferenceUtils.java:599-664 | Under the corrected rule, the same inspector earns nothing, as the recorder counted nothing for it. |
| SelfBound.AsWrittenExceedsOne | transfer_testing/client/src/main/java/org/evosuite/coverage/line/ReachabilitySpecUnderInferenceUtils.java:599-664 | A recorded argument worth one point scores 2.0 against its own spec under the nested comparison as written, and 1.0 under the corrected rule. |
| SelfBound.ConcreteWitness | transfer_testing/client/src/main/java/org/evosuite/coverage/line/ReachabilitySpecUnderInferenceUtils.java:599-664 | The shape of that argument exists: C.isReady() returns true, and C.getDelegate() returns an object whose Integer getCount() returns null. |
| Checker.IncreaseKeepsConsistent | transfer_testing/client/src/main/java/org/evosuite/coverage/line/ReachingSpec.java:80-100 | A fresh MET result has no violations. increaseViolation() adds one and marks the result PARTIAL. increaseViolation(count) adds count only when count >= 1. A result stays MET exactly while it has no violations. |
| Checker.ScanVerdicts | transfer_testing/client/src/main/java/org/evosuite/coverage/line/ReachingSpec.java:351-449 | The scan counts string misses one each and Boolean misses two each. The first passing String inspector ends it and forgives the string misses before it. |
| Checker.CheckInspector | transfer_testing/client/src/main/java/org/evosuite/coverage/line/ReachingSpec.java:345-450 | The count returned is the violations of the argument's inspectors, as InspectorViolations defines them. Every inspector of a target whose class has no canonical name is skipped, because the exception from the mock-proxy test is caught (lines 364 and 437). |
| Checker.InspectorHoldsIff | transfer_testing/client/src/main/java/org/evosuite/coverage/line/ReachingSpec.java:327-343 | The public check holds exactly when no Boolean inspector before the first passing String inspector disagrees. If no String inspector passes, no String or null expectation may miss either. A target whose class has no canonical name therefore always holds. |
| Checker.UnnamedTargetNoViolation | transfer_testing/client/src/main/java/org/evosuite/coverage/line/ReachingSpec.java:364-437 | A target whose class has no canonical name (an anonymous or local class) has no violated inspector. The mock-proxy test throws for it, and the catch at line 437 skips the inspector. |
| Checker.NoExpectationNoViolation | transfer_testing/client/src/main/java/org/evosuite/coverage/line/ReachingSpec.java:345-450 | An argument with no recorded String or Boolean expectations has no violations. |
| Checker.LazyInit | transfer_testing/client/src/main/java/org/evosuite/coverage/line/ReachingSpec.java:118-127 | A spec with no String-inspector entries gets one empty String map, Boolean map, literal set and nested map per argument. The enum maps, null flags and partition sizes are untouched. Any other spec is left as it is. |
| Checker.IsArgumentsSatisfied | transfer_testing/client/src/main/java/org/evosuite/coverage/line/ReachingSpec.java:111-248 | The check returns the declarative Satisfaction outcome. Missing arguments and a wrong arity give the shared FAILED result. Lists of different lengths throw. Otherwise the result is the sum of both loops' violations, MET exactly when there are none. |
| Checker.CheckInspectorsLoop | transfer_testing/client/src/main/java/org/evosuite/coverage/line/ReachingSpec.java:158-216 | The first loop adds up every argument's inspector violations and keeps the result consistent. |
| Checker.CheckArgument | transfer_testing/client/src/main/java/org/evosuite/coverage/line/ReachingSpec.java:158-216 | A null argument counts its String and Boolean expectations. An argument with expectations but no inspectors counts them too. After that, its inspector violations are added. |
| Checker.CheckLiteralsLoop | transfer_testing/client/src/main/java/org/evosuite/coverage/line/ReachingSpec.java:218-241 | The second loop counts one violation per argument that is null or a String outside its recorded literals, when literals were recorded. |
| Checker.SatisfactionShape | transfer_testing/client/src/main/java/org/evosuite/coverage/line/ReachingSpec.java:111-248 | A check that does not throw returns the shared FAILED result or a consistent MET/PARTIAL result. |
| Checker.EmptySpecFailsInstanceCallee | transfer_testing/client/src/main/java/org/evosuite/coverage/line/ReachingSpec.java:118-152 | For an instance callee, a spec nothing was recorded into always fails: lazy initialisation creates an entry for the receiver too, one more than the arity check allows. |
| Checker.NullArgumentViolations | transfer_testing/client/src/main/java/org/evosuite/coverage/line/ReachingSpec.java:162-225 | A null argument counts one violation per String and Boolean expectation, plus one when literals were recorded for it. |
| Checker.MetIff | transfer_testing/client/src/main/java/org/evosuite/coverage/line/ReachingSpec.java:111-248 | The arguments satisfy the spec exactly when the sizes and arity fit and every entry is free of inspector and literal violations. |
| Merges.MergeInspectorMaps | transfer_testing/client/src/main/java/org/evosuite/coverage/line/ReachingSpec.java:454-470 | A key the spec lacks (or maps to null) takes the concrete value. A conflicting key is dropped. An agreeing key, or one the concrete map lacks, stays. Merging a map with itself changes nothing. |
| Merges.MergeStringSets | transfer_testing/client/src/main/java/org/evosuite/coverage/line/ReachingSpec.java:504-521 | The spec's literal set becomes the union of both sets. |
| Merges.MergeInspectorSetMaps | transfer_testing/client/src/main/java/org/evosuite/coverage/line/ReachingSpec.java:472-502 | A key the spec has ends with the union of both sets. A missing key is added with the concrete set only when that set is non-empty. Keys the concrete map lacks are untouched. |
| Merges.MergeKey | transfer_testing/client/src/main/java/org/evosuite/coverage/line/ReachingSpec.java:475-501 | One round changes only its own key, to the union or to the non-empty concrete set. |
| Merges.SetMapMergeSelf | transfer_testing/client/src/main/java/org/evosuite/coverage/line/ReachingSpec.java:472-502 | Merging a spec's set map with itself leaves it unchanged. |
| Fitness.ExceptionMatch | transfer_testing/client/src/main/java/org/evosuite/coverage/line/ReachabilityCoverageTestFitness.java:64-81 | The output matches when the recorded exception has the same class and an equal message as some thrown one. A recorded exception without a message throws as soon as there is something to compare. |
| Fitness.OutputWeight | transfer_testing/client/src/main/java/org/evosuite/coverage/line/ReachabilityCoverageTestFitness.java:93-97 | In integer division the output weight is 1 exactly when the recorded spec has no argument entries, and 0 otherwise (also without a spec). |
| Fitness.RaisedSimilarity | transfer_testing/client/src/main/java/org/evosuite/coverage/line/ReachabilityCoverageTestFitness.java:116-122 | A target reached with arguments never scores a similarity at or below 0; such a value becomes 0.01. |
| Fitness.ComparingFitness | transfer_testing/client/src/main/java/org/evosuite/coverage/line/ReachabilityCoverageTestFitness.java:101-145 | A test calling the callee itself scores 1.0. A similarity above 1 throws. A valid similarity never throws. Zero fitness with a matched output means the callee is not called and the similarity is exactly 1. |
| Fitness.GetFitness | transfer_testing/client/src/main/java/org/evosuite/coverage/line/ReachabilityCoverageTestFitness.java:59-183 | Recording never fails. It stores the spec under the test's name, sets the output weight and scores 0 without covering. Comparing leaves the specs and the weight alone. The iteration's and the archive's best fitness never grow, and end at or below this fitness. |
| Fitness.FitnessWithinTwo | transfer_testing/client/src/main/java/org/evosuite/coverage/line/ReachabilityCoverageTestFitness.java:59-183 | The fitness lies between 0 and 2 (or is NaN), and the output weight stays 0 or 1. |
| Fitness.CoveredIff | transfer_testing/client/src/main/java/org/evosuite/coverage/line/ReachabilityCoverageTestFitness.java:157-162 | While comparing, the goal is covered exactly when the test does not call the callee itself, the output has been matched and the similarity is exactly 1. |
| Fitness.IsCovered | transfer_testing/client/src/main/java/org/evosuite/testcase/TestFitnessFunction.java:274-280 | Covered means fitness 0: always while recording, and while comparing only for a test that does not call the callee, has similarity 1 and has a matched or weightless output. |
| Fitness.CoveredPrefixDecides | transfer_testing/client/src/main/java/org/evosuite/testcase/TestFitnessFunction.java:199-211 | anyMatch stops at the first covering test, so tests after it are never evaluated. |
| Fitness.RecordingCoversAtOnce | transfer_testing/client/src/main/java/org/evosuite/testcase/TestFitnessFunction.java:213-222 | While recording, a suite covers the goal exactly when it has a test. |
| Fitness.NotCoveredMeansAllNonZero | transfer_testing/client/src/main/java/org/evosuite/testcase/TestFitnessFunction.java:213-222 | A suite that does not cover the goal evaluated every test, in order, to a non-zero fitness. |
| Statements.TargetPackage | transfer_testing/client/src/main/java/org/evosuite/testcase/TestFitnessFunction.java:122-133 | The callee's package is its class name up to the last '.'. Reading it throws without a callee or without a '.'. |
| Statements.HasCalleeMethodAsTestStatement | transfer_testing/client/src/main/java/org/evosuite/testcase/TestFitnessFunction.java:100-143 | The loop, with its early exit on a direct hit, computes the recursive reference HasCallee. |
| Statements.HasCalleeMeans | transfer_testing/client/src/main/java/org/evosuite/testcase/TestFitnessFunction.java:100-143 | A search that does not throw answers true exactly when some statement calls the callee directly or calls a forbidden method in its package. |
| Statements.HasCalleeSucceeds | transfer_testing/client/src/main/java/org/evosuite/testcase/TestFitnessFunction.java:100-143 | The search does not throw when every call converts and the forbidden check can read the package. |
| Statements.HasCalleeWithoutCallee | transfer_testing/client/src/main/java/org/evosuite/testcase/TestFitnessFunction.java:122-133 | With forbidden names but no known callee, any call statement makes the search throw; otherwise it answers false. |
| Statements.DirectCalleeCallFlagged | transfer_testing/client/src/main/java/org/evosuite/testcase/TestFitnessFunction.java:113-120 | A test calling the callee method under its own class is flagged whenever the search completes. |
| Statements.HasCallerMethodAsTestStatement | transfer_testing/client/src/main/java/org/evosuite/testcase/TestFitnessFunction.java:151-180 | The loop computes the recursive reference HasCaller. |
| Statements.HasCallerMeans | transfer_testing/client/src/main/java/org/evosuite/testcase/TestFitnessFunction.java:151-180 | The search answers true exactly when some call hits the caller and every call before it converts. It answers false exactly when every call converts and none hits. |
| Statements.NoCallerNeverFound | transfer_testing/client/src/main/java/org/evosuite/testcase/TestFitnessFunction.java:151-180 | Without a known caller the search never answers true. |
| CoverageFactory.TypeRenamesFacts | transfer_testing/client/src/main/java/org/evosuite/coverage/line/ReachabilityCoverageFactory.java:142-147 | Every renaming replaces two characters starting with '(' or ';', and none introduces ')'. |
| CoverageFactory.DescriptorShape | transfer_testing/client/src/main/java/org/evosuite/coverage/line/ReachabilityCoverageFactory.java:138-152 | A converted name ends with its only ')' and has every '/' of the package path turned into '.'. |
| CoverageFactory.DescriptorFails | transfer_testing/client/src/main/java/org/evosuite/coverage/line/ReachabilityCoverageFactory.java:138-152 | The conversion throws exactly for a non-empty descriptor made only of ')', which splits into no pieces. |
| CoverageFactory.DescriptorKeepsName | transfer_testing/client/src/main/java/org/evosuite/coverage/line/ReachabilityCoverageFactory.java:138-152 | A method name free of '(', ')', ';' and '/', followed by a descriptor, leads the converted name. |
| CoverageFactory.DescriptorExample | transfer_testing/client/src/main/java/org/evosuite/coverage/line/ReachabilityCoverageFactory.java:138-152 | A worked case: "m()V" converts to "m()". |
| CoverageFactory.ObjectIntDescriptor | transfer_testing/client/src/main/java/org/evosuite/coverage/line/ReachabilityCoverageFactory.java:138-152 | A method taking a class and an int, such as "foo(Ljava/lang/String;I)V", converts to its name, the dotted class path and ",int", such as "foo(java.lang.String,int)". This holds for any name and any class path without the descriptor's delimiters. |
| CoverageFactory.GetCoverageGoals | transfer_testing/client/src/main/java/org/evosuite/coverage/line/ReachabilityCoverageFactory.java:107-135 | There is one goal per recorded test name, in order. Names without a spec get a fresh one, and existing specs are untouched. |
| CoverageFactory.TargetIdentifierRoundTrip | transfer_testing/client/src/main/java/org/evosuite/coverage/line/ReachabilityCoverageFactory.java:154-156 | The identifier splits back on ':' into the caller's class and method. |
| AbstractFactory.IsCUT | transfer_testing/client/src/main/java/org/evosuite/testsuite/AbstractFitnessFactory.java:54-66 | With no target class every class is under test. Otherwise: the target, its nested classes, the callee's class and the additional classes. The callee is read, and throws while unknown, only when the target tests fail. |
| AbstractFactory.SuiteFitness | transfer_testing/client/src/main/java/org/evosuite/testsuite/AbstractFitnessFactory.java:69-87 | The suite fitness is the number of goals no test covers, between 0 and the number of goals. |
| AbstractFactory.AllCoveredIff | transfer_testing/client/src/main/java/org/evosuite/testsuite/AbstractFitnessFactory.java:69-87 | The suite fitness is 0 exactly when every goal is covered by some test. |
| AbstractFactory.NoTestsNothingCovered | transfer_testing/client/src/main/java/org/evosuite/testsuite/AbstractFitnessFactory.java:69-87 | Without tests no goal is covered. |
| SerializableInspectors.From | transfer_testing/client/src/main/java/org/evosuite/assertion/SerializableInspector.java:43-45 | from() fills both fields. |
| SerializableInspectors.FromInjective | transfer_testing/client/src/main/java/org/evosuite/assertion/SerializableInspector.java:43-45 | Distinct inspectors give distinct serializable inspectors. |
| SerializableInspectors.ToString | transfer_testing/client/src/main/java/org/evosuite/assertion/SerializableInspector.java:48-54 | toString throws exactly when a field is null. Otherwise it starts with the class, ':', the method name and ':'. |
| SerializableInspectors.EqualsContract | transfer_testing/client/src/main/java/org/evosuite/assertion/SerializableInspector.java:68-87 | equals is reflexive, symmetric and transitive, and false for null or another class. It holds exactly for equal fields and agrees with hashCode. |
| SerializableInspectors.ParseRef | transfer_testing/client/src/main/java/org/evosuite/coverage/line/ReachabilitySpecUnderInferenceUtils.java:793-813 | Reading back succeeds exactly when the text splits into at least a class and a method name. Parameter types are read only from a third piece. |
| SerializableInspectors.RoundTrip | transfer_testing/client/src/main/java/org/evosuite/coverage/line/ReachabilitySpecUnderInferenceUtils.java:793-813 | Splitting the text form of an inspector with clean names gives back its class, method name and parameter types, with or without parameters. |
| SerializableInspectors.FromRoundTrip | transfer_testing/client/src/main/java/org/evosuite/assertion/SerializableInspector.java:43-54 | from() followed by toString and the deserializer's split gives back the inspector's names. |
| ReplaceVisitor.Step | transfer_testing/client/src/main/java/org/evosuite/instrumentation/ReplaceMethodVisitor.java:48-117 | A plain instruction is forwarded and leaves the state alone. A variable instruction is forwarded, and an ALOAD also appends its variable to the load buffer. A non-matching call is forwarded and clears the buffer. A matched call records its descriptor and clears the buffer. For an instance call with buffered loads it emits one POP per load, then the loads again without the first; a static call emits nothing extra. It ends with an INVOKESTATIC of the replacement with the same descriptor. |
| ReplaceVisitor.StepAsWritten | transfer_testing/client/src/main/java/org/evosuite/instrumentation/ReplaceMethodVisitor.java:80-81 | The visitor as written throws exactly on a matched call whose descriptor has no ";)"; otherwise it behaves like the corrected step. |
| ReplaceVisitor.AsWrittenThrowsWithoutObjectParameter | transfer_testing/client/src/main/java/org/evosuite/instrumentation/ReplaceMethodVisitor.java:80-83 | A matched call whose descriptor has no ';' throws as written, while the corrected step records the descriptor. |
| ReplaceVisitor.NoArgumentCallThrows | transfer_testing/client/src/main/java/org/evosuite/instrumentation/ReplaceMethodVisitor.java:80-81 | A matched call of a no-argument void method ("()V") throws as written. |
| ReplaceVisitor.Rewrite | transfer_testing/client/src/main/java/org/evosuite/instrumentation/ReplaceMethodVisitor.java:59-117 | Driving the visitor over a method body emits exactly the events of the callback-by-callback rewrite. |
| ReplaceVisitor.UntouchedWithoutTarget | transfer_testing/client/src/main/java/org/evosuite/instrumentation/ReplaceMethodVisitor.java:72-79 | A body with no call to the target passes through unchanged, and no signature is reported. |
| ReplaceVisitor.NoTargetCallRemains | transfer_testing/client/src/main/java/org/evosuite/instrumentation/ReplaceMethodVisitor.java:93-116 | When the replacement differs from the target, no call to the target survives the rewrite. |
| ReplaceVisitor.FixupDropsReceiver | transfer_testing/client/src/main/java/org/evosuite/instrumentation/ReplaceMethodVisitor.java:93-110 | For an instance call whose buffered loads are the top of the operand stack, the pops and reloads remove the receiver and keep the arguments in order. |
| ReplaceVisitor.RunReloads | transfer_testing/client/src/main/java/org/evosuite/instrumentation/ReplaceMethodVisitor.java:59-67 | A run of ALOADs passes through unchanged and appends its variables, in order, to the load buffer. |
| ReplaceVisitor.LoadsThenCallDropReceiver | transfer_testing/client/src/main/java/org/evosuite/instrumentation/ReplaceMethodVisitor.java:59-117 | Rewriting the loads of a receiver and its arguments followed by a matched instance call emits the loads, one POP per load, the arguments reloaded, and the INVOKESTATIC. Run on any operand stack, the events before the INVOKESTATIC leave exactly the arguments, in order, above it. |
| Floats.DivInt | transfer_testing/client/src/main/java/org/evosuite/coverage/line/ReachabilitySpecUnderInferenceUtils.java:352 | A score divided by an integer count is a number exactly when both are finite and the count is non-zero; 0/0 is NaN. |
| Floats.DivIntSelf | transfer_testing/client/src/main/java/org/evosuite/coverage/line/ReachabilitySpecUnderInferenceUtils.java:352 | A non-zero count divided by itself is exactly 1, and 0/0 is NaN. |
| Floats.DivIntWithin | transfer_testing/client/src/main/java/org/evosuite/coverage/line/ReachabilitySpecUnderInferenceUtils.java:352 | A score within n points, divided by n, lies between 0 and 1 unless it is NaN. |
| Floats.Min | transfer_testing/client/src/main/java/org/evosuite/coverage/line/ReachabilityCoverageTestFitness.java:147-148 | Math.min is NaN when either operand is; otherwise it is one of the operands and no greater than either. |
| JavaStrings.Latin1RoundTrip | transfer_testing/client/src/main/java/org/evosuite/coverage/line/ReachabilitySpecUnderInferenceUtils.java:702 | Decoding bytes as ISO/IEC 8859-1 loses nothing: encoding the text gives the bytes back. |
| JavaStrings.MockMarkerTextNever | transfer_testing/client/src/main/java/org/evosuite/coverage/line/ReachabilitySpecUnderInferenceUtils.java:707-710 | The mock filters lower-case the text and then search for mixed-case markers, so they never match. |
| JavaStrings.SplitJoin | transfer_testing/client/src/main/java/org/evosuite/coverage/line/ReachabilitySpecUnderInferenceUtils.java:793-813 | Splitting the join of non-empty parts free of the delimiter gives the parts back. |
| JavaStrings.SplitEmpty | transfer_testing/client/src/main/java/org/evosuite/coverage/line/ReachabilityCoverageFactory.java:141 | split yields no pieces exactly for a non-empty text made only of the delimiter. |

## Left out

- Reflection, class loading and the inspector manager are not modelled: every value carries its inspectors' outcomes as data.
- An inspector that throws during recording or comparison is modelled as `Threw`; which exception it was is not.
- Gson serialisation, file I/O (`serialize`, `deserialize(filePath)`, `performResetByCopyingFile`, `writeTestToOutputFile`), logging and printing are left out: none of them affects a result.
- The deserializer's reflective lookups are left out. These are `Class.forName` and the search through `getMethods()`. Only its text handling is modelled (`SerializableInspectors.ParseRef`). That search compares the parameter type at the method's own index in `getMethods()` rather than at each parameter position (ReachabilitySpecUnderInferenceUtils.java:837). Because the lookup is reflective, this slip is noted here and not modelled.
- `getTypesListedInCalleSignature`, `favourConcreteTypes` and `ReachingSpec.updateSpecOfInspector` are left out. They feed the test generator's type choices and the caller-side spec, not the core's results.
- The `ConstantPoolManager` side effects of recording are left out; they only seed the test generator.
- The archive update at the end of `getFitness` and the `TEST_ARCHIVE` output file are left out. The best fitness so far is modelled.
- Fitness.GetFitness: the similarity of the trace to the spec is an input (`Execution.similarity`). It is not recomputed from the trace; `Comparator.CompareObjects` is the model of that computation.
- Fitness.GetFitness: the static fields written before an exception escapes are not kept; a `Failure` carries no state.
- Fitness.IsCovered: the `isGoalCovered` cache of a test and the re-running of a changed test in `isCovered(TestChromosome)` are left out; each execution is given.
- AbstractFactory.SuiteFitness: "a test covers a goal" is a given pure relation. In the source it runs `isCovered`, which updates the fitness statics.
- SerializableInspectors.HashCode: `Class.hashCode()` is an identity hash and is a parameter. `Method.hashCode()` is modelled over the names.
- SerializableInspectors.StringHash: characters are taken as UTF-16 code units only for code points below 65536. Surrogate pairs are not split.
- Checker.CheckInspector: texts are sequences of Unicode scalar values, not UTF-16 code units. So the 32767 and `MAX_STRING` length filters (ReachingSpec.java:371-376) count a character outside the Basic Multilingual Plane once where Java's `length()` counts two. A lone surrogate, which a Java string can hold, cannot be represented at all.
- Recorder.RecordProbe: the `MAX_STRING` filter on recorded String outputs counts Unicode scalar values, not UTF-16 code units. The same holds for the comparison's filter (`Comparator.CompareProbe`).
- SelfMatch.RecordedArgumentsMatch: the `MAX_STRING` bound in its precondition (`SelfMatch.FullyComparable`) counts Unicode scalar values. A Java text of that many characters with a supplementary character has a longer `length()`, so Java can drop an output that this model keeps.
- Similarity.StringSimilarity: the edit distance and the longer length count Unicode scalar values, not UTF-16 code units. So a text with characters outside the Basic Multilingual Plane can get a different similarity than in Java.
- Comparator.CompareObjects: the [0,1] bound is proved for arbitrary arguments only with nested checks off (`OtherBound.OtherArgumentsBounded`). With nested checks on, a nested object can have inspectors the recorder never saw. The score can then exceed 1 under either nested rule (`OtherBound.NestedStrangerExceedsOne`), and the fitness throws.
- Statements.HasCalleeMethodAsTestStatement: the callee's class name and method name, two static fields, are one optional `Callee`. A state where only one of them is known is not modelled.
- Statements.HasCallerMethodAsTestStatement: the caller's class and method, two static fields, are one optional `Caller`. With the class set and the method null, Java's `name.contains(null)` throws (TestFitnessFunction.java:163-165); the model has no such state and so never throws there.
- CoverageFactory.TargetIdentifier: for the same half-set caller, Java builds the text "C:null" (ReachabilityCoverageFactory.java:155). The model has no such state.
- SerializableInspectors.ToString: the class and parameter type names are always text. Java's `toString` appends "null" for a type whose `getCanonicalName()` is null, a local or anonymous class (SerializableInspector.java:49-52); that output is not modelled.
- ReplaceVisitor.Step: only `ALOAD` variable instructions are buffered, as in the source. Other instructions pass through, and the commented-out handling of `ALOAD_n` is not modelled.
- Merges.MergeInspectorSetMaps: set maps hold no null sets. The source would throw copying a null concrete set.
- Floats.Add: float and double rounding is not modelled; finite values are exact reals.
- Checker.Verdicts: an inspector whose call throws is skipped. Java catches the exception and logs it.

## Findings

| source | as written | input that shows it | evidently intended | confidence | as-written member | corrected member |
|---|---|---|---|---|---|---|
| transfer_testing/client/src/main/java/org/evosuite/coverage/line/ReachabilitySpecUnderInferenceUtils.java:622-625 | The nested comparison awards a point for every null output below an argument, whatever the inspector's type, while the recorder counted nothing for ignored types such as Integer. | An argument of class C with a Boolean `isReady()` returning true and `getDelegate()` returning an object whose Integer `getCount()` returns null, nested checks on: it scores 2.0 against the spec recorded from it. | Points awarded only where the recorder counted them, so that a recorded argument scores at most 1 against its own spec. | medium, not executed | SelfBound.AsWrittenExceedsOne | SelfBound.RecordedArgumentsBounded |
| transfer_testing/client/src/main/java/org/evosuite/instrumentation/ReplaceMethodVisitor.java:80-81 | The log line for a matched call takes `desc.split(";\\)")[1]`, which throws when the descriptor has no ";)". That is every call without an object-typed last parameter. | A matched call with descriptor "()V". | The log line should not decide whether the call is rewritten; the rewrite proceeds. | high, not executed | ReplaceVisitor.NoArgumentCallThrows | ReplaceVisitor.Step |

=== FILE: abstract_factory.dfy ===
/**
 * `AbstractFitnessFactory`: which classes count as classes under test, and the suite-level
 * fitness, the number of goals that no test of the suite covers.
 */
module AbstractFactory {
  import opened Wrappers
  import opened Settings
  import opened JavaStrings

  /**
   * `isCUT(className)`: every class when no target class is set; otherwise the target class, its
   * nested classes, the vulnerable callee's class and the additionally listed classes. The `||`
   * chain short-circuits, so the callee's class is read, and throws while unknown, only when
   * the target class tests fail.
   */
  function IsCUT(cfg: Config, className: string): (r: Result<bool, Fault>)
    ensures cfg.targetClass == "" ==> r == Success(true)
    ensures r.Failure? <==> !TargetMatches(cfg, className) && cfg.callee.None?
    ensures r.Success? ==> (r.value <==> (
      TargetMatches(cfg, className)
      || cfg.callee.value.classNormalName == className || className in cfg.additionalClasses))
  {
    if TargetMatches(cfg, className) then Success(true)
    else if cfg.callee.None? then Failure(NullPointer)
    else Success(cfg.callee.value.classNormalName == className || className in cfg.additionalClasses)
  }

  /** The target-class part of `isCUT`: no target, the target itself, or a class nested in it. */
  predicate TargetMatches(cfg: Config, className: string) {
    cfg.targetClass == "" || className == cfg.targetClass || StartsWith(className, cfg.targetClass + "$")
  }

  /** Some test of the suite covers the goal. */
  predicate CoveredBySome<G, T>(goal: G, tests: seq<T>, covers: (G, T) -> bool) {
    exists k :: 0 <= k < |tests| && covers(goal, tests[k])
  }

  /** The number of goals, counted with repetition, that some test covers. */
  function CoveredGoals<G, T>(goals: seq<G>, tests: seq<T>, covers: (G, T) -> bool): (n: nat)
    ensures n <= |goals|
    decreases |goals|
  {
    if |goals| == 0 then 0
    else
      var last := if CoveredBySome(goals[|goals| - 1], tests, covers) then 1 else 0;
      CoveredGoals(goals[..|goals| - 1], tests, covers) + last
  }

  /**
   * `getFitness(suite)`: for each goal, the tests are tried in order until one covers it; the
   * fitness is the number of goals left uncovered.
   */
  method SuiteFitness<G, T>(goals: seq<G>, tests: seq<T>, covers: (G, T) -> bool) returns (r: int)
    ensures r == |goals| - CoveredGoals(goals, tests, covers)
    ensures 0 <= r <= |goals|
  {
    var coveredGoals := 0;
    var i := 0;
    while i < |goals|
      invariant 0 <= i <= |goals|
      invariant coveredGoals == CoveredGoals(goals[..i], tests, covers)
    {
      var j := 0;
      var hit := false;
      while j < |tests| && !hit
        invariant 0 <= j <= |tests|
        invariant hit <==> exists k :: 0 <= k < j && covers(goals[i], tests[k])
      {
        if covers(goals[i], tests[j]) {
          hit := true;
        }
        j := j + 1;
      }
      assert hit <==> CoveredBySome(goals[i], tests, covers);
      assert goals[..i + 1][..i] == goals[..i];
      if hit {
        coveredGoals := coveredGoals + 1;
      }
      i := i + 1;
    }
    assert goals[..i] == goals;
    r := |goals| - coveredGoals;
  }

  /** The suite fitness is 0 exactly when every goal is covered by some test. */
  lemma {:induction false} AllCoveredIff<G, T>(goals: seq<G>, tests: seq<T>, covers: (G, T) -> bool)
    ensures CoveredGoals(goals, tests, covers) == |goals| <==>
      forall i :: 0 <= i < |goals| ==> CoveredBySome(goals[i], tests, covers)
    decreases |goals|
  {
    if |goals| > 0 {
      var init := goals[..|goals| - 1];
      AllCoveredIff(init, tests, covers);
      assert forall i :: 0 <= i < |init| ==> init[i] == goals[i];
    }
  }

  /** Without tests no goal is covered, so the suite fitness is the number of goals. */
  lemma {:induction false} NoTestsNothingCovered<G, T>(goals: seq<G>, covers: (G, T) -> bool)
    ensures CoveredGoals(goals, [], covers) == 0
    decreases |goals|
  {
    if |goals| > 0 {
      NoTestsNothingCovered(goals[..|goals| - 1], covers);
    }
  }
}

=== FILE: checker.dfy ===
/**
 * `ReachingSpec.isArgumentsSatisfied` and `checkInspector`: whether the arguments of one call
 * of the target callee satisfy a spec, as a count of violations.
 */
module Checker {
  import opened Wrappers
  import opened Values
  import opened Settings
  import opened ReachingSpecs
  import JavaStrings

  // ---------------------------------------------------------------------------------------------
  // SatisfactionResult
  // ---------------------------------------------------------------------------------------------

  datatype Label = Met | Partial | Partial1 | Failed

  datatype SatisfactionResult = SatisfactionResult(status: Label, violations: int)

  /** `new SatisfactionResult(label)`: only a FAILED result starts with violations, 99 of them. */
  function NewResult(l: Label): SatisfactionResult {
    SatisfactionResult(l, if l == Failed then 99 else 0)
  }

  /** The shared `FAILED_INSTANCE`. */
  const FailedResult: SatisfactionResult := NewResult(Failed)

  /** `increaseViolation()`. */
  function Increase(r: SatisfactionResult): SatisfactionResult {
    SatisfactionResult(Partial, r.violations + 1)
  }

  /** `increaseViolation(count)`: a count below 1 changes nothing. */
  function IncreaseBy(r: SatisfactionResult, count: int): SatisfactionResult {
    if count >= 1 then SatisfactionResult(Partial, r.violations + count) else r
  }

  /** What a result that started out MET looks like after any increases: MET exactly while no violation was counted. */
  predicate Consistent(r: SatisfactionResult) {
    r.violations >= 0 && (r.status == Met <==> r.violations == 0) && (r.status == Met || r.status == Partial)
  }

  /** A fresh MET result is consistent, and both ways of increasing keep it so. */
  lemma IncreaseKeepsConsistent(r: SatisfactionResult, count: int)
    requires Consistent(r)
    ensures Consistent(NewResult(Met))
    ensures Consistent(Increase(r)) && Increase(r).status == Partial
    ensures Consistent(IncreaseBy(r, count))
    ensures IncreaseBy(r, count).violations == r.violations + (if count >= 1 then count else 0)
  {
  }

  // ---------------------------------------------------------------------------------------------
  // checkInspector
  // ---------------------------------------------------------------------------------------------

  /** What one inspector of the argument contributes to the string and Boolean violation counts. */
  datatype Verdict =
    | Skipped      // not looked at, its output ignored, or no expectation recorded
    | StringMiss   // a String output outside the expected set
    | StringPass   // a String output inside the expected set: ends the scan and forgives string misses
    | BoolMiss     // a Boolean output different from the recorded one
    | NullMiss     // a null output where strings were expected

  /**
   * The verdict on one inspector of `target`. Inspectors declared by `java.lang.Object` and every
   * inspector of a mock proxy are skipped; so is one that threw, and every inspector of an object
   * whose class has no canonical name (the mock-proxy test throws), since the exception is caught.
   * Only a `java.lang.String` output (not a byte array) is compared with the expected strings,
   * and only when shorter than 32767 characters and within the configured string limit.
   */
  function VerdictOf(cfg: Config, strs: map<Inspector, seq<Option<string>>>, bools: map<Inspector, Option<bool>>,
                     target: Value, p: Probe): Verdict
  {
    if p.insp.m.declaringClass == "java.lang.Object" || target == Null || !HasCanonicalName(target)
       || IsMockProxy(target) || p.out.Threw? then Skipped
    else match p.out.v
      case Str(s, _) =>
        if |s| >= 32767 || |s| > cfg.maxString || JavaStrings.MockMarkerText(s) || p.insp !in strs then Skipped
        else if Some(s) in strs[p.insp] then StringPass
        else StringMiss
      case Bool(b, _) =>
        if p.insp in bools && bools[p.insp].Some? && bools[p.insp].value != b then BoolMiss else Skipped
      case Null => if p.insp in strs then NullMiss else Skipped
      case _ => Skipped
  }

  /** The inspectors of a value's class; a null target has none that can be called. */
  function ProbesOf(v: Value): seq<Probe> {
    if v == Null then [] else v.probes
  }

  function Verdicts(cfg: Config, strs: map<Inspector, seq<Option<string>>>, bools: map<Inspector, Option<bool>>,
                    target: Value): (vs: seq<Verdict>)
    ensures |vs| == |ProbesOf(target)|
    ensures forall j :: 0 <= j < |vs| ==> vs[j] == VerdictOf(cfg, strs, bools, target, ProbesOf(target)[j])
  {
    var ps := ProbesOf(target);
    seq(|ps|, j requires 0 <= j < |ps| => VerdictOf(cfg, strs, bools, target, ps[j]))
  }

  function StringCost(vs: seq<Verdict>): nat {
    if |vs| == 0 then 0
    else StringCost(vs[..|vs| - 1]) + (if vs[|vs| - 1] == StringMiss || vs[|vs| - 1] == NullMiss then 1 else 0)
  }

  function BoolCost(vs: seq<Verdict>): nat {
    if |vs| == 0 then 0
    else BoolCost(vs[..|vs| - 1]) + (if vs[|vs| - 1] == BoolMiss then 2 else 0)
  }

  /** The position of the first passing string inspector. */
  function FirstPass(vs: seq<Verdict>): (r: Option<nat>)
    ensures r.Some? ==> r.value < |vs| && vs[r.value] == StringPass && StringPass !in vs[..r.value]
    ensures r.None? ==> StringPass !in vs
  {
    if |vs| == 0 then None
    else if vs[0] == StringPass then Some(0)
    else match FirstPass(vs[1..])
      case None => None
      case Some(k) =>
        assert vs[..k + 1] == [vs[0]] + vs[1..][..k];
        Some(k + 1)
  }

  /**
   * The violations `checkInspector` reports, stated over the verdicts: once a string inspector
   * passes, only the Boolean misses before it count; otherwise every string miss counts one and
   * every Boolean miss two.
   */
  function InspectorViolations(cfg: Config, strs: map<Inspector, seq<Option<string>>>,
                               bools: map<Inspector, Option<bool>>, target: Value): nat
  {
    VerdictViolations(Verdicts(cfg, strs, bools, target))
  }

  /** The violations over a sequence of verdicts, as `InspectorViolations` counts them. */
  function VerdictViolations(vs: seq<Verdict>): nat {
    match FirstPass(vs)
    case Some(k) => BoolCost(vs[..k])
    case None => StringCost(vs) + BoolCost(vs)
  }

  /** `checkInspector(inspectors, argNum, ..., target)`: the scan over the inspectors, stopping at the first pass. */
  method CheckInspector(cfg: Config, strs: map<Inspector, seq<Option<string>>>, bools: map<Inspector, Option<bool>>,
                        target: Value) returns (n: int)
    ensures n == InspectorViolations(cfg, strs, bools, target)
  {
    var vs := Verdicts(cfg, strs, bools, target);
    n := ScanVerdicts(vs);
  }

  /**
   * The loop of `checkInspector`, over the verdicts on the inspectors in order: string misses
   * and Boolean misses are counted until a string inspector passes, which forgives the string
   * misses and ends the scan.
   */
  method ScanVerdicts(vs: seq<Verdict>) returns (n: int)
    ensures n == VerdictViolations(vs)
  {
    var stringViolations := 0;
    var booleanViolations := 0;
    var pass := false;
    var j := 0;
    while j < |vs| && !pass
      invariant 0 <= j <= |vs|
      invariant !pass ==> StringPass !in vs[..j] && stringViolations == StringCost(vs[..j])
      invariant pass ==> j < |vs| && vs[j] == StringPass && StringPass !in vs[..j] && stringViolations == 0
      invariant booleanViolations == BoolCost(vs[..j])
      decreases |vs| - j, if pass then 0 else 1
    {
      var v := vs[j];
      CostStep(vs, j);
      if v == StringPass {
        stringViolations := 0;
        pass := true;
      } else {
        if v == StringMiss || v == NullMiss {
          stringViolations := stringViolations + 1;
        } else if v == BoolMiss {
          booleanViolations := booleanViolations + 2;
        }
        j := j + 1;
      }
    }
    if pass {
      stringViolations := 0;
    } else {
      assert vs[..j] == vs;
    }
    n := stringViolations + booleanViolations;
  }

  /** Extending a prefix of the verdicts by one adds that verdict's cost. */
  lemma CostStep(vs: seq<Verdict>, j: nat)
    requires j < |vs|
    ensures StringPass !in vs[..j] && vs[j] != StringPass ==> StringPass !in vs[..j + 1]
    ensures StringCost(vs[..j + 1]) == StringCost(vs[..j]) + (if vs[j] == StringMiss || vs[j] == NullMiss then 1 else 0)
    ensures BoolCost(vs[..j + 1]) == BoolCost(vs[..j]) + (if vs[j] == BoolMiss then 2 else 0)
  {
    assert vs[..j + 1] == vs[..j] + [vs[j]];
    assert vs[..j + 1][..j] == vs[..j];
  }

  lemma {:induction false} StringCostZero(vs: seq<Verdict>)
    ensures StringCost(vs) == 0 <==> StringMiss !in vs && NullMiss !in vs
  {
    if |vs| > 0 {
      StringCostZero(vs[..|vs| - 1]);
      assert vs == vs[..|vs| - 1] + [vs[|vs| - 1]];
    }
  }

  lemma {:induction false} BoolCostZero(vs: seq<Verdict>)
    ensures BoolCost(vs) == 0 <==> BoolMiss !in vs
  {
    if |vs| > 0 {
      BoolCostZero(vs[..|vs| - 1]);
      assert vs == vs[..|vs| - 1] + [vs[|vs| - 1]];
    }
  }

  /**
   * The public `checkInspector(..., var, scope)` holds exactly when no Boolean inspector before
   * the first passing string inspector disagrees, and, when no string inspector passes, none misses.
   */
  lemma InspectorHoldsIff(cfg: Config, strs: map<Inspector, seq<Option<string>>>,
                          bools: map<Inspector, Option<bool>>, target: Value)
    ensures var vs := Verdicts(cfg, strs, bools, target);
      InspectorViolations(cfg, strs, bools, target) == 0 <==>
        match FirstPass(vs)
        case Some(k) => BoolMiss !in vs[..k]
        case None => BoolMiss !in vs && StringMiss !in vs && NullMiss !in vs
  {
    var vs := Verdicts(cfg, strs, bools, target);
    match FirstPass(vs)
    case Some(k) => BoolCostZero(vs[..k]);
    case None => BoolCostZero(vs); StringCostZero(vs);
  }

  /** Without recorded expectations for the argument, no inspector can be violated. */
  lemma NoExpectationNoViolation(cfg: Config, target: Value)
    ensures InspectorViolations(cfg, map[], map[], target) == 0
  {
    var vs := Verdicts(cfg, map[], map[], target);
    forall j | 0 <= j < |vs|
      ensures vs[j] == Skipped
    {
      NoExpectationSkipped(cfg, map[], map[], target, ProbesOf(target)[j]);
    }
    AllSkippedNoViolation(vs);
  }

  /**
   * A target whose class has no canonical name violates nothing: the mock-proxy test throws for
   * it and the exception is caught, so every inspector is skipped.
   */
  lemma UnnamedTargetNoViolation(cfg: Config, strs: map<Inspector, seq<Option<string>>>,
                                 bools: map<Inspector, Option<bool>>, target: Value)
    requires target != Null && !HasCanonicalName(target)
    ensures InspectorViolations(cfg, strs, bools, target) == 0
  {
    var vs := Verdicts(cfg, strs, bools, target);
    forall j | 0 <= j < |vs|
      ensures vs[j] == Skipped
    {
      assert vs[j] == VerdictOf(cfg, strs, bools, target, ProbesOf(target)[j]);
    }
    AllSkippedNoViolation(vs);
  }

  lemma NoExpectationSkipped(cfg: Config, strs: map<Inspector, seq<Option<string>>>,
                             bools: map<Inspector, Option<bool>>, target: Value, p: Probe)
    requires p.insp !in strs && p.insp !in bools
    ensures VerdictOf(cfg, strs, bools, target, p) == Skipped
  {
    if !p.out.Threw? {
      match p.out.v
      case Str(_, _) =>
      case Bool(_, _) =>
      case _ =>
    }
  }

  lemma AllSkippedNoViolation(vs: seq<Verdict>)
    requires forall j :: 0 <= j < |vs| ==> vs[j] == Skipped
    ensures VerdictViolations(vs) == 0
  {
    assert StringPass !in vs && StringMiss !in vs && NullMiss !in vs && BoolMiss !in vs;
    BoolCostZero(vs);
    StringCostZero(vs);
  }

  // ---------------------------------------------------------------------------------------------
  // isArgumentsSatisfied
  // ---------------------------------------------------------------------------------------------

  /**
   * The lazy initialisation at the start of a check: a spec with no string-inspector entries
   * receives one empty string map, Boolean map, literal set and nested map per argument.
   */
  function LazyInit(spec: Spec, n: nat): (s: Spec)
    ensures |spec.argStringInspectors| > 0 ==> s == spec
    ensures |spec.argStringInspectors| == 0 ==>
      |s.argStringInspectors| == n && |s.argBoolInspectors| == |spec.argBoolInspectors| + n
      && |s.argStringValue| == |spec.argStringValue| + n
      && (forall k :: 0 <= k < n ==> s.argStringInspectors[k] == map[])
      && (forall k :: 0 <= k < |s.argBoolInspectors| ==>
            s.argBoolInspectors[k] == if k < |spec.argBoolInspectors| then spec.argBoolInspectors[k] else map[])
      && (forall k :: 0 <= k < |s.argStringValue| ==>
            s.argStringValue[k] == if k < |spec.argStringValue| then spec.argStringValue[k] else [])
      && s.argEnumInspectors == spec.argEnumInspectors && s.argIsNull == spec.argIsNull
      && s.partitionSizes == spec.partitionSizes
  {
    if |spec.argStringInspectors| > 0 then spec
    else spec.(argStringInspectors := seq(n, _ => map[]),
               argBoolInspectors := spec.argBoolInspectors + seq(n, _ => map[]),
               argStringValue := spec.argStringValue + seq(n, _ => []),
               nestedStringInspectors := spec.nestedStringInspectors + seq(n, _ => map[]))
  }

  /** The lists the check reads have the same length, which it verifies before anything else. */
  predicate SizesAgree(s: Spec) {
    |s.argStringInspectors| == |s.argBoolInspectors| && |s.argStringInspectors| == |s.argStringValue|
  }

  /** An instance callee receives its receiver as argument 0, which has no entry in the spec. */
  predicate ArityMatches(cfg: Config, s: Spec, nArgs: nat) {
    if cfg.calleeIsStatic then |s.argStringInspectors| == nArgs else |s.argStringInspectors| == nArgs - 1
  }

  function ArgIndex(cfg: Config, k: nat): nat {
    if cfg.calleeIsStatic then k else k + 1
  }

  /** The violations the first loop counts for the argument of entry `k`. */
  function SlotViolations(cfg: Config, s: Spec, args: seq<Value>, k: nat): nat
    requires SizesAgree(s) && ArityMatches(cfg, s, |args|) && k < |s.argStringInspectors|
  {
    var a := args[ArgIndex(cfg, k)];
    var strs := s.argStringInspectors[k];
    var bools := s.argBoolInspectors[k];
    if a == Null then |strs| + |bools|
    else
      (if (|strs| > 0 || |bools| > 0) && |a.probes| == 0 then |strs| + |bools| else 0)
      + InspectorViolations(cfg, strs, bools, a)
  }

  /** The violation the second loop counts for entry `k`: a null or a String outside the recorded literals. */
  function LiteralViolation(cfg: Config, s: Spec, args: seq<Value>, k: nat): nat
    requires SizesAgree(s) && ArityMatches(cfg, s, |args|) && k < |s.argStringInspectors|
  {
    var a := args[ArgIndex(cfg, k)];
    var lits := s.argStringValue[k];
    if |lits| > 0 && a == Null then 1
    else if a.Str? && |lits| > 0 && a.s !in lits then 1
    else 0
  }

  /** The violations of the first loop, entry by entry. */
  function SlotCosts(cfg: Config, s: Spec, args: seq<Value>): (cs: seq<nat>)
    requires SizesAgree(s) && ArityMatches(cfg, s, |args|)
    ensures |cs| == |s.argStringInspectors|
    ensures forall k :: 0 <= k < |cs| ==> cs[k] == SlotViolations(cfg, s, args, k)
  {
    seq(|s.argStringInspectors|, k requires 0 <= k < |s.argStringInspectors| => SlotViolations(cfg, s, args, k))
  }

  /** The violations of the second loop, entry by entry. */
  function LiteralCosts(cfg: Config, s: Spec, args: seq<Value>): (cs: seq<nat>)
    requires SizesAgree(s) && ArityMatches(cfg, s, |args|)
    ensures |cs| == |s.argStringInspectors|
    ensures forall k :: 0 <= k < |cs| ==> cs[k] == LiteralViolation(cfg, s, args, k)
  {
    seq(|s.argStringInspectors|, k requires 0 <= k < |s.argStringInspectors| => LiteralViolation(cfg, s, args, k))
  }

  function Total(xs: seq<nat>): nat {
    if |xs| == 0 then 0 else Total(xs[..|xs| - 1]) + xs[|xs| - 1]
  }

  lemma TotalStep(xs: seq<nat>, i: nat)
    requires i < |xs|
    ensures Total(xs[..i + 1]) == Total(xs[..i]) + xs[i]
  {
    assert xs[..i + 1][..i] == xs[..i];
  }

  /**
   * The outcome of a check, stated declaratively: no arguments (the callee was not reached) and a
   * spec whose size does not fit the call fail outright with 99 violations; lists of different
   * lengths throw; otherwise the violations of both loops are added up and the result is MET
   * exactly when there are none. The spec is returned because the check initialises it.
   */
  function Satisfaction(cfg: Config, spec: Spec, args: Option<seq<Value>>): Result<(SatisfactionResult, Spec), Fault> {
    if args.None? then Success((FailedResult, spec))
    else
      var s := LazyInit(spec, |args.value|);
      if !SizesAgree(s) then Failure(IllegalState)
      else if !ArityMatches(cfg, s, |args.value|) then Success((FailedResult, s))
      else
        var total := Total(SlotCosts(cfg, s, args.value)) + Total(LiteralCosts(cfg, s, args.value));
        Success((SatisfactionResult(if total == 0 then Met else Partial, total), s))
  }

  /** `isArgumentsSatisfied(arguments)`, with its two loops over the spec's entries. */
  method IsArgumentsSatisfied(cfg: Config, spec: Spec, args: Option<seq<Value>>)
    returns (r: Result<(SatisfactionResult, Spec), Fault>)
    ensures r == Satisfaction(cfg, spec, args)
  {
    if args.None? {
      return Success((FailedResult, spec));
    }
    var arguments := args.value;
    var s := LazyInit(spec, |arguments|);
    if |s.argStringInspectors| != |s.argBoolInspectors| || |s.argStringInspectors| != |s.argStringValue| {
      return Failure(IllegalState);
    }
    if !ArityMatches(cfg, s, |arguments|) {
      return Success((FailedResult, s));
    }
    var result := CheckInspectorsLoop(cfg, s, arguments);
    result := CheckLiteralsLoop(cfg, s, arguments, result);
    return Success((result, s));
  }

  /** The first loop: the inspectors of every argument. */
  method CheckInspectorsLoop(cfg: Config, s: Spec, arguments: seq<Value>) returns (result: SatisfactionResult)
    requires SizesAgree(s) && ArityMatches(cfg, s, |arguments|)
    ensures Consistent(result) && result.violations == Total(SlotCosts(cfg, s, arguments))
  {
    var n := |s.argStringInspectors|;
    ghost var costs := SlotCosts(cfg, s, arguments);
    result := NewResult(Met);
    var argNum := 0;
    while argNum < n
      invariant 0 <= argNum <= n
      invariant Consistent(result) && result.violations == Total(costs[..argNum])
    {
      TotalStep(costs, argNum);
      result := CheckArgument(cfg, s, arguments, argNum, result);
      argNum := argNum + 1;
    }
    assert costs[..n] == costs;
  }

  /** One round of the first loop: the violations of the argument of entry `argNum`. */
  method CheckArgument(cfg: Config, s: Spec, arguments: seq<Value>, argNum: nat, result: SatisfactionResult)
    returns (r: SatisfactionResult)
    requires SizesAgree(s) && ArityMatches(cfg, s, |arguments|) && argNum < |s.argStringInspectors|
    requires Consistent(result)
    ensures Consistent(r) && r.violations == result.violations + SlotViolations(cfg, s, arguments, argNum)
  {
    var argument := arguments[ArgIndex(cfg, argNum)];
    var strs := s.argStringInspectors[argNum];
    var bools := s.argBoolInspectors[argNum];
    r := result;
    if argument == Null {
      r := IncreaseBy(r, |strs|);
      r := IncreaseBy(r, |bools|);
    } else {
      if (|strs| > 0 || |bools| > 0) && |argument.probes| == 0 {
        r := IncreaseBy(r, |strs| + |bools|);
      }
      var found := CheckInspector(cfg, strs, bools, argument);
      r := IncreaseBy(r, found);
    }
  }

  /** The second loop: each String argument against the literals recorded for it. */
  method CheckLiteralsLoop(cfg: Config, s: Spec, arguments: seq<Value>, start: SatisfactionResult)
    returns (result: SatisfactionResult)
    requires SizesAgree(s) && ArityMatches(cfg, s, |arguments|) && Consistent(start)
    ensures Consistent(result)
    ensures result.violations == start.violations + Total(LiteralCosts(cfg, s, arguments))
  {
    var n := |s.argStringInspectors|;
    ghost var costs := LiteralCosts(cfg, s, arguments);
    result := start;
    var i := 0;
    while i < n
      invariant 0 <= i <= n
      invariant Consistent(result) && result.violations == start.violations + Total(costs[..i])
    {
      assert costs[..i + 1] == costs[..i] + [costs[i]];
      var argObject := arguments[ArgIndex(cfg, i)];
      var lits := s.argStringValue[i];
      if |lits| > 0 && argObject == Null {
        result := Increase(result);
      } else if argObject.Str? {
        if |lits| > 0 && argObject.s !in lits {
          result := Increase(result);
        }
      }
      i := i + 1;
    }
    assert costs[..n] == costs;
  }

  // ---------------------------------------------------------------------------------------------
  // Properties
  // ---------------------------------------------------------------------------------------------

  /** A check that does not throw is either the shared FAILED result or a consistent MET/PARTIAL one. */
  lemma SatisfactionShape(cfg: Config, spec: Spec, args: Option<seq<Value>>)
    requires Satisfaction(cfg, spec, args).Success?
    ensures var res := Satisfaction(cfg, spec, args).value.0;
      res == FailedResult || Consistent(res)
  {
  }

  /**
   * A spec nothing was recorded into never matches an instance callee: its entries are created
   * for every argument, including the receiver, one more than the arity check wants.
   */
  lemma EmptySpecFailsInstanceCallee(cfg: Config, args: seq<Value>)
    requires !cfg.calleeIsStatic
    ensures Satisfaction(cfg, EmptySpec, Some(args)).Success?
    ensures Satisfaction(cfg, EmptySpec, Some(args)).value.0 == FailedResult
  {
    var s := LazyInit(EmptySpec, |args|);
    assert |s.argStringInspectors| == |args|;
  }

  /** A null argument counts one violation for every string and Boolean expectation of its entry. */
  lemma NullArgumentViolations(cfg: Config, s: Spec, args: seq<Value>, k: nat)
    requires SizesAgree(s) && ArityMatches(cfg, s, |args|) && k < |s.argStringInspectors|
    requires args[ArgIndex(cfg, k)] == Null
    ensures SlotViolations(cfg, s, args, k) == |s.argStringInspectors[k]| + |s.argBoolInspectors[k]|
    ensures LiteralViolation(cfg, s, args, k) == (if |s.argStringValue[k]| > 0 then 1 else 0)
  {
  }

  lemma {:induction false} TotalZero(xs: seq<nat>)
    ensures Total(xs) == 0 <==> forall k :: 0 <= k < |xs| ==> xs[k] == 0
  {
    if |xs| > 0 {
      TotalZero(xs[..|xs| - 1]);
    }
  }

  /**
   * The arguments satisfy the spec (MET) exactly when every entry is free of violations: no
   * inspector check fails, and each String argument is among its recorded literals, if any.
   */
  lemma MetIff(cfg: Config, spec: Spec, args: seq<Value>)
    requires Satisfaction(cfg, spec, Some(args)).Success?
    ensures var (res, s) := Satisfaction(cfg, spec, Some(args)).value;
      res.status == Met <==>
        SizesAgree(s) && ArityMatches(cfg, s, |args|) &&
        forall k :: 0 <= k < |s.argStringInspectors| ==>
          SlotViolations(cfg, s, args, k) == 0 && LiteralViolation(cfg, s, args, k) == 0
  {
    var s := LazyInit(spec, |args|);
    if SizesAgree(s) && ArityMatches(cfg, s, |args|) {
      TotalZero(SlotCosts(cfg, s, args));
      TotalZero(LiteralCosts(cfg, s, args));
    }
  }
}

=== FILE: comparator.dfy ===
/**
 * `ReachabilitySpecUnderInferenceUtils.compareObjects`: how similar the arguments of one
 * execution are to a recorded spec, as a score out of the spec's total partition size.
 *
 * Nested objects are scored by one of two rules. `AsWritten` is `recursivelyCheckNestedInspector`
 * as the source has it; `Mirrored` awards points for exactly the inspectors the recorder counted,
 * which is what keeps the score of the recorded arguments themselves within 1 (see `SelfMatch`).
 */
module Comparator {
  import opened Wrappers
  import opened Values
  import opened Settings
  import opened ReachingSpecs
  import opened Floats
  import opened Similarity
  import opened Recorder

  datatype NestedRule = AsWritten | Mirrored

  // ---------------------------------------------------------------------------------------------
  // Nested objects
  // ---------------------------------------------------------------------------------------------

  /**
   * `recursivelyCheckNestedInspector` from the `j`-th inspector of `v` on. `node` is None where
   * the source passes null (a nested-map lookup that missed), which fails only once a string or
   * object inspector reads a field of it.
   */
  function CheckNestedAsWritten(cfg: Config, node: Option<Node>, v: Value, depth: int, j: nat): Result<Float, Fault>
    requires v != Null && WellTyped(v) && j <= |v.probes|
    decreases v, |v.probes| - j
  {
    if j == |v.probes| then Success(Num(0.0))
    else
      var p := v.probes[j];
      var t := p.insp.ReturnType();
      var here :-
        if p.out.Threw? then Success(Num(0.0))
        else
          var w := OutputAt(v, j);
          if w == Null then Success(Num(1.0))
          else if IsStringLike(t) then
            if node.None? || node.value.values.None? then Failure(NullPointer)
            else if |node.value.values.value| == 0 then Success(Num(2.0))
            else Success(Add(Num(1.0), Sim(node.value.values.value[0], OutputText(w))))
          else if node.None? then Failure(NullPointer)
          else if !node.value.goDeeper || IgnoredWhenComparing(t) || node.value.nested.None? then Success(Num(0.0))
          else
            var child := node.value.nested.value;
            CheckNestedAsWritten(cfg, if child.key == p.insp then Some(child.node) else None, w, depth + 1, 0);
      var rest :- CheckNestedAsWritten(cfg, node, v, depth, j + 1);
      Success(Add(here, rest))
  }

  /** `r` is `here` added to the running total `rest`, or the exception `rest` raised. */
  predicate Adds(r: Result<Float, Fault>, here: Float, rest: Result<Float, Fault>) {
    r == match rest case Success(x) => Success(Add(here, x)) case Failure(e) => Failure(e)
  }

  /**
   * The scoring rules of one nested inspector as written: a thrown exception adds nothing; a null
   * output of any type adds 1; a string-like output adds 2 against an empty recorded value set and
   * otherwise 1 plus the similarity to the first recorded value; any other output adds nothing
   * unless the node says to go deeper and the type is not a wrapper, and then adds the score of
   * the descent into the child recorded for this inspector (a missing one is null). A null node,
   * or a node whose value set is null, throws once a string-like or other non-null output reads it.
   */
  lemma NestedAsWrittenScore(cfg: Config, node: Option<Node>, v: Value, depth: int, j: nat)
    requires v != Null && WellTyped(v) && j < |v.probes|
    ensures var r := CheckNestedAsWritten(cfg, node, v, depth, j);
      var rest := CheckNestedAsWritten(cfg, node, v, depth, j + 1);
      var p := v.probes[j];
      var w := if p.out.Returned? then OutputAt(v, j) else Null;
      && (p.out.Threw? ==> Adds(r, Num(0.0), rest))
      && (p.out.Returned? && w == Null ==> Adds(r, Num(1.0), rest))
      && (p.out.Returned? && w != Null && IsStringLike(p.insp.ReturnType()) ==>
            && (node.None? || node.value.values.None? ==> r == Failure(NullPointer))
            && (node.Some? && node.value.values == Some([]) ==> Adds(r, Num(2.0), rest))
            && (node.Some? && node.value.values.Some? && |node.value.values.value| > 0 ==>
                  Adds(r, Add(Num(1.0), Sim(node.value.values.value[0], OutputText(w))), rest)))
      && (p.out.Returned? && w != Null && !IsStringLike(p.insp.ReturnType()) ==>
            && (node.None? ==> r == Failure(NullPointer))
            && ((node.Some? && (!node.value.goDeeper || IgnoredWhenComparing(p.insp.ReturnType())
                                || node.value.nested.None?)) ==> Adds(r, Num(0.0), rest)))
  {
  }

  /** The descent: the child recorded for this inspector is followed, any other child is null. */
  lemma NestedAsWrittenDescent(cfg: Config, node: Node, v: Value, depth: int, j: nat)
    requires v != Null && WellTyped(v) && j < |v.probes|
    requires v.probes[j].out.Returned? && OutputAt(v, j) != Null && !IsStringLike(v.probes[j].insp.ReturnType())
    requires node.goDeeper && !IgnoredWhenComparing(v.probes[j].insp.ReturnType()) && node.nested.Some?
    ensures var r := CheckNestedAsWritten(cfg, Some(node), v, depth, j);
      var rest := CheckNestedAsWritten(cfg, Some(node), v, depth, j + 1);
      var child := node.nested.value;
      var sub := CheckNestedAsWritten(cfg, if child.key == v.probes[j].insp then Some(child.node) else None,
                                      OutputAt(v, j), depth + 1, 0);
      && (sub.Failure? ==> r == sub)
      && (sub.Success? ==> Adds(r, sub.value, rest))
  {
  }

  /**
   * The corrected nested comparison: the same skips as the recorder (an inspector returning the
   * object's own class, thrown exceptions, Boolean and boolean), one point for every string-like
   * output and a similarity point for a kept one that has a recorded value, and descent only
   * where the recorder descends, into the child recorded for that inspector.
   */
  function CheckNested(cfg: Config, node: Node, v: Value, depth: int, j: nat): Float
    requires v != Null && WellTyped(v) && j <= |v.probes|
    decreases v, |v.probes| - j, 1
  {
    if j == |v.probes| then Num(0.0)
    else Add(NestedCredit(cfg, node, v, depth, j), CheckNested(cfg, node, v, depth, j + 1))
  }

  function NestedCredit(cfg: Config, node: Node, v: Value, depth: int, j: nat): Float
    requires v != Null && WellTyped(v) && j < |v.probes|
    decreases v, |v.probes| - j, 0
  {
    var p := v.probes[j];
    var t := p.insp.ReturnType();
    if t == RuntimeClass(v) || p.out.Threw? || t == Boxed(PBoolean) || t == Primitive(PBoolean) then Num(0.0)
    else
      var w := OutputAt(v, j);
      if IsStringLike(t) then
        if w == Null then Num(1.0)
        else
          var text := OutputText(w);
          if Kept(cfg, text) && node.values.Some? && |node.values.value| > 0 then
            Add(Num(1.0), Sim(node.values.value[0], text))
          else Num(1.0)
      else if depth < cfg.maxDepth && w != Null && !IgnoredWhenRecording(t) then
        match node.nested
        case Some(Child(key, child)) =>
          if key == p.insp then CheckNested(cfg, child, w, depth + 1, 0) else Num(0.0)
        case None => Num(0.0)
      else Num(0.0)
  }

  // ---------------------------------------------------------------------------------------------
  // One argument
  // ---------------------------------------------------------------------------------------------

  /** The points one inspector of the `i`-th argument earns (the body of the inspector loop). */
  function CompareProbe(cfg: Config, rule: NestedRule, spec: Spec, i: nat, p: Probe): (r: Result<Float, Fault>)
    requires ProbeWellTyped(p)
  {
    match p.out
    case Threw => Success(Num(0.0))
    case Returned(w) =>
      var t := p.insp.ReturnType();
      if IsStringLike(t) then
        var m :- Get(spec.argStringInspectors, i);
        if p.insp !in m then Success(Num(0.0))
        else if |m[p.insp]| == 0 then Failure(NoSuchElement)
        else
          var expected: Option<string> := m[p.insp][0];
          if w == Null then Success(if expected.None? then Num(1.0) else Num(0.0))
          else
            var text := OutputText(w);
            if !Kept(cfg, text) || expected.None? then Success(Num(0.0))
            else Success(Add(Num(1.0), Sim(expected.value, text)))
      else if IsBoxedBoolean(t) then
        var m :- Get(spec.argBoolInspectors, i);
        if p.insp !in m then Success(Num(0.0))
        else if m[p.insp].None? || w == Null then Failure(NullPointer)
        else Success(if m[p.insp].value == w.b then Num(1.0) else Num(0.0))
      else if IsEnum(t) then
        var m :- Get(spec.argEnumInspectors, i);
        if p.insp !in m then Success(Num(0.0))
        else if w == Null then Failure(NullPointer)
        else Success(Sim(m[p.insp], w.text))
      else
        var m :- Get(spec.nestedStringInspectors, i);
        if p.insp !in m || !cfg.doNestedChecks || w == Null then Success(Num(0.0))
        else match rule
          case AsWritten => CheckNestedAsWritten(cfg, Some(m[p.insp]), w, 0, 0)
          case Mirrored => Success(CheckNested(cfg, m[p.insp], w, 0, 0))
  }

  function CompareProbes(cfg: Config, rule: NestedRule, spec: Spec, i: nat, v: Value, j: nat): Result<Float, Fault>
    requires v != Null && WellTyped(v) && j <= |v.probes|
    decreases |v.probes| - j
  {
    if j == |v.probes| then Success(Num(0.0))
    else if !HasCanonicalName(v) then Failure(NullPointer)
    else
      assert ProbeWellTyped(v.probes[j]);
      var here :- CompareProbe(cfg, rule, spec, i, v.probes[j]);
      var rest :- CompareProbes(cfg, rule, spec, i, v, j + 1);
      Success(Add(here, rest))
  }

  /**
   * The points the `i`-th argument earns. Reading a position the spec does not have throws, and
   * so does the mock-proxy test on an object of a class without a canonical name.
   */
  function CompareArg(cfg: Config, rule: NestedRule, spec: Spec, arg: Value, i: nat): (r: Result<Float, Fault>)
    requires WellTyped(arg)
    ensures r.Success? ==> i < |spec.argIsNull|
    ensures (i < |spec.argIsNull| && !spec.argIsNull[i] && arg != Null && !IsTextArgument(arg)
             && |arg.probes| > 0 && !HasCanonicalName(arg)) ==> r == Failure(NullPointer)
  {
    var isNull :- Get(spec.argIsNull, i);
    if isNull then
      if arg == Null then
        var size :- Get(spec.partitionSizes, i);
        Success(Num(size as real))
      else Success(Num(0.0))
    else if arg == Null then Success(Num(0.0))
    else if IsTextArgument(arg) then
      var literals :- Get(spec.argStringValue, i);
      if |literals| == 0 then Failure(NoSuchElement)
      else
        var size :- Get(spec.partitionSizes, i);
        Success(MulInt(Sim(literals[0], ArgumentText(arg)), size))
    else if IsMockProxy(arg) then Success(Num(0.0))
    else CompareProbes(cfg, rule, spec, i, arg, 0)
  }

  /**
   * A String inspector the spec has an entry for earns 1 plus the similarity for a kept text
   * against a recorded text, 1 for null against a recorded null, and nothing otherwise; one the
   * spec has no entry for earns nothing.
   */
  lemma StringProbeScore(cfg: Config, rule: NestedRule, spec: Spec, i: nat, p: Probe)
    requires ProbeWellTyped(p) && p.out.Returned? && IsStringLike(p.insp.ReturnType())
    requires i < |spec.argStringInspectors|
    ensures var r := CompareProbe(cfg, rule, spec, i, p);
      var m: map<Inspector, seq<Option<string>>> := spec.argStringInspectors[i];
      && (p.insp !in m ==> r == Success(Num(0.0)))
      && (p.insp in m && |m[p.insp]| == 0 ==> r == Failure(NoSuchElement))
      && (p.insp in m && |m[p.insp]| > 0 && p.out.v == Null ==>
            r == Success(Num(if m[p.insp][0].None? then 1.0 else 0.0)))
      && (p.insp in m && |m[p.insp]| > 0 && p.out.v != Null ==>
            r == (if Kept(cfg, OutputText(p.out.v)) && m[p.insp][0].Some?
                  then Success(Add(Num(1.0), Sim(m[p.insp][0].value, OutputText(p.out.v))))
                  else Success(Num(0.0))))
  {
  }

  /** A Boolean inspector earns 1 exactly when its output agrees with the recorded one, and 0 otherwise. */
  lemma BoolProbeScore(cfg: Config, rule: NestedRule, spec: Spec, i: nat, p: Probe)
    requires ProbeWellTyped(p) && p.out.Returned? && IsBoxedBoolean(p.insp.ReturnType())
    requires i < |spec.argBoolInspectors|
    ensures var r := CompareProbe(cfg, rule, spec, i, p);
      var m := spec.argBoolInspectors[i];
      && (p.insp !in m ==> r == Success(Num(0.0)))
      && (p.insp in m && (m[p.insp].None? || p.out.v == Null) ==> r == Failure(NullPointer))
      && (p.insp in m && m[p.insp].Some? && p.out.v != Null ==>
            && r.Success? && (r.value == Num(1.0) || r.value == Num(0.0))
            && (r.value == Num(1.0) <==> m[p.insp].value == p.out.v.b))
  {
  }

  /** An enum inspector earns the similarity of its constant's `toString()` text to the recorded text. */
  lemma EnumProbeScore(cfg: Config, rule: NestedRule, spec: Spec, i: nat, p: Probe)
    requires ProbeWellTyped(p) && p.out.Returned? && IsEnum(p.insp.ReturnType())
    requires i < |spec.argEnumInspectors|
    ensures var r := CompareProbe(cfg, rule, spec, i, p);
      var m := spec.argEnumInspectors[i];
      && (p.insp !in m ==> r == Success(Num(0.0)))
      && (p.insp in m && p.out.v == Null ==> r == Failure(NullPointer))
      && (p.insp in m && p.out.v != Null ==> r == Success(Sim(m[p.insp], p.out.v.text)))
  {
  }

  /**
   * An inspector that threw earns nothing, and so does an object-like one the spec has no node
   * for, or with nested checks off, or returning null.
   */
  lemma OtherProbeScore(cfg: Config, rule: NestedRule, spec: Spec, i: nat, p: Probe)
    requires ProbeWellTyped(p)
    ensures p.out.Threw? ==> CompareProbe(cfg, rule, spec, i, p) == Success(Num(0.0))
    ensures (p.out.Returned? && IsObjectLike(p.insp.ReturnType()) && i < |spec.nestedStringInspectors|
             && (p.insp !in spec.nestedStringInspectors[i] || !cfg.doNestedChecks || p.out.v == Null)) ==>
      CompareProbe(cfg, rule, spec, i, p) == Success(Num(0.0))
  {
  }

  /**
   * The scoring rules for the `i`-th argument. Where the spec recorded null, the argument earns
   * the whole partition exactly when it is null; a null argument earns nothing where the spec
   * recorded an object; a text argument earns its similarity to the recorded literal, scaled by
   * the partition; a mock proxy earns nothing.
   */
  lemma ArgScore(cfg: Config, rule: NestedRule, spec: Spec, arg: Value, i: nat)
    requires WellTyped(arg)
    requires i < |spec.argIsNull| && i < |spec.partitionSizes|
    ensures var r := CompareArg(cfg, rule, spec, arg, i);
      && (spec.argIsNull[i] ==> r == Success(Num(if arg == Null then spec.partitionSizes[i] as real else 0.0)))
      && (!spec.argIsNull[i] && arg == Null ==> r == Success(Num(0.0)))
      && (!spec.argIsNull[i] && arg != Null && IsTextArgument(arg) && i < |spec.argStringValue| ==>
            r == (if |spec.argStringValue[i]| == 0 then Failure(NoSuchElement)
                  else Success(MulInt(Sim(spec.argStringValue[i][0], ArgumentText(arg)), spec.partitionSizes[i]))))
      && (!spec.argIsNull[i] && arg != Null && !IsTextArgument(arg) && IsMockProxy(arg) ==> r == Success(Num(0.0)))
  {
  }

  function CompareFrom(cfg: Config, rule: NestedRule, spec: Spec, args: seq<Value>, i: nat): Result<Float, Fault>
    requires i <= |args|
    requires forall k :: 0 <= k < |args| ==> WellTyped(args[k])
    decreases |args| - i
  {
    if i == |args| then Success(Num(0.0))
    else
      var here :- CompareArg(cfg, rule, spec, args[i], i);
      var rest :- CompareFrom(cfg, rule, spec, args, i + 1);
      Success(Add(here, rest))
  }

  /** `compareObjects(spec, args)`: the points earned divided by the points possible. */
  function CompareObjects(cfg: Config, rule: NestedRule, spec: Spec, args: seq<Value>): (r: Result<Float, Fault>)
    requires forall k :: 0 <= k < |args| ==> WellTyped(args[k])
    ensures r.Success? && TotalPossible(spec) == 0 ==> !r.value.Num?
  {
    var total :- CompareFrom(cfg, rule, spec, args, 0);
    Success(DivInt(total, TotalPossible(spec)))
  }
}

=== FILE: coverage_factory.dfy ===
/**
 * `ReachabilityCoverageFactory`: the conversion of a JVM method descriptor into the readable
 * signature the statement checks search, the coverage goals (one per recorded test method), and
 * the identifier of the target caller.
 */
module CoverageFactory {
  import opened Wrappers
  import opened Settings
  import opened ReachingSpecs
  import opened JavaStrings

  // ---------------------------------------------------------------------------------------------
  // descriptorToActualName
  // ---------------------------------------------------------------------------------------------

  /**
   * The type renamings applied, in this order, to the text before the first ')': an object type
   * after '(' or ';' loses its 'L' (the ';L' one becoming a comma), and a one-letter primitive
   * type after '(' or ';' is spelled out.
   */
  const TypeRenames: seq<(string, string)> := [
    ("(L", "("), (";L", ","), ("(B", "(byte"), (";B", ",byte"), ("(C", "(char"), (";C", ",char"),
    ("(D", "(double"), (";D", ",double"), ("(F", "(float"), (";F", ",float"), ("(I", "(int"),
    (";I", ",int"), ("(J", "(long"), (";J", ",long"), ("(S", "(short"), (";S", ",short"),
    ("(Z", "(boolean"), (";Z", ",boolean")]

  predicate RenamesWellFormed(rs: seq<(string, string)>) {
    forall i :: 0 <= i < |rs| ==> |rs[i].0| > 0
  }

  function ApplyRenames(s: string, rs: seq<(string, string)>): string
    requires RenamesWellFormed(rs)
    decreases |rs|
  {
    if |rs| == 0 then s else ApplyRenames(ReplaceAll(s, rs[0].0, rs[0].1), rs[1..])
  }

  /**
   * `descriptorToActualName(methodNameDescriptor)`: the text before the first ')' with the type
   * renamings applied and '/' turned into '.', then ')' appended and a ';' before it removed. A
   * non-empty text made only of ')' splits into no pieces at all, and taking the first throws.
   */
  function DescriptorToActualName(descriptor: string): Result<string, Fault> {
    var head :- Get(Split(descriptor, ")"), 0);
    Success(CloseSignature(ConvertTypes(head)))
  }

  /** The renamings, then every '/' of a package path turned into '.'. */
  function ConvertTypes(head: string): string {
    ReplaceAll(ApplyRenames(head, TypeRenames), "/", ".")
  }

  /** ')' appended, and a ';' left before it removed. */
  function CloseSignature(x: string): string {
    ReplaceAll(x + ")", ";)", ")")
  }

  /** Every renaming starts with '(' or ';' and introduces no ')'. */
  lemma TypeRenamesFacts()
    ensures RenamesWellFormed(TypeRenames)
    ensures forall i :: 0 <= i < |TypeRenames| ==> TypeRenames[i].0[0] in "(;" && ')' !in TypeRenames[i].1
    ensures forall i :: 0 <= i < |TypeRenames| ==> |TypeRenames[i].0| == 2
  {
  }

  lemma {:induction false} ApplyRenamesKeepsOut(s: string, rs: seq<(string, string)>, c: char)
    requires RenamesWellFormed(rs) && c !in s
    requires forall i :: 0 <= i < |rs| ==> c !in rs[i].1
    ensures c !in ApplyRenames(s, rs)
    decreases |rs|
  {
    if |rs| > 0 {
      ReplaceAllKeepsOut(s, rs[0].0, rs[0].1, c);
      ApplyRenamesKeepsOut(ReplaceAll(s, rs[0].0, rs[0].1), rs[1..], c);
    }
  }

  lemma {:induction false} ApplyRenamesPrefix(p: string, rest: string, rs: seq<(string, string)>)
    requires RenamesWellFormed(rs)
    requires forall i :: 0 <= i < |rs| ==> rs[i].0[0] !in p
    ensures ApplyRenames(p + rest, rs) == p + ApplyRenames(rest, rs)
    decreases |rs|
  {
    if |rs| > 0 {
      ReplaceAllPrefix(p, rest, rs[0].0, rs[0].1);
      ApplyRenamesPrefix(p, ReplaceAll(rest, rs[0].0, rs[0].1), rs[1..]);
    }
  }

  /** Appending ')' to a text without one and removing ";)" drops at most a final ';'. */
  lemma {:induction false} ReplaceTail(x: string)
    requires ')' !in x
    ensures ReplaceAll(x + ")", ";)", ")") == (if |x| > 0 && x[|x| - 1] == ';' then x[..|x| - 1] else x) + ")"
    decreases |x|
  {
    var s := x + ")";
    if |x| == 1 {
      if x[0] == ';' {
        assert s[..2] == ";)";
        assert s[2..] == "";
      } else {
        assert s[..2] != ";)" by { assert s[0] == x[0]; }
        assert s[1..] == ")";
      }
    } else if |x| >= 2 {
      assert s[..2] != ";)" by { assert s[1] == x[1]; }
      assert s[1..] == x[1..] + ")";
      ReplaceTail(x[1..]);
    }
  }

  /** Closing the converted text: its only ')' is the last character, and nothing else is added. */
  lemma CloseShape(x: string)
    requires ')' !in x
    ensures var r := CloseSignature(x);
      |r| > 0 && r[|r| - 1] == ')' && ')' !in r[..|r| - 1] && ('/' !in x ==> '/' !in r)
  {
    ReplaceTail(x);
    var r := ReplaceAll(x + ")", ";)", ")");
    var y := if |x| > 0 && x[|x| - 1] == ';' then x[..|x| - 1] else x;
    assert r[..|r| - 1] == y;
    assert forall k :: 0 <= k < |y| ==> y[k] == x[k];
  }

  /** The first piece of a split holds no delimiter. */
  lemma SplitHeadHasNo(s: string, c: char)
    requires |Split(s, [c])| > 0
    ensures c !in Split(s, [c])[0]
  {
    if IndexOf(s, [c]).None? {
      IndexOfNoneMeansAbsent(s, c);
    } else {
      FirstPieceHasNo(s, c);
    }
  }

  /** The renamed text before ')' has neither ')' nor '/'. */
  lemma RenamedShape(head: string)
    requires ')' !in head
    ensures ')' !in ConvertTypes(head) && '/' !in ConvertTypes(head)
  {
    TypeRenamesFacts();
    var renamed := ApplyRenames(head, TypeRenames);
    ApplyRenamesKeepsOut(head, TypeRenames, ')');
    ReplaceAllKeepsOut(renamed, "/", ".", ')');
    ReplaceAllRemoves(renamed, '/', ".");
  }

  /**
   * The converted name is a signature closed by its only ')', with every '/' of the package path
   * turned into '.'.
   */
  lemma DescriptorShape(descriptor: string)
    requires DescriptorToActualName(descriptor).Success?
    ensures var r := DescriptorToActualName(descriptor).value;
      |r| > 0 && r[|r| - 1] == ')' && ')' !in r[..|r| - 1] && '/' !in r
  {
    var head := Split(descriptor, ")")[0];
    SplitHeadHasNo(descriptor, ')');
    RenamedShape(head);
    CloseShape(ConvertTypes(head));
  }

  /** The conversion throws exactly for a non-empty descriptor made only of ')'. */
  lemma DescriptorFails(descriptor: string)
    ensures DescriptorToActualName(descriptor).Failure? <==>
      |descriptor| > 0 && forall k :: 0 <= k < |descriptor| ==> descriptor[k] == ')'
  {
    SplitEmpty(descriptor, ')');
  }

  /** A prefix free of '(', ';' and '/' passes through the type renamings unchanged. */
  lemma ConvertTypesPrefix(name: string, rest: string)
    requires '(' !in name && ';' !in name && '/' !in name
    ensures ConvertTypes(name + rest) == name + ConvertTypes(rest)
  {
    TypeRenamesFacts();
    assert forall i :: 0 <= i < |TypeRenames| ==> TypeRenames[i].0[0] !in name by {
      forall i | 0 <= i < |TypeRenames| ensures TypeRenames[i].0[0] !in name {
        assert TypeRenames[i].0[0] == '(' || TypeRenames[i].0[0] == ';';
      }
    }
    ApplyRenamesPrefix(name, rest, TypeRenames);
    ReplaceAllPrefix(name, ApplyRenames(rest, TypeRenames), "/", ".");
  }

  /** A prefix free of ';' passes through the closing step unchanged. */
  lemma CloseSignaturePrefix(name: string, x: string)
    requires ';' !in name
    ensures CloseSignature(name + x) == name + CloseSignature(x)
  {
    assert (name + x) + ")" == name + (x + ")");
    ReplaceAllPrefix(name, x + ")", ";)", ")");
  }

  /** Splitting a name followed by a '('-led descriptor keeps the name at the head of the first piece. */
  lemma SplitAfterName(name: string, desc: string)
    requires ')' !in name && |desc| > 0 && desc[0] == '('
    ensures |Split(name + desc, ")")| > 0
    ensures exists rest :: Split(name + desc, ")")[0] == name + rest
  {
    var s := name + desc;
    IndexOfShift(name, desc, ')');
    var rest := match IndexOf(desc, ")") case None => desc case Some(k) => desc[..k];
    assert Pieces(s, ")")[0] == name + rest by {
      match IndexOf(desc, ")")
      case None =>
      case Some(k) => assert s[..k + |name|] == name + desc[..k];
    }
    assert |rest| > 0 by {
      match IndexOf(desc, ")")
      case None =>
      case Some(k) => assert k > 0;
    }
    SplitHead(s, ')');
  }

  /** A method name without '(', ')', ';' or '/' survives, so a search for the name in the result finds it. */
  lemma DescriptorKeepsName(name: string, desc: string)
    requires '(' !in name && ')' !in name && ';' !in name && '/' !in name
    requires |desc| > 0 && desc[0] == '('
    ensures DescriptorToActualName(name + desc).Success?
    ensures StartsWith(DescriptorToActualName(name + desc).value, name)
    ensures Contains(DescriptorToActualName(name + desc).value, name)
  {
    SplitAfterName(name, desc);
    var rest :| Split(name + desc, ")")[0] == name + rest;
    ConvertTypesPrefix(name, rest);
    CloseSignaturePrefix(name, ConvertTypes(rest));
    var tail := CloseSignature(ConvertTypes(rest));
    DescriptorSteps(name + desc, name + rest, name + tail);
    NameLeads(name, tail);
  }

  lemma NameLeads(name: string, tail: string)
    ensures StartsWith(name + tail, name) && Contains(name + tail, name)
  {
    assert (name + tail)[..|name|] == name;
    PrefixContained(name + tail, name);
  }

  lemma {:induction false} PrefixContained(s: string, t: string)
    requires StartsWith(s, t)
    ensures Contains(s, t)
  {
  }

  lemma {:induction false} ApplyRenamesShort(s: string, rs: seq<(string, string)>)
    requires RenamesWellFormed(rs) && forall i :: 0 <= i < |rs| ==> |rs[i].0| > |s|
    ensures ApplyRenames(s, rs) == s
    decreases |rs|
  {
    if |rs| > 0 {
      ApplyRenamesShort(s, rs[1..]);
    }
  }

  lemma ExampleSplit()
    ensures Split("m()V", ")") == ["m(", "V"]
  {
    assert Join(")", ["m(", "V"]) == "m()V";
    SplitJoin(["m(", "V"], ')');
  }

  /** A text too short for any renaming and without '/' is left as it is. */
  lemma ConvertShort(s: string)
    requires |s| < 2 && '/' !in s
    ensures ConvertTypes(s) == s
  {
    TypeRenamesFacts();
    ApplyRenamesShort(s, TypeRenames);
    ReplaceAllAbsent(s, '/', ".");
  }

  /** A name followed by '(' and nothing else converts to itself. */
  lemma ConvertNameParen(name: string)
    requires '(' !in name && ';' !in name && '/' !in name
    ensures ConvertTypes(name + "(") == name + "("
  {
    ConvertShort("(");
    ConvertTypesPrefix(name, "(");
  }

  lemma ExampleClose()
    ensures CloseSignature("m(") == "m()"
  {
    CloseSignaturePrefix("m(", "");
    assert "m(" + "" == "m(";
    assert CloseSignature("") == ")";
    assert "m(" + ")" == "m()";
  }

  /** A worked conversion: a method without parameters keeps its name and an empty parameter list. */
  lemma DescriptorExample()
    ensures DescriptorToActualName("m()V") == Success("m()")
  {
    ExampleSplit();
    ExampleHead("m(");
    ExampleClose();
    DescriptorSteps("m()V", "m(", "m()");
  }

  lemma ExampleHead(head: string)
    requires head == "m("
    ensures ConvertTypes(head) == head
  {
    ConvertNameParen(head[..1]);
    assert head[..1] + "(" == head;
  }

  lemma {:induction false} ApplyRenamesEmpty(rs: seq<(string, string)>)
    requires RenamesWellFormed(rs)
    ensures ApplyRenames("", rs) == ""
    decreases |rs|
  {
    if |rs| > 0 {
      ApplyRenamesEmpty(rs[1..]);
    }
  }

  /** A text holding no renaming's first character is left as it is. */
  lemma ApplyRenamesUntouched(z: string, rs: seq<(string, string)>)
    requires RenamesWellFormed(rs) && forall i :: 0 <= i < |rs| ==> rs[i].0[0] !in z
    ensures ApplyRenames(z, rs) == z
  {
    ApplyRenamesPrefix(z, "", rs);
    ApplyRenamesEmpty(rs);
    assert z + "" == z;
  }

  /** Applying two lists of renamings one after the other. */
  lemma {:induction false} ApplyRenamesAppend(s: string, a: seq<(string, string)>, b: seq<(string, string)>)
    requires RenamesWellFormed(a) && RenamesWellFormed(b)
    ensures RenamesWellFormed(a + b)
    ensures ApplyRenames(s, a + b) == ApplyRenames(ApplyRenames(s, a), b)
    decreases |a|
  {
    if |a| == 0 {
      assert a + b == b;
    } else {
      assert (a + b)[1..] == a[1..] + b;
      ApplyRenamesAppend(ReplaceAll(s, a[0].0, a[0].1), a[1..], b);
    }
  }

  /** A two-character text is left as it is by two-character renamings other than itself. */
  lemma {:induction false} ApplyRenamesMissPair(z: string, rs: seq<(string, string)>)
    requires |z| == 2 && forall i :: 0 <= i < |rs| ==> |rs[i].0| == 2 && rs[i].0 != z
    ensures RenamesWellFormed(rs) && ApplyRenames(z, rs) == z
    decreases |rs|
  {
    if |rs| > 0 {
      assert ReplaceAll(z, rs[0].0, rs[0].1) == z by {
        assert z[..2] == z;
        assert [z[0]] + z[1..] == z;
      }
      ApplyRenamesMissPair(z, rs[1..]);
    }
  }

  /**
   * A '(' followed by a text `q` free of the renaming's first character, and not starting with
   * its second after '(', is kept by one renaming.
   */
  lemma ReplaceAfterHead(q: string, z: string, pat: string, rep: string)
    requires |pat| == 2 && |q| > 0 && pat[0] !in q && (pat[0] == '(' ==> pat[1] != q[0])
    ensures ReplaceAll("(" + q + z, pat, rep) == "(" + q + ReplaceAll(z, pat, rep)
  {
    var s := "(" + q + z;
    if pat[0] == '(' {
      assert s[..2] != pat by { assert s[1] == q[0]; }
      assert s[1..] == q + z;
      ReplaceAllPrefix(q, z, pat, rep);
    } else {
      assert pat[0] !in "(" + q;
      ReplaceAllPrefix("(" + q, z, pat, rep);
    }
  }

  lemma {:induction false} ApplyRenamesAfterHead(q: string, z: string, rs: seq<(string, string)>)
    requires |q| > 0
    requires forall i :: 0 <= i < |rs| ==>
      |rs[i].0| == 2 && rs[i].0[0] !in q && (rs[i].0[0] == '(' ==> rs[i].0[1] != q[0])
    ensures RenamesWellFormed(rs)
    ensures ApplyRenames("(" + q + z, rs) == "(" + q + ApplyRenames(z, rs)
    decreases |rs|
  {
    if |rs| > 0 {
      ReplaceAfterHead(q, z, rs[0].0, rs[0].1);
      ApplyRenamesAfterHead(q, ReplaceAll(z, rs[0].0, rs[0].1), rs[1..]);
    }
  }

  /** What the conversion of an (object, int) parameter list needs of the renamings. */
  predicate ObjectIntRenames(rs: seq<(string, string)>) {
    |rs| == 18 && rs[0] == ("(L", "(") && rs[11] == (";I", ",int")
    && (forall i :: 0 <= i < |rs| ==> |rs[i].0| == 2 && rs[i].0[0] in "(;")
    && (forall i :: 0 <= i < |rs| && rs[i].0[0] == '(' ==> rs[i].0[1] in "LBCDFIJSZ")
    && (forall i :: 0 <= i < |rs| && i != 11 ==> rs[i].0 != ";I")
  }

  lemma TypeRenamesObjectInt()
    ensures ObjectIntRenames(TypeRenames)
  {
  }

  /** The renamings after the first take ";I" to ",int". */
  lemma IntRenamed(rs: seq<(string, string)>)
    requires ObjectIntRenames(rs)
    ensures RenamesWellFormed(rs[1..])
    ensures ApplyRenames(";I", rs[1..]) == ",int"
  {
    var rest := rs[1..];
    var a, b := rest[..10], rest[11..];
    assert rest == a + ([rest[10]] + b);
    assert forall i :: 0 <= i < |a| ==> |a[i].0| == 2 && a[i].0 != ";I" by {
      forall i | 0 <= i < |a| ensures |a[i].0| == 2 && a[i].0 != ";I" {
        assert a[i] == rs[i + 1];
      }
    }
    assert forall i :: 0 <= i < |b| ==> |b[i].0| == 2 && b[i].0[0] !in ",int" by {
      forall i | 0 <= i < |b| ensures |b[i].0| == 2 && b[i].0[0] !in ",int" {
        assert b[i] == rs[i + 12];
      }
    }
    ApplyRenamesMissPair(";I", a);
    ApplyRenamesAppend(";I", a, [rest[10]] + b);
    ApplyRenamesAppend(";I", [rest[10]], b);
    assert ApplyRenames(";I", [rest[10]]) == ",int" by {
      assert ReplaceAll(";I", ";I", ",int") == ",int";
    }
    ApplyRenamesUntouched(",int", b);
  }

  /** The class path of a parameter: non-empty, without '(', ';' or ')', not starting like a primitive. */
  predicate ClassPath(q: string) {
    |q| > 0 && '(' !in q && ';' !in q && ')' !in q && q[0] !in "LBCDFIJSZ"
  }

  /** An object parameter followed by an int parameter, before the path's '/' are replaced. */
  lemma ObjectIntRenamed(rs: seq<(string, string)>, q: string)
    requires ObjectIntRenames(rs) && ClassPath(q)
    ensures RenamesWellFormed(rs)
    ensures ApplyRenames("(L" + q + ";I", rs) == "(" + q + ",int"
  {
    var x := "(L" + q + ";I";
    assert ReplaceAll(x, "(L", "(") == "(" + q + ";I" by {
      assert x[..2] == "(L";
      assert x[2..] == q + ";I";
      ReplaceAllPrefix(q, ";I", "(L", "(");
      assert ReplaceAll(";I", "(L", "(") == ";I";
    }
    var rest := rs[1..];
    assert forall i :: 0 <= i < |rest| ==>
      |rest[i].0| == 2 && rest[i].0[0] !in q && (rest[i].0[0] == '(' ==> rest[i].0[1] != q[0]) by {
      forall i | 0 <= i < |rest|
        ensures |rest[i].0| == 2 && rest[i].0[0] !in q && (rest[i].0[0] == '(' ==> rest[i].0[1] != q[0])
      {
        assert rest[i] == rs[i + 1];
      }
    }
    ApplyRenamesAfterHead(q, ";I", rest);
    IntRenamed(rs);
  }

  /** Replacing a single character distributes over concatenation. */
  lemma {:induction false} ReplaceAllCharAppend(a: string, b: string, c: char, rep: string)
    ensures ReplaceAll(a + b, [c], rep) == ReplaceAll(a, [c], rep) + ReplaceAll(b, [c], rep)
    decreases |a|
  {
    if |a| == 0 {
      assert a + b == b;
    } else {
      assert (a + b)[..1] == a[..1];
      assert (a + b)[1..] == a[1..] + b;
      ReplaceAllCharAppend(a[1..], b, c, rep);
    }
  }

  /** The renamings and the '/' replacement on the text before ')'. */
  lemma ObjectIntConverted(name: string, q: string)
    requires '(' !in name && ';' !in name && '/' !in name
    requires ClassPath(q)
    ensures ConvertTypes(name + "(L" + q + ";I") == name + "(" + ReplaceAll(q, "/", ".") + ",int"
  {
    ObjectIntRenamedTypes(name, q);
    SlashesAfterName(name, q);
  }

  lemma ObjectIntRenamedTypes(name: string, q: string)
    requires '(' !in name && ';' !in name
    requires ClassPath(q)
    ensures ConvertTypes(name + "(L" + q + ";I") == ReplaceAll((name + "(") + q + ",int", "/", ".")
  {
    TypeRenamesObjectInt();
    ObjectIntRenamedAfter(TypeRenames, name, q);
  }

  lemma SlashesAfterName(name: string, q: string)
    requires '/' !in name
    ensures ReplaceAll((name + "(") + q + ",int", "/", ".") == name + "(" + ReplaceAll(q, "/", ".") + ",int"
  {
    SlashesInPath(name + "(", q, ",int");
  }

  lemma ObjectIntRenamedAfter(rs: seq<(string, string)>, name: string, q: string)
    requires ObjectIntRenames(rs) && ClassPath(q) && '(' !in name && ';' !in name
    ensures RenamesWellFormed(rs)
    ensures ApplyRenames(name + "(L" + q + ";I", rs) == (name + "(") + q + ",int"
  {
    ObjectIntRenamed(rs, q);
    assert forall i :: 0 <= i < |rs| ==> rs[i].0[0] !in name by {
      forall i | 0 <= i < |rs| ensures rs[i].0[0] !in name {
        assert rs[i].0[0] == '(' || rs[i].0[0] == ';';
      }
    }
    assert name + "(L" + q + ";I" == name + ("(L" + q + ";I");
    ApplyRenamesPrefix(name, "(L" + q + ";I", rs);
    assert name + ("(" + q + ",int") == (name + "(") + q + ",int";
  }

  /** Only the path between '/'-free text has its '/' replaced. */
  lemma SlashesInPath(a: string, q: string, b: string)
    requires '/' !in a && '/' !in b
    ensures ReplaceAll(a + q + b, "/", ".") == a + ReplaceAll(q, "/", ".") + b
  {
    ReplaceAllCharAppend(a, q, '/', ".");
    ReplaceAllCharAppend(a + q, b, '/', ".");
    ReplaceAllAbsent(a, '/', ".");
    ReplaceAllAbsent(b, '/', ".");
  }

  /**
   * A method taking an object and an int: the object parameter loses its 'L' and gets a dotted
   * package path, and the int after ';' is spelled ",int".
   */
  lemma ObjectIntDescriptor(name: string, q: string)
    requires '(' !in name && ')' !in name && ';' !in name && '/' !in name
    requires ClassPath(q)
    ensures DescriptorToActualName(name + "(L" + q + ";I)V")
      == Success(name + "(" + ReplaceAll(q, "/", ".") + ",int)")
  {
    ObjectIntSplit(name, q);
    ObjectIntConverted(name, q);
    ObjectIntClosed(name, q);
    DescriptorSteps(name + "(L" + q + ";I)V", name + "(L" + q + ";I", name + "(" + ReplaceAll(q, "/", ".") + ",int)");
  }

  lemma ObjectIntSplit(name: string, q: string)
    requires ')' !in name && ClassPath(q)
    ensures Split(name + "(L" + q + ";I)V", ")") == [name + "(L" + q + ";I", "V"]
  {
    var head := name + "(L" + q + ";I";
    assert ')' !in head;
    assert Join(")", [head, "V"]) == name + "(L" + q + ";I)V";
    SplitJoin([head, "V"], ')');
  }

  lemma ObjectIntClosed(name: string, q: string)
    requires ')' !in name && ClassPath(q)
    ensures CloseSignature(name + "(" + ReplaceAll(q, "/", ".") + ",int")
      == name + "(" + ReplaceAll(q, "/", ".") + ",int)"
  {
    var x := name + "(" + ReplaceAll(q, "/", ".") + ",int";
    ReplaceAllKeepsOut(q, "/", ".", ')');
    assert ')' !in x;
    ReplaceTail(x);
    assert x[|x| - 1] == 't';
  }

  /** The conversion of a descriptor whose split yields `head` first. */
  lemma DescriptorSteps(descriptor: string, head: string, name: string)
    requires |Split(descriptor, ")")| > 0 && Split(descriptor, ")")[0] == head
    requires CloseSignature(ConvertTypes(head)) == name
    ensures DescriptorToActualName(descriptor) == Success(name)
  {
  }

  // ---------------------------------------------------------------------------------------------
  // getCoverageGoals
  // ---------------------------------------------------------------------------------------------

  /**
   * `getCoverageGoals()`: one goal per recorded test method name, in order, each identified by
   * its name; a name without a spec yet gets a fresh one to record into. The static `reachingSpec`
   * map is passed in and returned.
   */
  method GetCoverageGoals(names: seq<string>, specs: map<string, Option<Spec>>)
    returns (goals: seq<string>, specs': map<string, Option<Spec>>)
    ensures goals == names
    ensures forall n :: n in specs ==> n in specs' && specs'[n] == specs[n]
    ensures forall n :: n in specs' <==> n in specs || n in names
    ensures forall n :: n in specs' && n !in specs ==> specs'[n] == Some(EmptySpec)
    ensures (forall i :: 0 <= i < |names| ==> names[i] in specs) ==> specs' == specs
  {
    goals := [];
    specs' := specs;
    var i := 0;
    while i < |names|
      invariant 0 <= i <= |names|
      invariant goals == names[..i]
      invariant forall n :: n in specs ==> n in specs' && specs'[n] == specs[n]
      invariant forall n :: n in specs' <==> n in specs || n in names[..i]
      invariant forall n :: n in specs' && n !in specs ==> specs'[n] == Some(EmptySpec)
    {
      var name := names[i];
      if name !in specs' {
        specs' := specs'[name := Some(EmptySpec)];
      }
      goals := goals + [name];
      assert names[..i + 1] == names[..i] + [name];
      i := i + 1;
    }
    assert names[..i] == names;
  }

  // ---------------------------------------------------------------------------------------------
  // targetIdentifier
  // ---------------------------------------------------------------------------------------------

  /** `targetIdentifier()`: caller class and method joined by ':'; string concatenation prints null as "null". */
  function TargetIdentifier(caller: Option<Caller>): string {
    match caller
    case None => "null:null"
    case Some(c) => c.clazz + ":" + c.methodName
  }

  /** The identifier splits back into the caller's class and method when neither is empty or holds ':'. */
  lemma TargetIdentifierRoundTrip(c: Caller)
    requires c.clazz != "" && c.methodName != "" && ':' !in c.clazz && ':' !in c.methodName
    ensures Split(TargetIdentifier(Some(c)), ":") == [c.clazz, c.methodName]
  {
    assert Join(":", [c.clazz, c.methodName]) == TargetIdentifier(Some(c)) by {
      assert [c.clazz, c.methodName][1..] == [c.methodName];
    }
    SplitJoin([c.clazz, c.methodName], ':');
  }
}

=== FILE: fitness.dfy ===
/**
 * `ReachabilityCoverageTestFitness.getFitness` and the coverage predicates built on it. The
 * process-wide static fields it reads and writes are one `FitnessState` threaded through every
 * evaluation; an execution is summarised by what `getFitness` asks of it.
 */
module Fitness {
  import opened Wrappers
  import opened Floats
  import opened Settings
  import opened ReachingSpecs
  import opened Statements
  import opened CoverageFactory

  /** A throwable: its message (possibly null) and its runtime class. */
  datatype Thrown = Thrown(message: Option<string>, cls: string)

  datatype FitnessState = FitnessState(
    isRecording: bool,                      // ReachabilityCoverageFactory.isRecording
    recordedException: Option<Thrown>,      // ReachabilityCoverageFactory.recordedException
    matchedOutput: bool,                    // ReachabilityCoverageFactory.matchedOutput
    outputWeight: int,                      // ReachabilityCoverageFactory.outputWeight
    reachingSpec: map<string, Option<Spec>>, // ReachabilityCoverageFactory.reachingSpec
    iterationFitness: Float,                // ReachabilitySpecUnderInferenceUtils.iterationFitness
    bestFitnessSoFar: Float)                // ReachabilityCoverageTestFitness.bestFitnessSoFar

  /** The static fields' initial values. */
  const InitialState: FitnessState :=
    FitnessState(true, None, false, 0, map[], Num(11.0 / 10.0), Num(1.0))

  /**
   * What `getFitness` reads from an execution result: the thrown exceptions, the test's
   * statements, the spec the trace recorded, the similarity the trace reports, and the number of
   * arguments that reached the target.
   */
  datatype Execution = Execution(
    thrown: seq<Thrown>,
    test: seq<Statement>,
    recordedSpec: Option<Spec>,
    similarity: Float,
    argCount: nat)

  /** The outcome of one evaluation: the fitness, the updated static state, and whether the goal was marked covered. */
  datatype Evaluation = Evaluation(fitness: Float, state: FitnessState, covered: bool)

  /** The recorded exception is matched by a thrown one with an equal (non-null) message and the same class. */
  predicate SameException(recorded: Thrown, e: Thrown) {
    recorded.message.Some? && e.message == recorded.message && e.cls == recorded.cls
  }

  /**
   * The exception comparison of the comparing phase: nothing to compare without a recorded
   * exception; otherwise every thrown exception is compared, and a recorded exception without a
   * message throws on the first comparison.
   */
  function ExceptionMatch(recorded: Option<Thrown>, thrown: seq<Thrown>): (r: Result<bool, Fault>)
    ensures r.Failure? <==> recorded.Some? && recorded.value.message.None? && |thrown| > 0
    ensures r.Success? ==> (r.value <==> recorded.Some? && exists e :: e in thrown && SameException(recorded.value, e))
  {
    match recorded
    case None => Success(false)
    case Some(rec) =>
      if |thrown| == 0 then Success(false)
      else if rec.message.None? then Failure(NullPointer)
      else Success(exists e :: e in thrown && SameException(rec, e))
  }

  /**
   * `1 / (1 + argBoolInspectors.size())` in `int` arithmetic, or 0 without a spec: the output
   * weighs a full point only when the recorded spec has no argument slot at all.
   */
  function OutputWeight(spec: Option<Spec>): (w: int)
    ensures w == 0 || w == 1
    ensures w == 1 <==> spec.Some? && |spec.value.argBoolInspectors| == 0
  {
    match spec
    case None => 0
    case Some(s) => 1 / (1 + |s.argBoolInspectors|)
  }

  /**
   * The similarity actually scored: a target reached with arguments never scores below 0.01.
   */
  function RaisedSimilarity(ex: Execution): (s: Float)
    ensures ex.argCount > 0 && LessEq(ex.similarity, Num(0.0)) ==> s == Num(0.01)
    ensures !(ex.argCount > 0 && LessEq(ex.similarity, Num(0.0))) ==> s == ex.similarity
  {
    if ex.argCount > 0 && LessEq(ex.similarity, Num(0.0)) then Num(0.01) else ex.similarity
  }

  /** Neither below 0 nor above 1 (NaN compares false both ways and passes). */
  predicate ValidSimilarity(s: Float) {
    !Less(s, Num(0.0)) && !Less(Num(1.0), s)
  }

  /**
   * The comparing phase's fitness: 1.0 for a test that calls the callee itself; otherwise one
   * minus the similarity, plus the output weight while the output is unmatched.
   */
  function ComparingFitness(cfg: Config, matched: bool, weight: int, ex: Execution): (r: Result<Float, Fault>)
    ensures HasCallee(cfg, DescriptorToActualName, ex.test) == Success(true) ==> r == Success(Num(1.0))
    ensures r.Failure? <==> (
      HasCallee(cfg, DescriptorToActualName, ex.test).Failure?
      || (HasCallee(cfg, DescriptorToActualName, ex.test) == Success(false) && !ValidSimilarity(RaisedSimilarity(ex))))
    ensures HasCallee(cfg, DescriptorToActualName, ex.test).Success? && ex.similarity.Num? && 0.0 <= ex.similarity.x <= 1.0
      ==> r.Success?
    ensures HasCallee(cfg, DescriptorToActualName, ex.test) == Success(false) && ex.similarity.Num? && ex.similarity.x > 1.0
      ==> r == Failure(InvalidSimilarity)
    ensures r == Success(Num(0.0)) && matched ==>
      HasCallee(cfg, DescriptorToActualName, ex.test) == Success(false) && ex.similarity == Num(1.0)
  {
    var callsCallee :- HasCallee(cfg, DescriptorToActualName, ex.test);
    if callsCallee then Success(Num(1.0))
    else
      var sim := RaisedSimilarity(ex);
      if !ValidSimilarity(sim) then Failure(InvalidSimilarity)
      else
        var f := OneMinus(sim);
        Success(if matched then f else Add(f, Num(weight as real)))
  }

  /** `getFitness(individual, result)` for the goal of test `nameOfTest`. */
  function GetFitness(cfg: Config, nameOfTest: string, st: FitnessState, ex: Execution): (r: Result<Evaluation, Fault>)
    ensures st.isRecording ==> r.Success?
    ensures r.Success? ==> (
      r.value.state.isRecording == st.isRecording
      && r.value.state.recordedException == st.recordedException
      && (st.matchedOutput ==> r.value.state.matchedOutput))
    // recording: the spec is stored and the weight set, and nothing is covered
    ensures st.isRecording ==> var e := r.value;
      e.fitness == Num(0.0) && !e.covered
      && nameOfTest in e.state.reachingSpec && e.state.reachingSpec[nameOfTest] == ex.recordedSpec
      && (forall k :: k in st.reachingSpec && k != nameOfTest ==>
            k in e.state.reachingSpec && e.state.reachingSpec[k] == st.reachingSpec[k])
      && e.state.outputWeight == OutputWeight(ex.recordedSpec)
      && e.state.iterationFitness == st.iterationFitness
      && e.state.matchedOutput == st.matchedOutput
    // comparing: the spec map and the weight are left alone
    ensures !st.isRecording && r.Success? ==>
      r.value.state.reachingSpec == st.reachingSpec && r.value.state.outputWeight == st.outputWeight
    // the best fitness of the iteration and of the archive never grow
    ensures r.Success? ==> var e := r.value;
      (st.iterationFitness.NaN? ==> e.state.iterationFitness.NaN?)
      && (!e.state.iterationFitness.NaN? ==> LessEq(e.state.iterationFitness, st.iterationFitness))
      && (st.bestFitnessSoFar.NaN? ==> e.state.bestFitnessSoFar.NaN?)
      && (!e.state.bestFitnessSoFar.NaN? ==> LessEq(e.state.bestFitnessSoFar, st.bestFitnessSoFar))
      && (!st.isRecording && !e.state.iterationFitness.NaN? ==> LessEq(e.state.iterationFitness, e.fitness))
      && (cfg.testArchive && !e.state.bestFitnessSoFar.NaN? ==> LessEq(e.state.bestFitnessSoFar, e.fitness))
  {
    var matched :- if st.isRecording then Success(false) else ExceptionMatch(st.recordedException, ex.thrown);
    var st1 := st.(matchedOutput := st.matchedOutput || matched);
    var (f, st2) :-
      if st1.isRecording then
        Success((Num(0.0), st1.(reachingSpec := st1.reachingSpec[nameOfTest := ex.recordedSpec],
                                outputWeight := OutputWeight(ex.recordedSpec))))
      else
        var f :- ComparingFitness(cfg, st1.matchedOutput, st1.outputWeight, ex);
        Success((f, st1.(iterationFitness := Min(st1.iterationFitness, f))));
    var covered := f == Num(0.0) && !st2.isRecording && st2.matchedOutput;
    var st3 := if cfg.testArchive then st2.(bestFitnessSoFar := Min(st2.bestFitnessSoFar, f)) else st2;
    Success(Evaluation(f, st3, covered))
  }

  /** The output weight keeps the values `getFitness` can give it. */
  predicate WeightValid(st: FitnessState) {
    0 <= st.outputWeight <= 1
  }

  /** The fitness lies between 0 and 2 (or is NaN), and the weight stays 0 or 1. */
  lemma FitnessWithinTwo(cfg: Config, name: string, st: FitnessState, ex: Execution)
    requires WeightValid(st)
    requires GetFitness(cfg, name, st, ex).Success?
    ensures Within(GetFitness(cfg, name, st, ex).value.fitness, 2.0)
    ensures WeightValid(GetFitness(cfg, name, st, ex).value.state)
  {
    if !st.isRecording {
      var matched := ExceptionMatch(st.recordedException, ex.thrown).value;
      var callsCallee := HasCallee(cfg, DescriptorToActualName, ex.test).value;
      if !callsCallee {
        var sim := RaisedSimilarity(ex);
        assert Within(sim, 1.0);
        assert Within(OneMinus(sim), 1.0);
        AddWithin(OneMinus(sim), Num(st.outputWeight as real), 1.0, 1.0);
      }
    }
  }

  /**
   * While comparing, the goal is covered exactly when the test does not call the callee itself,
   * the output has been matched, and the similarity is exactly 1.
   */
  lemma CoveredIff(cfg: Config, name: string, st: FitnessState, ex: Execution)
    requires !st.isRecording
    requires GetFitness(cfg, name, st, ex).Success?
    ensures GetFitness(cfg, name, st, ex).value.covered <==>
      HasCallee(cfg, DescriptorToActualName, ex.test) == Success(false)
      && GetFitness(cfg, name, st, ex).value.state.matchedOutput
      && ex.similarity == Num(1.0)
  {
    var matched := ExceptionMatch(st.recordedException, ex.thrown).value;
    var m := st.matchedOutput || matched;
    var callsCallee := HasCallee(cfg, DescriptorToActualName, ex.test).value;
    if !callsCallee {
      var sim := RaisedSimilarity(ex);
      var f := ComparingFitness(cfg, m, st.outputWeight, ex).value;
      if m && f == Num(0.0) {
        assert OneMinus(sim) == Num(0.0);
        assert sim == Num(1.0);
      }
    }
  }

  /** `isCovered(individual, result)`: the fitness is exactly 0. */
  function IsCovered(cfg: Config, name: string, st: FitnessState, ex: Execution): (r: Result<(bool, FitnessState), Fault>)
    ensures st.isRecording ==> r.Success? && r.value.0
    ensures !st.isRecording && WeightValid(st) && r.Success? && r.value.0 ==>
      HasCallee(cfg, DescriptorToActualName, ex.test) == Success(false) && ex.similarity == Num(1.0)
      && (r.value.1.matchedOutput || st.outputWeight == 0)
  {
    var e :- GetFitness(cfg, name, st, ex);
    Success((e.fitness == Num(0.0), e.state))
  }

  /**
   * `isCovered(tests)` / `isCoveredByResults(results)`: `anyMatch` evaluates the executions in
   * order and stops at the first covering one.
   */
  function IsCoveredByAny(cfg: Config, name: string, st: FitnessState, execs: seq<Execution>): Result<(bool, FitnessState), Fault>
    decreases |execs|
  {
    if |execs| == 0 then Success((false, st))
    else
      var (c, st') :- IsCovered(cfg, name, st, execs[0]);
      if c then Success((true, st')) else IsCoveredByAny(cfg, name, st', execs[1..])
  }

  /** Executions after a covering one are never evaluated, so appending them changes nothing. */
  lemma {:induction false} CoveredPrefixDecides(cfg: Config, name: string, st: FitnessState, execs: seq<Execution>, more: seq<Execution>)
    requires IsCoveredByAny(cfg, name, st, execs).Success? && IsCoveredByAny(cfg, name, st, execs).value.0
    ensures IsCoveredByAny(cfg, name, st, execs + more) == IsCoveredByAny(cfg, name, st, execs)
    decreases |execs|
  {
    assert (execs + more)[0] == execs[0];
    var (c, st') := IsCovered(cfg, name, st, execs[0]).value;
    if !c {
      assert (execs + more)[1..] == execs[1..] + more;
      CoveredPrefixDecides(cfg, name, st', execs[1..], more);
    }
  }

  /** While recording, the first execution already covers the goal. */
  lemma RecordingCoversAtOnce(cfg: Config, name: string, st: FitnessState, execs: seq<Execution>)
    requires st.isRecording
    ensures IsCoveredByAny(cfg, name, st, execs).Success?
    ensures IsCoveredByAny(cfg, name, st, execs).value.0 <==> |execs| > 0
  {
    if |execs| > 0 {
    }
  }

  /** A sequence answers false only when every execution was evaluated to a non-zero fitness. */
  lemma {:induction false} NotCoveredMeansAllNonZero(cfg: Config, name: string, st: FitnessState, execs: seq<Execution>)
    requires IsCoveredByAny(cfg, name, st, execs).Success? && !IsCoveredByAny(cfg, name, st, execs).value.0
    ensures forall k :: 0 <= k < |execs| ==>
      (IsCovered(cfg, name, StateBefore(cfg, name, st, execs, k), execs[k]) ==
       Success((false, StateBefore(cfg, name, st, execs, k + 1))))
    decreases |execs|
  {
    if |execs| > 0 {
      var st' := IsCovered(cfg, name, st, execs[0]).value.1;
      NotCoveredMeansAllNonZero(cfg, name, st', execs[1..]);
      forall k | 0 <= k < |execs|
        ensures IsCovered(cfg, name, StateBefore(cfg, name, st, execs, k), execs[k]) ==
          Success((false, StateBefore(cfg, name, st, execs, k + 1)))
      {
        if k > 0 {
          StateBeforeShift(cfg, name, st, execs, k);
          StateBeforeShift(cfg, name, st, execs, k + 1);
        }
      }
    }
  }

  /**
   * The state after evaluating the first `k` executions one after another (ignoring coverage),
   * as long as none of them throws.
   */
  function StateBefore(cfg: Config, name: string, st: FitnessState, execs: seq<Execution>, k: nat): FitnessState
    decreases k
  {
    if k == 0 || |execs| == 0 then st
    else match IsCovered(cfg, name, st, execs[0])
      case Failure(_) => st
      case Success((_, st')) => StateBefore(cfg, name, st', execs[1..], k - 1)
  }

  lemma StateBeforeShift(cfg: Config, name: string, st: FitnessState, execs: seq<Execution>, k: nat)
    requires 0 < k <= |execs| && IsCovered(cfg, name, st, execs[0]).Success?
    ensures StateBefore(cfg, name, st, execs, k) ==
      StateBefore(cfg, name, IsCovered(cfg, name, st, execs[0]).value.1, execs[1..], k - 1)
  {
  }

  /** Reachability goals are minimised: lower fitness is better. */
  const IsMaximizationFunction: bool := false
}

=== FILE: floats.dfy ===
/**
 * Java `float`/`double` values as far as the modelled code can produce them: a finite number
 * (kept exact, without rounding), NaN from `0/0`, or an infinity from `x/0`.
 */
module Floats {

  datatype Float = Num(x: real) | NaN | Inf(positive: bool)

  /** `a + b` under IEEE 754: NaN absorbs everything and opposite infinities cancel to NaN. */
  function Add(a: Float, b: Float): (r: Float)
    ensures r.Num? <==> a.Num? && b.Num?
    ensures r.Num? ==> r.x == a.x + b.x
    ensures (a.NaN? || b.NaN?) ==> r.NaN?
  {
    match (a, b)
    case (Num(x), Num(y)) => Num(x + y)
    case (NaN, _) => NaN
    case (_, NaN) => NaN
    case (Inf(p), Inf(q)) => if p == q then Inf(p) else NaN
    case (Inf(p), Num(_)) => Inf(p)
    case (Num(_), Inf(q)) => Inf(q)
  }

  /** `a * n` for an `int` factor. */
  function MulInt(a: Float, n: int): (r: Float)
    ensures a.Num? ==> r.Num? && r.x == a.x * (n as real)
    ensures a.NaN? ==> r.NaN?
  {
    match a
    case Num(x) => Num(x * (n as real))
    case NaN => NaN
    case Inf(p) => if n == 0 then NaN else Inf(p == (n > 0))
  }

  /** `a / n` for an `int` divisor: dividing by zero gives NaN for zero and an infinity otherwise. */
  function DivInt(a: Float, n: int): (r: Float)
    ensures r.Num? <==> a.Num? && n != 0
    ensures r.Num? ==> r.x * (n as real) == a.x
  {
    match a
    case Num(x) =>
      if n != 0 then Num(x / (n as real))
      else if x == 0.0 then NaN
      else Inf(x > 0.0)
    case NaN => NaN
    case Inf(p) => if n == 0 then Inf(p) else Inf(p == (n > 0))
  }

  /** `1.0 - a`. */
  function OneMinus(a: Float): (r: Float)
    ensures a.Num? <==> r.Num?
    ensures r.Num? ==> r.x + a.x == 1.0
  {
    match a
    case Num(x) => Num(1.0 - x)
    case NaN => NaN
    case Inf(p) => Inf(!p)
  }

  /** `a < b`, `a <= b`: every comparison involving NaN is false. */
  predicate Less(a: Float, b: Float) {
    match (a, b)
    case (Num(x), Num(y)) => x < y
    case (Inf(p), Inf(q)) => !p && q
    case (Inf(p), Num(_)) => !p
    case (Num(_), Inf(q)) => q
    case _ => false
  }

  predicate LessEq(a: Float, b: Float) {
    Less(a, b) || (a == b && !a.NaN?)
  }

  /** `Math.min(a, b)`: NaN when either operand is NaN. */
  function Min(a: Float, b: Float): (r: Float)
    ensures (a.NaN? || b.NaN?) <==> r.NaN?
    ensures !r.NaN? ==> (r == a || r == b) && LessEq(r, a) && LessEq(r, b)
  {
    if a.NaN? || b.NaN? then NaN
    else if LessEq(a, b) then a
    else b
  }

  /** A sum of scores that stays between 0 and `n`, unless some term was NaN. */
  predicate Within(f: Float, n: real) {
    f.NaN? || (f.Num? && 0.0 <= f.x <= n)
  }

  lemma AddWithin(a: Float, b: Float, n: real, m: real)
    requires Within(a, n) && Within(b, m)
    ensures Within(Add(a, b), n + m)
  {
  }

  /** Any non-zero count divided by itself is exactly 1. */
  lemma DivIntSelf(n: int)
    ensures DivInt(Num(n as real), n) == if n == 0 then NaN else Num(1.0)
  {
    if n != 0 {
      var d := DivInt(Num(n as real), n);
      assert d.Num? && d.x * (n as real) == n as real;
      UnitFactor(d.x, n as real);
    }
  }

  /** The only factor that leaves a non-zero number unchanged is 1. */
  lemma UnitFactor(q: real, r: real)
    requires r != 0.0 && q * r == r
    ensures q == 1.0
  {
    assert (q - 1.0) * r == 0.0;
  }

  /** A score within `n` points, divided by `n`, is a fraction between 0 and 1 unless it is NaN. */
  lemma DivIntWithin(a: Float, n: int)
    requires Within(a, n as real)
    ensures Within(DivInt(a, n), 1.0)
  {
    if a.Num? && n > 0 {
      var q := a.x / (n as real);
      assert q * (n as real) == a.x;
      assert q <= 1.0 by {
        if q > 1.0 {
          assert q * (n as real) > 1.0 * (n as real);
        }
      }
    }
  }
}

=== FILE: java_strings.dfy ===
/**
 * The java.lang.String operations the modelled code relies on, with Java's semantics:
 * `contains`, `startsWith`, `indexOf`, `replace` (every non-overlapping occurrence, left to
 * right), `split` with a literal delimiter (trailing empty pieces dropped), `String.join`, and
 * decoding a byte array as ISO/IEC 8859-1.
 */
module JavaStrings {
  import opened Wrappers

  predicate StartsWith(s: string, prefix: string) {
    |prefix| <= |s| && s[..|prefix|] == prefix
  }

  /** `s.contains(t)`. */
  predicate Contains(s: string, t: string)
    decreases |s|
  {
    StartsWith(s, t) || (|s| > 0 && Contains(s[1..], t))
  }

  /** `s.indexOf(t)`: the first position at which `t` occurs. */
  function IndexOf(s: string, t: string): (r: Option<nat>)
    decreases |s|
    ensures r.Some? ==> r.value + |t| <= |s| && s[r.value..r.value + |t|] == t
  {
    if StartsWith(s, t) then Some(0)
    else if |s| == 0 then None
    else match IndexOf(s[1..], t)
      case None => None
      case Some(k) => Some(k + 1)
  }

  /** `s.replace(pat, rep)`: every non-overlapping occurrence of `pat`, scanning left to right. */
  function ReplaceAll(s: string, pat: string, rep: string): string
    requires |pat| > 0
    decreases |s|
  {
    if |s| < |pat| then s
    else if s[..|pat|] == pat then rep + ReplaceAll(s[|pat|..], pat, rep)
    else [s[0]] + ReplaceAll(s[1..], pat, rep)
  }

  /** The pieces of `s` between the occurrences of `d`, before Java drops trailing empty ones. */
  function Pieces(s: string, d: string): (r: seq<string>)
    requires |d| > 0
    decreases |s|
    ensures |r| >= 1
  {
    match IndexOf(s, d)
    case None => [s]
    case Some(k) => [s[..k]] + Pieces(s[k + |d|..], d)
  }

  function DropTrailingEmpty(ps: seq<string>): (r: seq<string>)
    ensures |r| <= |ps| && r == ps[..|r|]
    ensures |r| > 0 ==> r[|r| - 1] != ""
    ensures forall k :: |r| <= k < |ps| ==> ps[k] == ""
  {
    if |ps| > 0 && ps[|ps| - 1] == "" then DropTrailingEmpty(ps[..|ps| - 1]) else ps
  }

  /** `s.split(d)` for a delimiter that is a literal (no regular-expression metacharacters left). */
  function Split(s: string, d: string): seq<string>
    requires |d| > 0
  {
    if IndexOf(s, d).None? then [s] else DropTrailingEmpty(Pieces(s, d))
  }

  /** `String.join(sep, parts)`. */
  function Join(sep: string, parts: seq<string>): string {
    if |parts| == 0 then ""
    else if |parts| == 1 then parts[0]
    else parts[0] + sep + Join(sep, parts[1..])
  }

  /** `new String(bytes, StandardCharsets.ISO_8859_1)`. */
  function Latin1(bytes: seq<bv8>): (r: string)
    ensures |r| == |bytes|
    ensures forall k :: 0 <= k < |bytes| ==> r[k] as int == bytes[k] as int
  {
    if |bytes| == 0 then [] else [(bytes[0] as int) as char] + Latin1(bytes[1..])
  }

  /** `s.getBytes(StandardCharsets.ISO_8859_1)` for text whose code points are all below 256. */
  function Latin1Encode(s: string): seq<bv8>
    requires forall k :: 0 <= k < |s| ==> s[k] as int < 256
  {
    if |s| == 0 then [] else [(s[0] as int) as bv8] + Latin1Encode(s[1..])
  }

  /** `s.toLowerCase()` on the ASCII letters; other characters are left as they are. */
  function ToLower(s: string): (r: string)
    ensures |r| == |s|
    ensures forall k :: 0 <= k < |s| ==> r[k] == (if 'A' <= s[k] <= 'Z' then (s[k] as int + 32) as char else s[k])
  {
    if |s| == 0 then "" else [if 'A' <= s[0] <= 'Z' then (s[0] as int + 32) as char else s[0]] + ToLower(s[1..])
  }

  /**
   * The mock-proxy filter applied to inspected strings: the text is lower-cased and then searched
   * for the mixed-case markers "EnhancerByMockito" and "$MockitoMock$".
   */
  predicate MockMarkerText(s: string) {
    Contains(ToLower(s), "EnhancerByMockito") || Contains(ToLower(s), "$MockitoMock$")
  }

  // ---------------------------------------------------------------------------------------------
  // Lemmas
  // ---------------------------------------------------------------------------------------------

  /** Decoding ISO/IEC 8859-1 loses nothing: encoding the decoded text gives the bytes back. */
  lemma {:induction false} Latin1RoundTrip(bytes: seq<bv8>)
    ensures forall k :: 0 <= k < |Latin1(bytes)| ==> Latin1(bytes)[k] as int < 256
    ensures Latin1Encode(Latin1(bytes)) == bytes
  {
    if |bytes| > 0 {
      Latin1RoundTrip(bytes[1..]);
      assert Latin1(bytes)[1..] == Latin1(bytes[1..]);
    }
  }

  /** A character that occurs neither in the text nor in the replacement does not occur afterwards. */
  lemma {:induction false} ReplaceAllKeepsOut(s: string, pat: string, rep: string, c: char)
    requires |pat| > 0 && c !in s && c !in rep
    ensures c !in ReplaceAll(s, pat, rep)
    decreases |s|
  {
    if |s| < |pat| {
    } else if s[..|pat|] == pat {
      ReplaceAllKeepsOut(s[|pat|..], pat, rep, c);
    } else {
      ReplaceAllKeepsOut(s[1..], pat, rep, c);
    }
  }

  /** Replacing the one-character pattern `[c]` by a text without `c` removes every `c`. */
  lemma {:induction false} ReplaceAllRemoves(s: string, c: char, rep: string)
    requires c !in rep
    ensures c !in ReplaceAll(s, [c], rep)
    decreases |s|
  {
    if |s| >= 1 {
      if s[..1] == [c] {
        ReplaceAllRemoves(s[1..], c, rep);
      } else {
        assert s[0] != c;
        ReplaceAllRemoves(s[1..], c, rep);
      }
    }
  }

  lemma {:induction false} IndexOfChar(a: string, c: char, b: string)
    requires c !in a
    ensures IndexOf(a + [c] + b, [c]) == Some(|a|)
    decreases |a|
  {
    var s := a + [c] + b;
    if |a| == 0 {
      assert s[..1] == [c];
    } else {
      assert s[..1] != [c] by { assert s[0] == a[0]; }
      assert s[1..] == a[1..] + [c] + b;
      IndexOfChar(a[1..], c, b);
    }
  }

  lemma {:induction false} IndexOfAbsent(a: string, c: char)
    requires c !in a
    ensures IndexOf(a, [c]) == None
    decreases |a|
  {
    if |a| > 0 {
      assert a[..1] != [c] by { assert a[0] != c; }
      IndexOfAbsent(a[1..], c);
    }
  }

  /** Splitting `a c b` on `c`, when `a` has no `c`, yields `a` first and then the pieces of `b`. */
  lemma PiecesCons(a: string, c: char, b: string)
    requires c !in a
    ensures Pieces(a + [c] + b, [c]) == [a] + Pieces(b, [c])
  {
    var s := a + [c] + b;
    IndexOfChar(a, c, b);
    assert s[..|a|] == a;
    assert s[|a| + 1..] == b;
  }

  /** Split recovers the parts that Join glued together, provided none is empty or holds the separator. */
  lemma {:induction false} SplitJoin(parts: seq<string>, c: char)
    requires |parts| >= 1
    requires forall k :: 0 <= k < |parts| ==> c !in parts[k] && parts[k] != ""
    ensures Split(Join([c], parts), [c]) == parts
  {
    PiecesJoin(parts, c);
    if |parts| == 1 {
      IndexOfAbsent(parts[0], c);
    } else {
      assert Join([c], parts) == parts[0] + [c] + Join([c], parts[1..]);
      IndexOfChar(parts[0], c, Join([c], parts[1..]));
    }
  }

  lemma {:induction false} PiecesJoin(parts: seq<string>, c: char)
    requires |parts| >= 1
    requires forall k :: 0 <= k < |parts| ==> c !in parts[k]
    ensures Pieces(Join([c], parts), [c]) == parts
    decreases |parts|
  {
    if |parts| == 1 {
      IndexOfAbsent(parts[0], c);
    } else {
      PiecesJoin(parts[1..], c);
      PiecesCons(parts[0], c, Join([c], parts[1..]));
    }
  }

  /** A piece that ends the list of pieces and is not empty survives Java's trimming. */
  lemma DropTrailingEmptyKeeps(ps: seq<string>)
    requires |ps| > 0 && ps[|ps| - 1] != ""
    ensures DropTrailingEmpty(ps) == ps
  {
  }

  /** The text before the first delimiter holds no delimiter character. */
  lemma {:induction false} FirstPieceHasNo(s: string, c: char)
    ensures c !in Pieces(s, [c])[0]
    decreases |s|
  {
    match IndexOf(s, [c])
    case None => IndexOfNoneMeansAbsent(s, c);
    case Some(k) => IndexOfFirst(s, c);
  }

  lemma {:induction false} IndexOfNoneMeansAbsent(s: string, c: char)
    requires IndexOf(s, [c]).None?
    ensures c !in s
    decreases |s|
  {
    if |s| > 0 {
      assert s[..1] != [c];
      assert s[0] != c;
      IndexOfNoneMeansAbsent(s[1..], c);
      assert s == [s[0]] + s[1..];
    }
  }

  lemma {:induction false} IndexOfFirst(s: string, c: char)
    requires IndexOf(s, [c]).Some?
    ensures c !in s[..IndexOf(s, [c]).value]
    decreases |s|
  {
    if !StartsWith(s, [c]) {
      assert |s| > 0;
      assert s[0] != c;
      IndexOfFirst(s[1..], c);
      assert s[..IndexOf(s, [c]).value] == [s[0]] + s[1..][..IndexOf(s[1..], [c]).value];
    }
  }

  /** Every character of a text a string contains occurs in that string. */
  lemma {:induction false} ContainsHasChars(s: string, t: string, k: nat)
    requires Contains(s, t) && k < |t|
    ensures t[k] in s
    decreases |s|
  {
    if StartsWith(s, t) {
      assert s[k] == t[k];
    } else {
      ContainsHasChars(s[1..], t, k);
    }
  }

  /**
   * Lower-casing removes every upper-case letter, and both markers start with one, so the
   * mock-proxy filter on inspected strings never rejects any text.
   */
  lemma MockMarkerTextNever(s: string)
    ensures !MockMarkerText(s)
  {
    var lower := ToLower(s);
    assert 'E' !in lower;
    assert 'M' !in lower;
    if Contains(lower, "EnhancerByMockito") {
      ContainsHasChars(lower, "EnhancerByMockito", 0);
    }
    if Contains(lower, "$MockitoMock$") {
      ContainsHasChars(lower, "$MockitoMock$", 1);
    }
  }

  /** A text with a character the string lacks is not contained in it. */
  lemma MissingCharNotContained(s: string, t: string, k: nat)
    requires k < |t| && t[k] !in s
    ensures !Contains(s, t)
  {
    if Contains(s, t) {
      ContainsHasChars(s, t, k);
    }
  }

  /** No occurrence of `pat` starts inside a prefix that lacks its first character, so the prefix survives a replacement. */
  lemma {:induction false} ReplaceAllPrefix(p: string, rest: string, pat: string, rep: string)
    requires |pat| > 0 && pat[0] !in p
    ensures ReplaceAll(p + rest, pat, rep) == p + ReplaceAll(rest, pat, rep)
    decreases |p|
  {
    if |p| > 0 {
      var s := p + rest;
      assert s[0] == p[0];
      assert |s| >= |pat| ==> s[..|pat|] != pat;
      assert s[1..] == p[1..] + rest;
      ReplaceAllPrefix(p[1..], rest, pat, rep);
    } else {
      assert p + rest == rest;
    }
  }

  /** Searching past a prefix without the character shifts the position found by the prefix length. */
  lemma {:induction false} IndexOfShift(a: string, b: string, c: char)
    requires c !in a
    ensures IndexOf(a + b, [c]) == match IndexOf(b, [c]) case None => None case Some(k) => Some(k + |a|)
    decreases |a|
  {
    if |a| > 0 {
      var s := a + b;
      assert s[..1] != [c] by { assert s[0] == a[0]; }
      assert s[1..] == a[1..] + b;
      IndexOfShift(a[1..], b, c);
    } else {
      assert a + b == b;
    }
  }

  /** A non-empty first piece survives Java's trimming and is the head of the split. */
  lemma SplitHead(s: string, c: char)
    requires Pieces(s, [c])[0] != ""
    ensures |Split(s, [c])| > 0 && Split(s, [c])[0] == Pieces(s, [c])[0]
  {
    if IndexOf(s, [c]).Some? {
      var r := DropTrailingEmpty(Pieces(s, [c]));
      assert |r| != 0;
    }
  }

  /** A text made only of delimiter characters splits into nothing but empty pieces. */
  lemma {:induction false} PiecesOfDelimiters(s: string, c: char)
    requires forall k :: 0 <= k < |s| ==> s[k] == c
    ensures forall i :: 0 <= i < |Pieces(s, [c])| ==> Pieces(s, [c])[i] == ""
    decreases |s|
  {
    if |s| == 0 {
      assert IndexOf(s, [c]) == None;
    } else {
      assert s[..1] == [c];
      assert IndexOf(s, [c]) == Some(0);
      PiecesOfDelimiters(s[1..], c);
    }
  }

  /** A text with a character other than the delimiter has a non-empty piece. */
  lemma {:induction false} PiecesNonEmpty(s: string, c: char, k: nat)
    requires k < |s| && s[k] != c
    ensures exists i :: 0 <= i < |Pieces(s, [c])| && Pieces(s, [c])[i] != ""
    decreases |s|
  {
    match IndexOf(s, [c])
    case None =>
      assert Pieces(s, [c])[0] == s;
    case Some(j) =>
      assert s[j] == c;
      if k < j {
        assert Pieces(s, [c])[0] == s[..j];
        assert s[..j][k] == s[k];
      } else {
        var tail := s[j + 1..];
        assert tail[k - j - 1] == s[k];
        PiecesNonEmpty(tail, c, k - j - 1);
        var i :| 0 <= i < |Pieces(tail, [c])| && Pieces(tail, [c])[i] != "";
        assert Pieces(s, [c])[i + 1] == Pieces(tail, [c])[i];
      }
  }

  /**
   * Java's split on a one-character delimiter yields no piece at all exactly when the text is
   * non-empty and made only of delimiters.
   */
  lemma SplitEmpty(s: string, c: char)
    ensures |Split(s, [c])| == 0 <==> |s| > 0 && forall k :: 0 <= k < |s| ==> s[k] == c
  {
    if |s| > 0 && forall k :: 0 <= k < |s| ==> s[k] == c {
      assert s[..1] == [c];
      assert IndexOf(s, [c]).Some?;
      PiecesOfDelimiters(s, c);
    } else if |s| > 0 {
      var k :| 0 <= k < |s| && s[k] != c;
      if IndexOf(s, [c]).Some? {
        PiecesNonEmpty(s, c, k);
        var ps := Pieces(s, [c]);
        var i :| 0 <= i < |ps| && ps[i] != "";
        var r := DropTrailingEmpty(ps);
        assert |r| > i;
      }
    }
  }

  /** Replacing a character that does not occur changes nothing. */
  lemma {:induction false} ReplaceAllAbsent(s: string, c: char, rep: string)
    requires c !in s
    ensures ReplaceAll(s, [c], rep) == s
    decreases |s|
  {
    if |s| > 0 {
      assert s[..1] != [c] by { assert s[0] != c; }
      ReplaceAllAbsent(s[1..], c, rep);
      assert s == [s[0]] + s[1..];
    }
  }

  /** `s.lastIndexOf(c)` for a one-character string. */
  function LastIndexOf(s: string, c: char): (r: Option<nat>)
    ensures r.None? <==> c !in s
    ensures r.Some? ==> r.value < |s| && s[r.value] == c && forall j :: r.value < j < |s| ==> s[j] != c
  {
    if |s| == 0 then None
    else if s[|s| - 1] == c then Some(|s| - 1)
    else
      var r := LastIndexOf(s[..|s| - 1], c);
      assert forall x :: x in s <==> x in s[..|s| - 1] || x == s[|s| - 1] by {
        assert s == s[..|s| - 1] + [s[|s| - 1]];
      }
      r
  }
}

=== FILE: merges.dfy ===
/**
 * `ReachingSpec.mergeInspectorMaps`, `mergeInspectorSetMaps` and `mergeStringSets`: folding the
 * inspector maps of a concrete execution into those of a spec. Each loop visits the keys of the
 * concrete map in hash order; every step touches only its own key, so the model picks the keys in
 * any order. A stored `null` is `None`.
 */
module Merges {
  import opened Wrappers

  /** `map.get(key)` on a map whose values may be null: absent and null both read as `None`. */
  function ValueOf<K, V>(m: map<K, Option<V>>, k: K): Option<V> {
    if k in m then m[k] else None
  }

  /**
   * `mergeInspectorMaps(oneThis, oneConcrete)`: a key the spec lacks (or maps to null) takes the
   * concrete value; a key whose values conflict is dropped, so every value is permitted; a key with
   * equal values, and a key the concrete map lacks, stays as it was.
   */
  method MergeInspectorMaps<K, V(==)>(oneThis: map<K, Option<V>>, oneConcrete: map<K, Option<V>>)
    returns (r: map<K, Option<V>>)
    ensures forall k :: k !in oneConcrete ==> (k in r <==> k in oneThis) && (k in r ==> r[k] == oneThis[k])
    ensures forall k :: k in oneConcrete && ValueOf(oneThis, k).None? ==> k in r && r[k] == oneConcrete[k]
    ensures forall k :: k in oneConcrete && ValueOf(oneThis, k).Some? ==>
      (k in r <==> ValueOf(oneThis, k) == oneConcrete[k]) && (k in r ==> r[k] == oneThis[k])
    ensures oneThis == oneConcrete ==> r == oneThis
  {
    r := oneThis;
    var todo := oneConcrete.Keys;
    while todo != {}
      invariant todo <= oneConcrete.Keys
      invariant forall k :: k in todo || k !in oneConcrete ==> (k in r <==> k in oneThis) && (k in r ==> r[k] == oneThis[k])
      invariant forall k :: k in oneConcrete && k !in todo && ValueOf(oneThis, k).None? ==> k in r && r[k] == oneConcrete[k]
      invariant forall k :: k in oneConcrete && k !in todo && ValueOf(oneThis, k).Some? ==>
        (k in r <==> ValueOf(oneThis, k) == oneConcrete[k]) && (k in r ==> r[k] == oneThis[k])
      decreases |todo|
    {
      var key :| key in todo;
      var thisValue := ValueOf(r, key);
      var concreteValue := oneConcrete[key];
      if thisValue.None? {
        r := r[key := concreteValue];
      } else if thisValue != concreteValue {
        r := r - {key};
      }
      todo := todo - {key};
    }
    if oneThis == oneConcrete {
      assert forall k :: k in r <==> k in oneThis;
    }
  }

  /** `mergeStringSets(oneThis, oneConcrete)`: the spec's set afterwards is the union. */
  function MergeStringSets<T(!new)>(oneThis: set<T>, oneConcrete: set<T>): (r: set<T>)
    ensures forall x :: x in r <==> x in oneThis || x in oneConcrete
  {
    var added := oneConcrete - oneThis;
    if added != {} then oneThis + added
    else
      assert forall x | x in oneConcrete :: x in added || x in oneThis;
      oneThis
  }

  /** What `mergeInspectorSetMaps` leaves under key `k` once that key has been visited. */
  predicate SetMapMerged<K, T>(oneThis: map<K, set<T>>, oneConcrete: map<K, set<T>>, r: map<K, set<T>>, k: K)
    requires k in oneConcrete
  {
    if k in oneThis then k in r && r[k] == oneThis[k] + oneConcrete[k]
    else (k in r <==> oneConcrete[k] != {}) && (k in r ==> r[k] == oneConcrete[k])
  }

  /** What the loop leaves under key `k` before visiting it: the spec's own entry. */
  predicate Untouched<K, T>(oneThis: map<K, set<T>>, r: map<K, set<T>>, k: K) {
    (k in r <==> k in oneThis) && (k in r ==> r[k] == oneThis[k])
  }

  /**
   * `mergeInspectorSetMaps(oneThis, oneConcrete)`: a key the spec has ends with the union of both
   * sets; a key it lacks is added, with the concrete set, only when that set is not empty; a key
   * the concrete map lacks is left alone.
   */
  method MergeInspectorSetMaps<K, T>(oneThis: map<K, set<T>>, oneConcrete: map<K, set<T>>)
    returns (r: map<K, set<T>>)
    ensures forall k :: k in oneConcrete ==> SetMapMerged(oneThis, oneConcrete, r, k)
    ensures forall k :: k !in oneConcrete ==> Untouched(oneThis, r, k)
  {
    r := oneThis;
    var todo := oneConcrete.Keys;
    while todo != {}
      invariant todo <= oneConcrete.Keys
      invariant forall k :: k in oneConcrete && k !in todo ==> SetMapMerged(oneThis, oneConcrete, r, k)
      invariant forall k :: k in todo || k !in oneConcrete ==> Untouched(oneThis, r, k)
      decreases |todo|
    {
      var key :| key in todo;
      r := MergeKey(r, key, oneConcrete[key]);
      todo := todo - {key};
    }
  }

  /** One round of `mergeInspectorSetMaps`: only `key` changes. */
  method MergeKey<K, T>(m: map<K, set<T>>, key: K, concrete: set<T>) returns (r: map<K, set<T>>)
    ensures forall k :: k != key ==> (k in r <==> k in m) && (k in r ==> r[k] == m[k])
    ensures key in m ==> key in r && r[key] == m[key] + concrete
    ensures key !in m ==> (key in r <==> concrete != {}) && (key in r ==> r[key] == concrete)
  {
    var concreteValues := concrete;
    if key in m {
      concreteValues := concreteValues - m[key];
    }
    r := m;
    if concreteValues != {} {
      var thisValue := if key in m then m[key] else {};
      r := m[key := thisValue + concreteValues];
    } else if key in m {
      assert forall x | x in concrete :: x in concreteValues || x in m[key];
      assert m[key] + concrete == m[key];
    }
  }

  /** Merging a spec's set map with itself changes nothing. */
  lemma SetMapMergeSelf<K, T>(m: map<K, set<T>>, r: map<K, set<T>>)
    requires forall k :: k in m ==> SetMapMerged(m, m, r, k)
    requires forall k :: k !in m ==> Untouched(m, r, k)
    ensures r == m
  {
    forall k | k in m ensures k in r && r[k] == m[k] {
      assert SetMapMerged(m, m, r, k);
      assert m[k] + m[k] == m[k];
    }
    assert forall k :: k in r <==> k in m;
  }
}

=== FILE: other_bound.dfy ===
/**
 * Comparing a spec with arguments other than the ones it was recorded from. Without nested
 * checks every inspector earns at most what the recorder filed for it, so any arguments score
 * between 0 and 1 (or NaN). With nested checks on, an object found below an argument is scored
 * by its own inspectors, which the recorder may never have seen: the score can exceed 1 under
 * either nested rule.
 */
module OtherBound {
  import opened Wrappers
  import opened Values
  import opened Settings
  import opened ReachingSpecs
  import opened Floats
  import opened Similarity
  import opened Recorder
  import opened Comparator
  import opened SelfMatch
  import opened SelfBound

  // ---------------------------------------------------------------------------------------------
  // What a slot allows an inspector to earn
  // ---------------------------------------------------------------------------------------------

  /**
   * The most an inspector can earn against a slot: two points for a recorded string (one plus
   * the similarity), one for a recorded null string, one for a recorded Boolean or enum.
   */
  function Cap(slot: Slot, x: Inspector): nat {
    (if x !in slot.strings then 0 else if |slot.strings[x]| > 0 && slot.strings[x][0].None? then 1 else 2)
    + (if x in slot.bools then 1 else 0) + (if x in slot.enums then 1 else 0)
  }

  /** The caps of a list of probes' inspectors, added up. */
  function Caps(slot: Slot, ps: seq<Probe>): nat {
    if |ps| == 0 then 0 else Cap(slot, ps[0].insp) + Caps(slot, ps[1..])
  }

  lemma WithinMore(f: Float, n: real, m: real)
    requires Within(f, n) && n <= m
    ensures Within(f, m)
  {
  }

  /** One inspector of any argument earns at most its cap, when nested checks are off. */
  lemma ProbeCap(cfg: Config, rule: NestedRule, spec: Spec, i: nat, p: Probe)
    requires ProbeWellTyped(p) && !cfg.doNestedChecks && Covers(spec, i + 1)
    ensures CompareProbe(cfg, rule, spec, i, p).Success? ==>
      Within(CompareProbe(cfg, rule, spec, i, p).value, Cap(SlotAt(spec, i), p.insp) as real)
  {
  }

  /** The inspectors of any object argument earn at most their caps. */
  lemma {:induction false} ProbesCap(cfg: Config, rule: NestedRule, spec: Spec, i: nat, v: Value, j: nat)
    requires v != Null && WellTyped(v) && j <= |v.probes| && !cfg.doNestedChecks && Covers(spec, i + 1)
    ensures CompareProbes(cfg, rule, spec, i, v, j).Success? ==>
      Within(CompareProbes(cfg, rule, spec, i, v, j).value, Caps(SlotAt(spec, i), v.probes[j..]) as real)
    decreases |v.probes| - j
  {
    if j < |v.probes| {
      var p := v.probes[j];
      assert ProbeWellTyped(p);
      ProbesCap(cfg, rule, spec, i, v, j + 1);
      ProbeCap(cfg, rule, spec, i, p);
      assert v.probes[j..][1..] == v.probes[j + 1..];
      var a := CompareProbe(cfg, rule, spec, i, p);
      var b := CompareProbes(cfg, rule, spec, i, v, j + 1);
      if HasCanonicalName(v) && a.Success? && b.Success? {
        ProbesStep(cfg, rule, spec, i, v, j, a.value, b.value);
        AddWithin(a.value, b.value, Cap(SlotAt(spec, i), p.insp) as real, Caps(SlotAt(spec, i), v.probes[j + 1..]) as real);
      }
    }
  }

  // ---------------------------------------------------------------------------------------------
  // Recording raises the caps by no more than the points it counts
  // ---------------------------------------------------------------------------------------------

  lemma {:induction false} EmptyCaps(ps: seq<Probe>)
    ensures Caps(EmptySlot, ps) == 0
    decreases |ps|
  {
    if |ps| > 0 {
      EmptyCaps(ps[1..]);
    }
  }

  /** Caps agree on lists that avoid the one inspector where two slots differ. */
  lemma {:induction false} CapsElsewhere(a: Slot, b: Slot, x: Inspector, ps: seq<Probe>)
    requires forall y :: y != x ==> Cap(a, y) == Cap(b, y)
    requires forall k :: 0 <= k < |ps| ==> ps[k].insp != x
    ensures Caps(a, ps) == Caps(b, ps)
    decreases |ps|
  {
    if |ps| > 0 {
      CapsElsewhere(a, b, x, ps[1..]);
    }
  }

  /**
   * When two slots differ only at `x`, where the cap rose by at most `d`, the caps of a list
   * naming each inspector at most once rose by at most `d`.
   */
  lemma {:induction false} CapsStep(a: Slot, b: Slot, x: Inspector, d: nat, ps: seq<Probe>)
    requires forall y :: y != x ==> Cap(a, y) == Cap(b, y)
    requires Cap(b, x) <= Cap(a, x) + d
    requires DistinctInspectors(ps)
    ensures Caps(b, ps) <= Caps(a, ps) + d
    decreases |ps|
  {
    if |ps| > 0 {
      var rest := ps[1..];
      assert DistinctInspectors(rest) by {
        forall j, k | 0 <= j < k < |rest| ensures rest[j].insp != rest[k].insp {
          assert rest[j] == ps[j + 1] && rest[k] == ps[k + 1];
        }
      }
      if ps[0].insp == x {
        forall k | 0 <= k < |rest| ensures rest[k].insp != x {
          assert rest[k] == ps[k + 1];
        }
        CapsElsewhere(a, b, x, rest);
      } else {
        CapsStep(a, b, x, d, rest);
      }
    }
  }

  /** Recording one inspector raises its cap by at most the points counted for it. */
  lemma RecordProbeCap(cfg: Config, slot: Slot, p: Probe)
    requires ProbeWellTyped(p) && RecordProbe(cfg, slot, p).Success?
    ensures forall y :: y != p.insp ==> Cap(RecordProbe(cfg, slot, p).value.0, y) == Cap(slot, y)
    ensures Cap(RecordProbe(cfg, slot, p).value.0, p.insp) <= Cap(slot, p.insp) + RecordProbe(cfg, slot, p).value.1
  {
    var after := RecordProbe(cfg, slot, p).value.0;
    forall y | y != p.insp ensures Cap(after, y) == Cap(slot, y) {
      CapOfLookup(after, slot, y);
    }
  }

  /** The cap depends only on what the four maps hold for the inspector. */
  lemma CapOfLookup(a: Slot, b: Slot, y: Inspector)
    requires At(a, y) == At(b, y)
    ensures Cap(a, y) == Cap(b, y)
  {
    assert Find(a.strings, y) == Find(b.strings, y);
  }

  /**
   * Recording an object's inspectors raises the caps of any list of distinct inspectors by at
   * most the points it counts.
   */
  lemma {:induction false} RecordCaps(cfg: Config, slot: Slot, v: Value, j: nat, ps: seq<Probe>)
    requires v != Null && WellTyped(v) && j <= |v.probes| && DistinctInspectors(ps)
    requires RecordProbes(cfg, slot, v, j).Success?
    ensures Caps(RecordProbes(cfg, slot, v, j).value.0, ps) <= Caps(slot, ps) + RecordProbes(cfg, slot, v, j).value.1
    decreases |v.probes| - j
  {
    if j < |v.probes| {
      var p := v.probes[j];
      assert ProbeWellTyped(p);
      RecordStep(cfg, slot, v, j);
      var one := RecordProbe(cfg, slot, p).value;
      RecordProbeCap(cfg, slot, p);
      CapsStep(slot, one.0, p.insp, one.1, ps);
      RecordCaps(cfg, one.0, v, j + 1, ps);
    }
  }

  // ---------------------------------------------------------------------------------------------
  // Any arguments against a recorded spec
  // ---------------------------------------------------------------------------------------------

  /** What recording any argument leaves as its partition is never negative. */
  lemma RecordedPartition(cfg: Config, e: Entries, rec: Value)
    requires WellTyped(rec) && Recorded(cfg, e, rec)
    ensures e.partition >= 0
  {
  }

  /**
   * Any well-formed argument earns at most the partition recorded for position `i`, whatever
   * argument it was recorded from, when nested checks are off.
   */
  lemma ArgBoundOther(cfg: Config, rule: NestedRule, spec: Spec, arg: Value, rec: Value, i: nat)
    requires !cfg.doNestedChecks && WellTyped(arg) && WellFormed(arg) && WellTyped(rec) && WellFormed(rec)
    requires Covers(spec, i + 1) && i < |spec.argIsNull| && i < |spec.partitionSizes|
    requires Recorded(cfg, EntriesAt(spec, i), rec)
    ensures CompareArg(cfg, rule, spec, arg, i).Success? ==>
      Within(CompareArg(cfg, rule, spec, arg, i).value, spec.partitionSizes[i] as real)
  {
    var e := EntriesAt(spec, i);
    RecordedPartition(cfg, e, rec);
    if !spec.argIsNull[i] && arg != Null && !IsTextArgument(arg) && !IsMockProxy(arg) {
      ProbesCap(cfg, rule, spec, i, arg, 0);
      assert arg.probes[0..] == arg.probes;
      if Atom(rec) || IsMockProxy(rec) {
        EmptyCaps(arg.probes);
      } else {
        RecordCaps(cfg, EmptySlot, rec, 0, arg.probes);
        EmptyCaps(arg.probes);
      }
      var r := CompareArg(cfg, rule, spec, arg, i);
      if r.Success? {
        WithinMore(r.value, Caps(e.slot, arg.probes) as real, e.partition as real);
      }
    }
  }

  lemma {:induction false} SumNonNegative(s: seq<int>)
    requires forall k :: 0 <= k < |s| ==> s[k] >= 0
    ensures Sum(s) >= 0
    decreases |s|
  {
    if |s| > 0 {
      SumNonNegative(s[1..]);
    }
  }

  lemma {:induction false} FromBoundOther(cfg: Config, rule: NestedRule, spec: Spec, recs: seq<Value>, args: seq<Value>, i: nat)
    requires !cfg.doNestedChecks && Aligned(spec, |recs|) && i <= |args| && i <= |recs|
    requires forall k :: 0 <= k < |recs| ==> WellTyped(recs[k]) && WellFormed(recs[k])
    requires forall k :: 0 <= k < |recs| ==> Recorded(cfg, EntriesAt(spec, k), recs[k])
    requires forall k :: 0 <= k < |args| ==> WellTyped(args[k]) && WellFormed(args[k])
    ensures CompareFrom(cfg, rule, spec, args, i).Success? ==>
      Within(CompareFrom(cfg, rule, spec, args, i).value, Sum(spec.partitionSizes[i..]) as real)
    decreases |args| - i
  {
    var tail := spec.partitionSizes[i..];
    forall k | 0 <= k < |tail| ensures tail[k] >= 0 {
      assert tail[k] == spec.partitionSizes[i + k];
      RecordedPartition(cfg, EntriesAt(spec, i + k), recs[i + k]);
    }
    SumNonNegative(tail);
    if i < |args| && i < |recs| {
      ArgBoundOther(cfg, rule, spec, args[i], recs[i], i);
      FromBoundOther(cfg, rule, spec, recs, args, i + 1);
      assert spec.partitionSizes[i..][1..] == spec.partitionSizes[i + 1..];
      var a := CompareArg(cfg, rule, spec, args[i], i);
      var b := CompareFrom(cfg, rule, spec, args, i + 1);
      if a.Success? && b.Success? {
        AddWithin(a.value, b.value, spec.partitionSizes[i] as real, Sum(spec.partitionSizes[i + 1..]) as real);
      }
    }
  }

  /**
   * With nested checks off, any well-formed arguments score between 0 and 1 (or NaN) against a
   * spec recorded from any well-formed arguments, under either nested rule: the fitness never
   * rejects such a score.
   */
  lemma OtherArgumentsBounded(cfg: Config, rule: NestedRule, recs: seq<Value>, args: seq<Value>)
    requires !cfg.doNestedChecks
    requires forall k :: 0 <= k < |recs| ==> WellTyped(recs[k]) && WellFormed(recs[k])
    requires forall k :: 0 <= k < |args| ==> WellTyped(args[k]) && WellFormed(args[k])
    requires RecordObjects(cfg, EmptySpec, recs).Success?
    ensures var spec := RecordObjects(cfg, EmptySpec, recs).value;
      CompareObjects(cfg, rule, spec, args).Success? ==> Within(CompareObjects(cfg, rule, spec, args).value, 1.0)
  {
    var spec := RecordObjects(cfg, EmptySpec, recs).value;
    RecordObjectsShape(cfg, recs);
    FromBoundOther(cfg, rule, spec, recs, args, 0);
    assert spec.partitionSizes[0..] == spec.partitionSizes;
    var total := CompareFrom(cfg, rule, spec, args, 0);
    if total.Success? {
      DivIntWithin(total.value, TotalPossible(spec));
    }
  }

  // ---------------------------------------------------------------------------------------------
  // With nested checks on, other arguments can score above 1
  // ---------------------------------------------------------------------------------------------

  /** An object of class `dc` whose String inspector `g` returned null. */
  function StrangerDelegate(dc: JType, g: Inspector): Value {
    Obj(dc, "", [Probe(g, Returned(Null))])
  }

  /** An object of the witness's class whose inspector `p` returned a delegate of another shape. */
  function StrangerArg(c: JType, r: Inspector, b: bool, p: Inspector, dc: JType, g: Inspector): Value {
    Obj(c, "", [Probe(r, Returned(Bool(b, []))), Probe(p, Returned(StrangerDelegate(dc, g)))])
  }

  /** `dc` is a plain class and `g` is declared to return a String. */
  predicate StrangerOk(dc: JType, g: Inspector) {
    dc.ClassType? && g.ReturnType() == StringType
  }

  lemma StrangerWellFormed(cfg: Config, c: JType, r: Inspector, b: bool, p: Inspector, q: Inspector, dc: JType, g: Inspector)
    requires WitnessOk(cfg, c, r, p, q) && StrangerOk(dc, g)
    ensures WellFormed(StrangerArg(c, r, b, p, dc, g)) && WellTyped(StrangerArg(c, r, b, p, dc, g))
  {
    var arg := StrangerArg(c, r, b, p, dc, g);
    WitnessProbeWellFormed(r, Bool(b, []));
    WitnessProbeWellFormed(g, Null);
    assert WellFormed(StrangerDelegate(dc, g));
    WitnessProbeWellFormed(p, StrangerDelegate(dc, g));
    assert DistinctInspectors(arg.probes);
    WellFormedIsWellTyped(arg);
  }

  /**
   * Below `p` the witness's spec holds an empty node. Both nested rules give the null String
   * output of the other delegate a point, which nothing recorded accounts for.
   */
  lemma StrangerDelegateCredit(cfg: Config, c: JType, r: Inspector, b: bool, p: Inspector, q: Inspector,
                               dc: JType, g: Inspector, rule: NestedRule)
    requires WitnessOk(cfg, c, r, p, q) && StrangerOk(dc, g)
    ensures ProbeWellTyped(Probe(p, Returned(StrangerDelegate(dc, g))))
    ensures CompareProbe(cfg, rule, WitnessSpec(r, b, p), 0, Probe(p, Returned(StrangerDelegate(dc, g)))) == Success(Num(1.0))
  {
    var d := StrangerDelegate(dc, g);
    assert WellTyped(d);
    if rule == AsWritten {
      StrangerAsWritten(cfg, d, g);
    } else {
      StrangerMirrored(cfg, d, g);
    }
  }

  lemma StrangerAsWritten(cfg: Config, d: Value, g: Inspector)
    requires d.Obj? && d.probes == [Probe(g, Returned(Null))]
    ensures WellTyped(d)
    ensures CheckNestedAsWritten(cfg, Some(EmptyNode), d, 0, 0) == Success(Num(1.0))
  {
    assert ProbeWellTyped(d.probes[0]);
    assert CheckNestedAsWritten(cfg, Some(EmptyNode), d, 0, 1) == Success(Num(0.0));
  }

  lemma StrangerMirrored(cfg: Config, d: Value, g: Inspector)
    requires d.Obj? && d.cls.ClassType? && d.probes == [Probe(g, Returned(Null))] && g.ReturnType() == StringType
    ensures WellTyped(d)
    ensures CheckNested(cfg, EmptyNode, d, 0, 0) == Num(1.0)
  {
    assert ProbeWellTyped(d.probes[0]);
    assert NestedCredit(cfg, EmptyNode, d, 0, 0) == Num(1.0);
    assert CheckNested(cfg, EmptyNode, d, 0, 1) == Num(0.0);
  }

  lemma StrangerProbes(cfg: Config, c: JType, r: Inspector, b: bool, p: Inspector, q: Inspector,
                       dc: JType, g: Inspector, rule: NestedRule)
    requires WitnessOk(cfg, c, r, p, q) && StrangerOk(dc, g)
    ensures WellTyped(StrangerArg(c, r, b, p, dc, g))
    ensures CompareArg(cfg, rule, WitnessSpec(r, b, p), StrangerArg(c, r, b, p, dc, g), 0) == Success(Num(2.0))
  {
    StrangerWellFormed(cfg, c, r, b, p, q, dc, g);
    StrangerDelegateCredit(cfg, c, r, b, p, q, dc, g, rule);
    var arg := StrangerArg(c, r, b, p, dc, g);
    var spec := WitnessSpec(r, b, p);
    assert CanonicalName(RuntimeClass(arg)) == Some(c.name);
    assert CompareProbe(cfg, rule, spec, 0, arg.probes[0]) == Success(Num(1.0));
    assert CompareProbes(cfg, rule, spec, 0, arg, 2) == Success(Num(0.0));
    assert CompareProbes(cfg, rule, spec, 0, arg, 1) == Success(Num(1.0));
    assert CompareProbes(cfg, rule, spec, 0, arg, 0) == Success(Num(2.0));
    assert !IsMockProxy(arg);
  }

  /**
   * With nested checks on, a spec recorded from the witness (one point, for its Boolean) scores
   * 2.0 against an argument of the same class whose delegate has a String inspector, under
   * both nested rules; the fitness then throws.
   */
  lemma NestedStrangerExceedsOne(cfg: Config, c: JType, r: Inspector, b: bool, p: Inspector, q: Inspector,
                                 dc: JType, g: Inspector, rule: NestedRule)
    requires WitnessOk(cfg, c, r, p, q) && StrangerOk(dc, g)
    ensures WellFormed(StrangerArg(c, r, b, p, dc, g)) && WellTyped(StrangerArg(c, r, b, p, dc, g))
    ensures WellTyped(WitnessArg(c, r, b, p, dc, q))
    ensures RecordObjects(cfg, EmptySpec, [WitnessArg(c, r, b, p, dc, q)]) == Success(WitnessSpec(r, b, p))
    ensures CompareObjects(cfg, rule, WitnessSpec(r, b, p), [StrangerArg(c, r, b, p, dc, g)]) == Success(Num(2.0))
  {
    WitnessRecorded(cfg, c, r, b, p, dc, q);
    StrangerWellFormed(cfg, c, r, b, p, q, dc, g);
    StrangerProbes(cfg, c, r, b, p, q, dc, g, rule);
    SinglePartition(WitnessSpec(r, b, p));
    LoneArgument(cfg, rule, WitnessSpec(r, b, p), [StrangerArg(c, r, b, p, dc, g)], 2.0);
  }
}

=== FILE: reaching_spec.dfy ===
/**
 * `ReachingSpec`: what was observed about the arguments passed to the target callee, one entry
 * per argument in each of seven parallel lists. A Java `Set<String>` is a sequence in iteration
 * order; a `null` stored in a map or a set is `None`.
 */
module ReachingSpecs {
  import opened Wrappers
  import opened Values

  /**
   * `ReachingSpec.NestedInspectors`: the expectations recorded below one object-valued
   * inspector. A fresh one has `goDeeper == false` and null `value` and `nested`. `nested` is a
   * map the recorder re-creates before every insertion, so it never holds more than one entry.
   */
  datatype Node = Node(goDeeper: bool, values: Option<seq<string>>, nested: Option<Child>)

  /** The single entry of a `nested` map. */
  datatype Child = Child(key: Inspector, node: Node)

  const EmptyNode: Node := Node(false, None, None)

  datatype Spec = Spec(
    argBoolInspectors: seq<map<Inspector, Option<bool>>>,
    argEnumInspectors: seq<map<Inspector, string>>,
    argStringInspectors: seq<map<Inspector, seq<Option<string>>>>,
    nestedStringInspectors: seq<map<Inspector, Node>>,
    argStringValue: seq<seq<string>>,
    argIsNull: seq<bool>,
    partitionSizes: seq<int>)

  /** `new ReachingSpec()`. */
  const EmptySpec: Spec := Spec([], [], [], [], [], [], [])

  /** `itIsKnown`: something was recorded into the Boolean-inspector list. */
  function ItIsKnown(spec: Spec): bool {
    |spec.argBoolInspectors| > 0
  }

  function Sum(s: seq<int>): int {
    if |s| == 0 then 0 else s[0] + Sum(s[1..])
  }

  /** The `totalPossible` the comparison divides by: the sum of the partition sizes. */
  function TotalPossible(spec: Spec): int {
    Sum(spec.partitionSizes)
  }

  /** `HashSet.add`: a value already present is not added again. */
  function SetAdd<T(==,!new)>(s: seq<T>, x: T): (r: seq<T>)
    ensures x in r
    ensures forall y :: y in r <==> y in s || y == x
  {
    if x in s then s else s + [x]
  }
}

=== FILE: recorder.dfy ===
/**
 * `ReachabilitySpecUnderInferenceUtils.recordObjects` and its helpers: record, for each argument
 * passed to the target callee, what its inspectors returned, and count the points the
 * comparison can later award for that argument (its partition size).
 */
module Recorder {
  import opened Wrappers
  import opened Values
  import opened Settings
  import opened ReachingSpecs
  import JavaStrings

  // ---------------------------------------------------------------------------------------------
  // The four maps of one argument
  // ---------------------------------------------------------------------------------------------

  /** Entry `i` of the four inspector-map lists of a spec. */
  datatype Slot = Slot(
    strings: map<Inspector, seq<Option<string>>>,
    bools: map<Inspector, Option<bool>>,
    enums: map<Inspector, string>,
    nested: map<Inspector, Node>)

  const EmptySlot: Slot := Slot(map[], map[], map[], map[])

  /** What the four maps hold for one inspector. */
  datatype Lookup = Lookup(
    strs: Option<seq<Option<string>>>,
    flag: Option<Option<bool>>,
    name: Option<string>,
    node: Option<Node>)

  const Absent: Lookup := Lookup(None, None, None, None)

  function Find<K, V>(m: map<K, V>, k: K): Option<V> {
    if k in m then Some(m[k]) else None
  }

  function At(slot: Slot, x: Inspector): Lookup {
    Lookup(Find(slot.strings, x), Find(slot.bools, x), Find(slot.enums, x), Find(slot.nested, x))
  }

  /** The five per-argument lists (the four maps and the literal set) hold at least `n` entries. */
  predicate Covers(spec: Spec, n: nat) {
    |spec.argStringInspectors| >= n && |spec.argBoolInspectors| >= n && |spec.argEnumInspectors| >= n
    && |spec.argStringValue| >= n && |spec.nestedStringInspectors| >= n
  }

  /** All seven lists hold exactly `n` entries, as after recording `n` arguments into a fresh spec. */
  predicate Aligned(spec: Spec, n: nat) {
    |spec.argStringInspectors| == n && |spec.argBoolInspectors| == n && |spec.argEnumInspectors| == n
    && |spec.argStringValue| == n && |spec.nestedStringInspectors| == n
    && |spec.argIsNull| == n && |spec.partitionSizes| == n
  }

  function SlotAt(spec: Spec, i: nat): Slot
    requires Covers(spec, i + 1)
  {
    Slot(spec.argStringInspectors[i], spec.argBoolInspectors[i], spec.argEnumInspectors[i],
         spec.nestedStringInspectors[i])
  }

  function WithSlot(spec: Spec, i: nat, slot: Slot): (r: Spec)
    requires Covers(spec, i + 1)
    ensures Covers(r, i + 1) && SlotAt(r, i) == slot
  {
    spec.(argStringInspectors := spec.argStringInspectors[i := slot.strings],
          argBoolInspectors := spec.argBoolInspectors[i := slot.bools],
          argEnumInspectors := spec.argEnumInspectors[i := slot.enums],
          nestedStringInspectors := spec.nestedStringInspectors[i := slot.nested])
  }

  /** A string-like output the recorder keeps: short enough, and not naming a mock proxy. */
  predicate Kept(cfg: Config, text: string) {
    |text| <= cfg.maxString && !JavaStrings.MockMarkerText(text)
  }

  // ---------------------------------------------------------------------------------------------
  // Nested inspectors (recursivelyInsertIntoNestedInspector)
  // ---------------------------------------------------------------------------------------------

  /**
   * Inspect the object `v` found at nesting `depth` below an argument, from its `j`-th inspector
   * on, updating `node`; the second component is the number of points added.
   */
  function InsertNested(cfg: Config, node: Node, v: Value, depth: int, j: nat): (Node, nat)
    requires v != Null && WellTyped(v) && j <= |v.probes|
    decreases v, |v.probes| - j, 1
  {
    if j == |v.probes| then (node, 0)
    else
      var (node1, here) := NestedProbe(cfg, node, v, depth, j);
      var (node2, rest) := InsertNested(cfg, node1, v, depth, j + 1);
      (node2, here + rest)
  }

  /** Whether the recorder descends into the output of `v`'s `j`-th inspector. */
  predicate Descends(cfg: Config, v: Value, depth: int, j: nat)
    requires v != Null && j < |v.probes|
  {
    var p := v.probes[j];
    var t := p.insp.ReturnType();
    t != RuntimeClass(v) && p.out.Returned? && t != Boxed(PBoolean) && t != Primitive(PBoolean)
    && !IsStringLike(t) && depth < cfg.maxDepth && p.out.v != Null && !IgnoredWhenRecording(t)
  }

  /**
   * The `j`-th inspector of `v` returned a string-like output, and not `v`'s own class: a leaf of
   * the nested record.
   */
  predicate StringLeaf(v: Value, j: nat)
    requires v != Null && j < |v.probes|
  {
    v.probes[j].out.Returned? && IsStringLike(v.probes[j].insp.ReturnType())
    && v.probes[j].insp.ReturnType() != RuntimeClass(v)
  }

  /** One iteration of the loop in `recursivelyInsertIntoNestedInspector`. */
  function NestedProbe(cfg: Config, node: Node, v: Value, depth: int, j: nat): (r: (Node, nat))
    requires v != Null && WellTyped(v) && j < |v.probes|
    decreases v, |v.probes| - j, 0
    ensures Descends(cfg, v, depth, j) ==>
      var (child, c) := InsertNested(cfg, EmptyNode, OutputAt(v, j), depth + 1, 0);
      r == (node.(goDeeper := true, nested := Some(Child(v.probes[j].insp, child))), c)
    ensures !Descends(cfg, v, depth, j) ==> r.0.nested == node.nested
    ensures StringLeaf(v, j) && (OutputAt(v, j) == Null || !Kept(cfg, OutputText(OutputAt(v, j)))) ==>
      r == (node.(goDeeper := false, values := Some([])), 1)
    ensures StringLeaf(v, j) && OutputAt(v, j) != Null && Kept(cfg, OutputText(OutputAt(v, j))) ==>
      r == (node.(goDeeper := false, values := Some([OutputText(OutputAt(v, j))])), 2)
  {
    var p := v.probes[j];
    var t := p.insp.ReturnType();
    assert ProbeWellTyped(p);
    if t == RuntimeClass(v) || p.out.Threw? || t == Boxed(PBoolean) || t == Primitive(PBoolean) then
      (node, 0)
    else
      var w := p.out.v;
      if IsStringLike(t) then
        if w == Null then (node.(goDeeper := false, values := Some([])), 1)
        else
          var text := OutputText(w);
          if Kept(cfg, text) then (node.(goDeeper := false, values := Some([text])), 2)
          else (node.(goDeeper := false, values := Some([])), 1)
      else if depth < cfg.maxDepth && w != Null && !IgnoredWhenRecording(t) then
        var (child, c) := InsertNested(cfg, EmptyNode, w, depth + 1, 0);
        (node.(goDeeper := true, nested := Some(Child(p.insp, child))), c)
      else
        (node, 0)
  }

  /** The node recorded for an object found at `depth`, starting from a fresh one. */
  function Built(cfg: Config, v: Value, depth: int): Node
    requires v != Null && WellTyped(v)
  {
    InsertNested(cfg, EmptyNode, v, depth, 0).0
  }

  /** The points recorded for an object found at `depth`. */
  function NestedCount(cfg: Config, v: Value, depth: int): nat
    requires v != Null && WellTyped(v)
  {
    InsertNested(cfg, EmptyNode, v, depth, 0).1
  }

  /** The points an object earns do not depend on the node they are recorded into. */
  lemma {:induction false} InsertNestedCount(cfg: Config, a: Node, b: Node, v: Value, depth: int, j: nat)
    requires v != Null && WellTyped(v) && j <= |v.probes|
    ensures InsertNested(cfg, a, v, depth, j).1 == InsertNested(cfg, b, v, depth, j).1
    decreases |v.probes| - j
  {
    if j < |v.probes| {
      InsertNestedCount(cfg, NestedProbe(cfg, a, v, depth, j).0, NestedProbe(cfg, b, v, depth, j).0, v, depth, j + 1);
    }
  }

  /**
   * The child a node ends up with is the one it started with, or the node built for the last
   * inspector the recorder descended into.
   */
  lemma {:induction false} NestedChildOrigin(cfg: Config, node: Node, v: Value, depth: int, j: nat)
    requires v != Null && WellTyped(v) && j <= |v.probes|
    ensures var n := InsertNested(cfg, node, v, depth, j).0;
      n.nested == node.nested ||
      exists k :: j <= k < |v.probes| && Descends(cfg, v, depth, k) &&
        n.nested == Some(Child(v.probes[k].insp, Built(cfg, OutputAt(v, k), depth + 1)))
    decreases |v.probes| - j
  {
    if j < |v.probes| {
      var node1 := NestedProbe(cfg, node, v, depth, j).0;
      NestedChildOrigin(cfg, node1, v, depth, j + 1);
    }
  }

  // ---------------------------------------------------------------------------------------------
  // One argument's inspectors (putInspectorOutputIntoSpec)
  // ---------------------------------------------------------------------------------------------

  /** `r` succeeds, files `entry` for `x` and earns `points`. */
  predicate Files(r: Result<(Slot, nat), Fault>, x: Inspector, entry: Lookup, points: nat) {
    r.Success? && At(r.value.0, x) == entry && r.value.1 == points
  }

  /**
   * One iteration of the loop in `putInspectorOutputIntoSpec`. The output lands in at most one of
   * the four maps, under its own inspector: a null String as the set {null} (1 point), a kept
   * text as {text} (2 points), a Boolean (1 point), an enum's `toString()` text (1 point) or, with nested
   * checks on, the node built for an object (its nested count). A text that is not kept earns 1
   * point and files nothing; a thrown call and an ignored type earn nothing.
   */
  function RecordProbe(cfg: Config, slot: Slot, p: Probe): (r: Result<(Slot, nat), Fault>)
    requires ProbeWellTyped(p)
    ensures r.Success? ==> forall x :: x != p.insp ==> At(r.value.0, x) == At(slot, x)
    ensures r.Failure? <==>
      p.out.Returned? &&
      ((IsEnum(p.insp.ReturnType()) && !IsStringLike(p.insp.ReturnType()) && p.out.v == Null) ||
       (IsStringLike(p.insp.ReturnType()) && p.out.v != Null && Kept(cfg, OutputText(p.out.v))
        && p.insp in slot.strings))
    ensures p.out.Threw? ==> r == Success((slot, 0))
    ensures p.out.Returned? && IsStringLike(p.insp.ReturnType()) && p.out.v == Null ==>
      Files(r, p.insp, At(slot, p.insp).(strs := Some([None])), 1)
    ensures (p.out.Returned? && IsStringLike(p.insp.ReturnType()) && p.out.v != Null
             && !Kept(cfg, OutputText(p.out.v))) ==> r == Success((slot, 1))
    ensures (p.out.Returned? && IsStringLike(p.insp.ReturnType()) && p.out.v != Null
             && Kept(cfg, OutputText(p.out.v)) && p.insp !in slot.strings) ==>
      Files(r, p.insp, At(slot, p.insp).(strs := Some([Some(OutputText(p.out.v))])), 2)
    ensures p.out.Returned? && IsBoxedBoolean(p.insp.ReturnType()) ==>
      Files(r, p.insp, At(slot, p.insp).(flag := Some(BoolOf(p.out.v))), 1)
    ensures p.out.Returned? && IsEnum(p.insp.ReturnType()) && p.out.v != Null ==>
      Files(r, p.insp, At(slot, p.insp).(name := Some(p.out.v.text)), 1)
    ensures p.out.Returned? && IsObjectLike(p.insp.ReturnType()) && !cfg.doNestedChecks ==>
      r == Success((slot, 0))
    ensures p.out.Returned? && IsObjectLike(p.insp.ReturnType()) && cfg.doNestedChecks && p.out.v == Null ==>
      Files(r, p.insp, At(slot, p.insp).(node := Some(EmptyNode)), 0)
    ensures p.out.Returned? && IsObjectLike(p.insp.ReturnType()) && cfg.doNestedChecks && p.out.v != Null ==>
      Files(r, p.insp, At(slot, p.insp).(node := Some(Built(cfg, p.out.v, 0))), NestedCount(cfg, p.out.v, 0))
    ensures p.out.Returned? && IgnoredWhenRecording(p.insp.ReturnType()) && !IsBoxedBoolean(p.insp.ReturnType()) ==>
      r == Success((slot, 0))
  {
    match p.out
    case Threw => Success((slot, 0))
    case Returned(w) =>
      var t := p.insp.ReturnType();
      if IsStringLike(t) then
        if w == Null then Success((slot.(strings := slot.strings[p.insp := [None]]), 1))
        else
          var text := OutputText(w);
          if !Kept(cfg, text) then Success((slot, 1))
          else if p.insp in slot.strings then Failure(IllegalState)
          else Success((slot.(strings := slot.strings[p.insp := [Some(text)]]), 2))
      else if IsBoxedBoolean(t) then
        Success((slot.(bools := slot.bools[p.insp := BoolOf(w)]), 1))
      else if IsEnum(t) then
        if w == Null then Failure(NullPointer)
        else Success((slot.(enums := slot.enums[p.insp := w.text]), 1))
      else if !IgnoredWhenRecording(t) then
        if !cfg.doNestedChecks then Success((slot, 0))
        else if w == Null then Success((slot.(nested := slot.nested[p.insp := EmptyNode]), 0))
        else
          var (node, c) := InsertNested(cfg, EmptyNode, w, 0, 0);
          Success((slot.(nested := slot.nested[p.insp := node]), c))
      else
        Success((slot, 0))
  }

  /**
   * The loop of `putInspectorOutputIntoSpec` from the `j`-th inspector of `v` on. Each round
   * starts with the mock-proxy test on the class name, which throws for a class without one.
   */
  function RecordProbes(cfg: Config, slot: Slot, v: Value, j: nat): (r: Result<(Slot, nat), Fault>)
    requires v != Null && WellTyped(v) && j <= |v.probes|
    decreases |v.probes| - j
  {
    if j == |v.probes| then Success((slot, 0))
    else if !HasCanonicalName(v) then Failure(NullPointer)
    else
      var one :- RecordProbe(cfg, slot, v.probes[j]);
      var rest :- RecordProbes(cfg, one.0, v, j + 1);
      Success((rest.0, one.1 + rest.1))
  }

  /** The inspectors of `v` from the `j`-th on. */
  predicate Inspects(v: Value, j: nat, x: Inspector)
    requires v != Null
  {
    exists k :: j <= k < |v.probes| && v.probes[k].insp == x
  }

  /** An inspector not among those still to run keeps what the slot held for it. */
  lemma {:induction false} RecordProbesFrame(cfg: Config, slot: Slot, v: Value, j: nat, x: Inspector)
    requires v != Null && WellTyped(v) && j <= |v.probes|
    requires RecordProbes(cfg, slot, v, j).Success?
    requires !Inspects(v, j, x)
    ensures At(RecordProbes(cfg, slot, v, j).value.0, x) == At(slot, x)
    decreases |v.probes| - j
  {
    if j < |v.probes| {
      var one := RecordProbe(cfg, slot, v.probes[j]).value;
      RecordProbesFrame(cfg, one.0, v, j + 1, x);
    }
  }

  /**
   * Recording fails only on an object whose class has no canonical name, on an enum inspector
   * returning null (the call `toString()` on it), or on a string inspector that was already
   * filled; with distinct inspectors and a slot that holds none of them yet, the last cannot
   * happen.
   */
  lemma {:induction false} RecordProbesSucceeds(cfg: Config, slot: Slot, v: Value, j: nat)
    requires v != Null && WellTyped(v) && j <= |v.probes| && DistinctInspectors(v.probes)
    requires j < |v.probes| ==> HasCanonicalName(v)
    requires forall k :: j <= k < |v.probes| ==> v.probes[k].insp !in slot.strings
    requires forall k :: j <= k < |v.probes| ==> !NullEnum(v.probes[k])
    ensures RecordProbes(cfg, slot, v, j).Success?
    decreases |v.probes| - j
  {
    if j < |v.probes| {
      var p := v.probes[j];
      assert ProbeWellTyped(p);
      var one := RecordProbe(cfg, slot, p);
      assert one.Success?;
      forall k | j + 1 <= k < |v.probes|
        ensures v.probes[k].insp !in one.value.0.strings
      {
        assert v.probes[k].insp != p.insp;
        assert At(one.value.0, v.probes[k].insp) == At(slot, v.probes[k].insp);
      }
      RecordProbesSucceeds(cfg, one.value.0, v, j + 1);
    }
  }

  /** An enum-typed inspector that returned null. */
  predicate NullEnum(p: Probe) {
    var t := p.insp.ReturnType();
    p.out.Returned? && IsEnum(t) && p.out.v == Null
  }

  // ---------------------------------------------------------------------------------------------
  // All arguments (recordObjects)
  // ---------------------------------------------------------------------------------------------

  /** The partition an argument receives: one point for null and text, the inspectors' points otherwise. */
  predicate Atom(arg: Value) {
    arg == Null || IsTextArgument(arg)
  }

  /** The fresh, empty entries `recordObjects` appends to the five per-argument lists. */
  function Grow(spec: Spec): (s: Spec)
    ensures s.argIsNull == spec.argIsNull && s.partitionSizes == spec.partitionSizes
  {
    spec.(argStringInspectors := spec.argStringInspectors + [map[]],
          argBoolInspectors := spec.argBoolInspectors + [map[]],
          argEnumInspectors := spec.argEnumInspectors + [map[]],
          argStringValue := spec.argStringValue + [[]],
          nestedStringInspectors := spec.nestedStringInspectors + [map[]])
  }

  /** One iteration of `recordObjects`: fresh entries are appended, then entry `i` is filled. */
  function RecordArg(cfg: Config, spec: Spec, arg: Value, i: nat): (r: Result<Spec, Fault>)
    requires WellTyped(arg) && Covers(spec, i)
    ensures r.Success? ==> Covers(r.value, i + 1)
    ensures r.Success? ==> |r.value.argIsNull| == |spec.argIsNull| + 1 && |r.value.partitionSizes| == |spec.partitionSizes| + 1
    ensures arg != Null && !IsTextArgument(arg) && |arg.probes| > 0 && !HasCanonicalName(arg) ==> r == Failure(NullPointer)
  {
    var s := Grow(spec);
    if arg == Null then
      Success(s.(argIsNull := s.argIsNull + [true], partitionSizes := s.partitionSizes + [1]))
    else if IsTextArgument(arg) then
      Success(s.(argStringValue := s.argStringValue[i := SetAdd(s.argStringValue[i], ArgumentText(arg))],
                 argIsNull := s.argIsNull + [false], partitionSizes := s.partitionSizes + [1]))
    else if IsMockProxy(arg) then
      Success(s.(argIsNull := s.argIsNull + [false], partitionSizes := s.partitionSizes + [0]))
    else
      var filled :- RecordProbes(cfg, SlotAt(s, i), arg, 0);
      Success(WithSlot(s, i, filled.0).(argIsNull := s.argIsNull + [false],
                                         partitionSizes := s.partitionSizes + [filled.1]))
  }

  function RecordFrom(cfg: Config, spec: Spec, args: seq<Value>, i: nat): (r: Result<Spec, Fault>)
    requires i <= |args| && Covers(spec, i)
    requires forall k :: 0 <= k < |args| ==> WellTyped(args[k])
    decreases |args| - i
  {
    if i == |args| then Success(spec)
    else
      var next :- RecordArg(cfg, spec, args[i], i);
      RecordFrom(cfg, next, args, i + 1)
  }

  /** `recordObjects(spec, args)`. */
  function RecordObjects(cfg: Config, spec: Spec, args: seq<Value>): Result<Spec, Fault>
    requires forall k :: 0 <= k < |args| ==> WellTyped(args[k])
  {
    RecordFrom(cfg, spec, args, 0)
  }

  // ---------------------------------------------------------------------------------------------
  // What recording leaves behind
  // ---------------------------------------------------------------------------------------------

  /** Everything a spec holds about its `k`-th argument. */
  datatype Entries = Entries(isNull: bool, partition: int, literals: seq<string>, slot: Slot)

  function EntriesAt(spec: Spec, k: nat): Entries
    requires Covers(spec, k + 1) && k < |spec.argIsNull| && k < |spec.partitionSizes|
  {
    Entries(spec.argIsNull[k], spec.partitionSizes[k], spec.argStringValue[k], SlotAt(spec, k))
  }

  /** The first `n` arguments' entries are the same in both specs. */
  predicate SamePrefix(a: Spec, b: Spec, n: nat)
    requires Covers(a, n) && |a.argIsNull| >= n && |a.partitionSizes| >= n
    requires Covers(b, n) && |b.argIsNull| >= n && |b.partitionSizes| >= n
  {
    forall k :: 0 <= k < n ==> EntriesAt(a, k) == EntriesAt(b, k)
  }

  /**
   * The entries recording leaves for one argument: null is flagged and worth one point; a text
   * argument is kept as the one literal and worth one point; a mock proxy is worth nothing; any
   * other object gets the slot and points its inspectors produce from an empty slot.
   */
  predicate Recorded(cfg: Config, e: Entries, arg: Value)
    requires WellTyped(arg)
  {
    e.isNull == (arg == Null)
    && e.literals == (if IsTextArgument(arg) then [ArgumentText(arg)] else [])
    && if Atom(arg) then e.partition == 1 && e.slot == EmptySlot
       else if IsMockProxy(arg) then e.partition == 0 && e.slot == EmptySlot
       else RecordProbes(cfg, EmptySlot, arg, 0) == Success((e.slot, e.partition))
  }

  lemma RecordArgShape(cfg: Config, spec: Spec, arg: Value, i: nat)
    requires WellTyped(arg) && Aligned(spec, i)
    requires RecordArg(cfg, spec, arg, i).Success?
    ensures var r := RecordArg(cfg, spec, arg, i).value;
      Aligned(r, i + 1) && SamePrefix(spec, r, i) && Recorded(cfg, EntriesAt(r, i), arg)
  {
    RecordArgPrefix(cfg, spec, arg, i);
    RecordArgEntry(cfg, spec, arg, i);
  }

  lemma RecordArgPrefix(cfg: Config, spec: Spec, arg: Value, i: nat)
    requires WellTyped(arg) && Aligned(spec, i)
    requires RecordArg(cfg, spec, arg, i).Success?
    ensures var r := RecordArg(cfg, spec, arg, i).value;
      Aligned(r, i + 1) && SamePrefix(spec, r, i)
  {
    var r := RecordArg(cfg, spec, arg, i).value;
    var s := Grow(spec);
    if Atom(arg) || IsMockProxy(arg) {
      forall k | 0 <= k < i
        ensures EntriesAt(spec, k) == EntriesAt(r, k)
      {
        assert SlotAt(r, k) == SlotAt(spec, k);
      }
    } else {
      var filled := RecordProbes(cfg, SlotAt(s, i), arg, 0).value;
      WithSlotPrefix(s, i, filled.0);
      forall k | 0 <= k < i
        ensures EntriesAt(spec, k) == EntriesAt(r, k)
      {
        assert SlotAt(r, k) == SlotAt(WithSlot(s, i, filled.0), k);
      }
    }
  }

  /** Filling slot `i` leaves the slots before it alone. */
  lemma WithSlotPrefix(s: Spec, i: nat, slot: Slot)
    requires Covers(s, i + 1)
    ensures forall k :: 0 <= k < i ==> SlotAt(WithSlot(s, i, slot), k) == SlotAt(s, k)
    ensures WithSlot(s, i, slot).argStringValue == s.argStringValue
  {
  }

  lemma RecordArgEntry(cfg: Config, spec: Spec, arg: Value, i: nat)
    requires WellTyped(arg) && Aligned(spec, i)
    requires RecordArg(cfg, spec, arg, i).Success?
    ensures var r := RecordArg(cfg, spec, arg, i).value;
      Covers(r, i + 1) && i < |r.argIsNull| && i < |r.partitionSizes| && Recorded(cfg, EntriesAt(r, i), arg)
  {
    var r := RecordArg(cfg, spec, arg, i).value;
    var s := Grow(spec);
    assert SlotAt(s, i) == EmptySlot && s.argStringValue[i] == [];
    if !Atom(arg) && !IsMockProxy(arg) {
      var filled := RecordProbes(cfg, SlotAt(s, i), arg, 0).value;
      assert EntriesAt(r, i) == Entries(false, filled.1, [], filled.0);
    }
  }

  /** Recording `args[i..]` into a spec that holds `i` arguments fills one entry per argument. */
  lemma {:induction false} RecordFromShape(cfg: Config, spec: Spec, args: seq<Value>, i: nat)
    requires i <= |args| && Aligned(spec, i)
    requires forall k :: 0 <= k < |args| ==> WellTyped(args[k])
    requires RecordFrom(cfg, spec, args, i).Success?
    ensures var r := RecordFrom(cfg, spec, args, i).value;
      Aligned(r, |args|) && SamePrefix(spec, r, i) &&
      forall k :: i <= k < |args| ==> Recorded(cfg, EntriesAt(r, k), args[k])
    decreases |args| - i
  {
    if i < |args| {
      var next := RecordArg(cfg, spec, args[i], i).value;
      RecordArgShape(cfg, spec, args[i], i);
      RecordFromShape(cfg, next, args, i + 1);
      var r := RecordFrom(cfg, spec, args, i).value;
      assert EntriesAt(next, i) == EntriesAt(r, i);
    }
  }

  /**
   * Recording into a fresh spec yields one entry per argument in each of the seven lists, with
   * the entries `Recorded` describes.
   */
  lemma RecordObjectsShape(cfg: Config, args: seq<Value>)
    requires forall k :: 0 <= k < |args| ==> WellTyped(args[k])
    requires RecordObjects(cfg, EmptySpec, args).Success?
    ensures var r := RecordObjects(cfg, EmptySpec, args).value;
      Aligned(r, |args|) && forall k :: 0 <= k < |args| ==> Recorded(cfg, EntriesAt(r, k), args[k])
  {
    RecordFromShape(cfg, EmptySpec, args, 0);
  }

  /** No object argument has a top-level enum inspector that returned null. */
  predicate NoNullEnum(args: seq<Value>) {
    forall k, j :: 0 <= k < |args| && !Atom(args[k]) && 0 <= j < |args[k].probes| ==> !NullEnum(args[k].probes[j])
  }

  /** Every object argument with inspectors belongs to a class that has a canonical name. */
  predicate NamedObjects(args: seq<Value>) {
    forall k :: 0 <= k < |args| && !Atom(args[k]) && |args[k].probes| > 0 ==> HasCanonicalName(args[k])
  }

  /**
   * Recording fails only when an object argument's class has no canonical name or an enum
   * inspector of an argument returned null (`RecordArg` states the first failure).
   */
  lemma {:induction false} RecordFromSucceeds(cfg: Config, spec: Spec, args: seq<Value>, i: nat)
    requires i <= |args| && Aligned(spec, i)
    requires forall k :: 0 <= k < |args| ==> WellFormed(args[k])
    requires NoNullEnum(args) && NamedObjects(args)
    ensures forall k :: 0 <= k < |args| ==> WellTyped(args[k])
    ensures RecordFrom(cfg, spec, args, i).Success?
    decreases |args| - i
  {
    forall k | 0 <= k < |args| ensures WellTyped(args[k]) {
      WellFormedIsWellTyped(args[k]);
    }
    if i < |args| {
      var arg := args[i];
      if !Atom(arg) && !IsMockProxy(arg) {
        RecordProbesSucceeds(cfg, EmptySlot, arg, 0);
      }
      var next := RecordArg(cfg, spec, arg, i);
      RecordArgShape(cfg, spec, arg, i);
      RecordFromSucceeds(cfg, next.value, args, i + 1);
    }
  }

  /** A fresh spec becomes known exactly when at least one argument was recorded into it. */
  lemma KnownAfterRecording(cfg: Config, args: seq<Value>)
    requires forall k :: 0 <= k < |args| ==> WellTyped(args[k])
    requires RecordObjects(cfg, EmptySpec, args).Success?
    ensures ItIsKnown(RecordObjects(cfg, EmptySpec, args).value) <==> |args| > 0
  {
    RecordObjectsShape(cfg, args);
  }
}

=== FILE: replace_visitor.dfy ===
/**
 * `ReplaceMethodVisitor`: a transducer over the instruction events of one method body that
 * rewrites every call to a target method into an `INVOKESTATIC` of a replacement, dropping the
 * receiver of an instance call. The visitor it forwards to is modelled by the events it emits.
 */
module ReplaceVisitor {
  import opened Wrappers
  import opened JavaStrings

  /** JVM opcodes, with the values of the Java Virtual Machine Specification, chapter 6. */
  const ALOAD: int := 25
  const POP: int := 87
  const INVOKESTATIC: int := 184

  /** The ASM visitor callbacks the rewrite distinguishes. */
  datatype Event =
    | Insn(opcode: int)
    | VarInsn(opcode: int, v: int)
    | MethodInsn(opcode: int, owner: string, name: string, desc: string, itf: bool)

  /** The call to rewrite and the static method that replaces it. */
  datatype Target = Target(targetOwner: string, targetName: string, replacementOwner: string, replacementName: string)

  /**
   * The visitor's fields: the variables of the `ALOAD`s seen since the last call (the source
   * keeps their opcodes in a parallel list, which only ever holds `ALOAD`), and the descriptor
   * last matched, passed up through `matchedInvocation`.
   */
  datatype VisitorState = VisitorState(buffer: seq<int>, matchedSignature: Option<string>)

  const Start: VisitorState := VisitorState([], None)

  /** Matching looks at owner and name only, so every overload matches. */
  predicate Matches(t: Target, e: Event) {
    e.MethodInsn? && e.owner == t.targetOwner && e.name == t.targetName
  }

  /** `n` copies of `POP`. */
  function Pops(n: nat): (r: seq<Event>)
    ensures |r| == n
  {
    if n == 0 then [] else Pops(n - 1) + [Insn(POP)]
  }

  lemma {:induction false} PopsPop(n: nat)
    ensures forall k :: 0 <= k < n ==> Pops(n)[k] == Insn(POP)
  {
    if n > 0 {
      PopsPop(n - 1);
      assert Pops(n) == Pops(n - 1) + [Insn(POP)];
    }
  }

  /** An `ALOAD` for each variable, in order. */
  function Reloads(vars: seq<int>): (r: seq<Event>)
    ensures |r| == |vars|
  {
    if |vars| == 0 then [] else [VarInsn(ALOAD, vars[0])] + Reloads(vars[1..])
  }

  /** The `k`-th reload loads the `k`-th variable. */
  lemma {:induction false} ReloadsLoad(vars: seq<int>)
    ensures forall k :: 0 <= k < |vars| ==> Reloads(vars)[k] == VarInsn(ALOAD, vars[k])
    decreases |vars|
  {
    if |vars| > 0 {
      ReloadsLoad(vars[1..]);
      var r := Reloads(vars);
      assert r == [VarInsn(ALOAD, vars[0])] + Reloads(vars[1..]);
      forall k | 0 < k < |vars|
        ensures r[k] == VarInsn(ALOAD, vars[k])
      {
        assert r[k] == Reloads(vars[1..])[k - 1];
      }
    }
  }

  /**
   * What a matched instance call emits before the static call: one `POP` per buffered load, then
   * the loads again without the first (the receiver). A static call emits nothing here.
   */
  function Fixup(opcode: int, buffer: seq<int>): seq<Event> {
    if opcode != INVOKESTATIC && |buffer| > 0 then Pops(|buffer|) + Reloads(buffer[1..]) else []
  }

  /** The events one callback emits, and the visitor's state afterwards. */
  function Step(t: Target, st: VisitorState, e: Event): (r: (seq<Event>, VisitorState))
    ensures !Matches(t, e) ==> r.0 == [e]
    ensures e.Insn? ==> r == ([e], st)
    ensures e.VarInsn? ==> r == ([e], if e.opcode == ALOAD then st.(buffer := st.buffer + [e.v]) else st)
    ensures Matches(t, e) ==>
      r.0 == Fixup(e.opcode, st.buffer) + [MethodInsn(INVOKESTATIC, t.replacementOwner, t.replacementName, e.desc, false)]
    ensures e.MethodInsn? ==> r.1.buffer == []
    ensures Matches(t, e) ==> r.1.matchedSignature == Some(e.desc)
    ensures !Matches(t, e) ==> r.1.matchedSignature == st.matchedSignature
    ensures Matches(t, e) ==> (
      |r.0| > 0 && r.0[|r.0| - 1] == MethodInsn(INVOKESTATIC, t.replacementOwner, t.replacementName, e.desc, false))
  {
    match e
    case Insn(_) => ([e], st)
    case VarInsn(op, v) => ([e], if op == ALOAD then st.(buffer := st.buffer + [v]) else st)
    case MethodInsn(op, owner, name, desc, _) =>
      if !Matches(t, e) then ([e], st.(buffer := []))
      else
        (Fixup(op, st.buffer) + [MethodInsn(INVOKESTATIC, t.replacementOwner, t.replacementName, desc, false)],
         VisitorState([], Some(desc)))
  }

  /**
   * `visitMethodInsn` as written: for a matched call it first builds a log line from
   * `desc.split(";\\)")[1]`, which throws when the descriptor has no ";)".
   */
  function StepAsWritten(t: Target, st: VisitorState, e: Event): (r: Result<(seq<Event>, VisitorState), Fault>)
    ensures r.Success? ==> r.value == Step(t, st, e)
    ensures r.Failure? <==> Matches(t, e) && |Split(e.desc, ";)")| < 2
  {
    if Matches(t, e) then
      var _ :- Get(Split(e.desc, ";)"), 1);
      Success(Step(t, st, e))
    else Success(Step(t, st, e))
  }

  /** A text without ';' holds no ";)", so the split yields the whole text alone. */
  lemma {:induction false} NoSemicolonNoSplit(s: string)
    requires ';' !in s
    ensures Split(s, ";)") == [s]
    decreases |s|
  {
    if |s| > 0 {
      assert !StartsWith(s, ";)") by { assert s[0] != ';'; }
      NoSemicolonNoSplit(s[1..]);
    } else {
      assert IndexOf(s, ";)") == None;
    }
  }

  /**
   * A matched call to a method without object parameters, `()V` for instance, makes the visitor
   * as written throw, while the corrected step rewrites it.
   */
  lemma AsWrittenThrowsWithoutObjectParameter(t: Target, st: VisitorState, op: int, desc: string, itf: bool)
    requires ';' !in desc
    ensures StepAsWritten(t, st, MethodInsn(op, t.targetOwner, t.targetName, desc, itf)) == Failure(IndexOutOfBounds)
    ensures Step(t, st, MethodInsn(op, t.targetOwner, t.targetName, desc, itf)).1.matchedSignature == Some(desc)
  {
    NoSemicolonNoSplit(desc);
  }

  /** The descriptor of a no-argument void method is such a case. */
  lemma NoArgumentCallThrows(t: Target, st: VisitorState)
    ensures StepAsWritten(t, st, MethodInsn(182, t.targetOwner, t.targetName, "()V", false)) == Failure(IndexOutOfBounds)
  {
    AsWrittenThrowsWithoutObjectParameter(t, st, 182, "()V", false);
  }

  /** The whole rewrite of a method body: the events emitted, in order, and the final state. */
  function Run(t: Target, st: VisitorState, es: seq<Event>): (seq<Event>, VisitorState)
    decreases |es|
  {
    if |es| == 0 then ([], st)
    else
      var first := Step(t, st, es[0]);
      var rest := Run(t, first.1, es[1..]);
      (first.0 + rest.0, rest.1)
  }

  /** The visitor driven over a body's events, one callback per loop round. */
  method Rewrite(t: Target, es: seq<Event>) returns (out: seq<Event>, st: VisitorState)
    ensures out == Run(t, Start, es).0 && st == Run(t, Start, es).1
  {
    out := [];
    st := Start;
    var i := 0;
    assert es[0..] == es;
    assert out + Run(t, st, es).0 == Run(t, st, es).0;
    while i < |es|
      invariant 0 <= i <= |es|
      invariant Run(t, Start, es).0 == out + Run(t, st, es[i..]).0
      invariant Run(t, Start, es).1 == Run(t, st, es[i..]).1
    {
      var emitted, st' := StepOf(t, st, es[i]);
      RunFirst(t, st, es, i);
      out := out + emitted;
      st := st';
      i := i + 1;
    }
    assert es[i..] == [];
    assert out + [] == out;
  }

  /** One callback of the visitor. */
  method StepOf(t: Target, st: VisitorState, e: Event) returns (emitted: seq<Event>, st': VisitorState)
    ensures (emitted, st') == Step(t, st, e)
  {
    emitted, st' := Step(t, st, e).0, Step(t, st, e).1;
  }

  /** Running from position `i` is one step followed by running from `i + 1`. */
  lemma RunFirst(t: Target, st: VisitorState, es: seq<Event>, i: nat)
    requires i < |es|
    ensures var (emitted, st') := Step(t, st, es[i]);
      Run(t, st, es[i..]).0 == emitted + Run(t, st', es[i + 1..]).0
      && Run(t, st, es[i..]).1 == Run(t, st', es[i + 1..]).1
  {
    assert es[i..][1..] == es[i + 1..];
  }

  /** A body with no call to the target passes through unchanged. */
  lemma {:induction false} UntouchedWithoutTarget(t: Target, st: VisitorState, es: seq<Event>)
    requires forall k :: 0 <= k < |es| ==> !Matches(t, es[k])
    ensures Run(t, st, es).0 == es
    ensures Run(t, st, es).1.matchedSignature == st.matchedSignature
    decreases |es|
  {
    if |es| > 0 {
      UntouchedWithoutTarget(t, Step(t, st, es[0]).1, es[1..]);
      assert es == [es[0]] + es[1..];
    }
  }

  /** When the replacement is a different method, no call to the target survives the rewrite. */
  lemma {:induction false} NoTargetCallRemains(t: Target, st: VisitorState, es: seq<Event>)
    requires t.replacementOwner != t.targetOwner || t.replacementName != t.targetName
    ensures forall k :: 0 <= k < |Run(t, st, es).0| ==> !Matches(t, Run(t, st, es).0[k])
    decreases |es|
  {
    if |es| > 0 {
      var (out, st1) := Step(t, st, es[0]);
      NoTargetCallRemains(t, st1, es[1..]);
      var rest := Run(t, st1, es[1..]).0;
      assert forall k :: 0 <= k < |out| ==> !Matches(t, out[k]) by {
        if Matches(t, es[0]) {
          var fix := Fixup(es[0].opcode, st.buffer);
          if |st.buffer| > 0 {
            PopsPop(|st.buffer|);
            ReloadsLoad(st.buffer[1..]);
          }
          assert out == fix + [MethodInsn(INVOKESTATIC, t.replacementOwner, t.replacementName, es[0].desc, false)];
          assert forall k :: 0 <= k < |fix| ==> !fix[k].MethodInsn?;
        }
      }
      assert Run(t, st, es).0 == out + rest;
    }
  }

  /** The operand stack as far as `ALOAD` and `POP` act on it. */
  function Exec(stack: seq<int>, es: seq<Event>): Option<seq<int>>
    decreases |es|
  {
    if |es| == 0 then Some(stack)
    else match es[0]
      case VarInsn(op, v) =>
        if op == ALOAD then Exec(stack + [v], es[1..]) else None
      case Insn(op) =>
        if op == POP && |stack| > 0 then Exec(stack[..|stack| - 1], es[1..]) else None
      case MethodInsn(_, _, _, _, _) => None
  }

  lemma {:induction false} ExecPops(base: seq<int>, top: seq<int>, rest: seq<Event>)
    ensures Exec(base + top, Pops(|top|) + rest) == Exec(base, rest)
    decreases |top|
  {
    if |top| > 0 {
      var p := Pops(|top|) + rest;
      var s := base + top;
      PopsPop(|top|);
      PopsPop(|top| - 1);
      assert p[0] == Insn(POP);
      assert Pops(|top|)[1..] == Pops(|top| - 1);
      assert p[1..] == Pops(|top| - 1) + rest;
      assert Exec(s, p) == Exec(s[..|s| - 1], p[1..]);
      assert s[..|s| - 1] == base + top[..|top| - 1];
      ExecPops(base, top[..|top| - 1], rest);
    } else {
      assert base + top == base && Pops(0) + rest == rest;
    }
  }

  lemma {:induction false} ExecReloads(base: seq<int>, vars: seq<int>)
    ensures Exec(base, Reloads(vars)) == Some(base + vars)
    decreases |vars|
  {
    if |vars| > 0 {
      assert Reloads(vars)[1..] == Reloads(vars[1..]);
      assert Exec(base, Reloads(vars)) == Exec(base + [vars[0]], Reloads(vars[1..]));
      ExecReloads(base + [vars[0]], vars[1..]);
      assert base + [vars[0]] + vars[1..] == base + vars;
    } else {
      assert base + vars == base;
    }
  }

  /**
   * What the fix-up of a matched instance call does to the operand stack: when the buffered
   * loads are the top of the stack, the receiver (the first of them) is removed and the
   * arguments stay in order, ready for the static replacement.
   */
  lemma FixupDropsReceiver(base: seq<int>, buffer: seq<int>, opcode: int)
    requires opcode != INVOKESTATIC && |buffer| > 0
    ensures Exec(base + buffer, Fixup(opcode, buffer)) == Some(base + buffer[1..])
  {
    ExecPops(base, buffer, Reloads(buffer[1..]));
    ExecReloads(base, buffer[1..]);
  }

  /** Running over two stretches of events is running over the first, then over the second. */
  lemma {:induction false} RunAppend(t: Target, st: VisitorState, a: seq<Event>, b: seq<Event>)
    ensures Run(t, st, a + b).0 == Run(t, st, a).0 + Run(t, Run(t, st, a).1, b).0
    ensures Run(t, st, a + b).1 == Run(t, Run(t, st, a).1, b).1
    decreases |a|
  {
    if |a| == 0 {
      assert a + b == b;
      assert Run(t, st, a).0 + Run(t, st, b).0 == Run(t, st, b).0;
    } else {
      assert (a + b)[0] == a[0];
      assert (a + b)[1..] == a[1..] + b;
      var first := Step(t, st, a[0]);
      RunAppend(t, first.1, a[1..], b);
      var mid := Run(t, first.1, a[1..]);
      var second := Run(t, mid.1, b);
      assert first.0 + (mid.0 + second.0) == (first.0 + mid.0) + second.0;
    }
  }

  /** A run of loads passes through unchanged and appends its variables to the buffer. */
  lemma {:induction false} RunReloads(t: Target, st: VisitorState, vars: seq<int>)
    ensures Run(t, st, Reloads(vars)).0 == Reloads(vars)
    ensures Run(t, st, Reloads(vars)).1 == st.(buffer := st.buffer + vars)
    decreases |vars|
  {
    if |vars| == 0 {
      assert st.buffer + vars == st.buffer;
    } else {
      var es := Reloads(vars);
      assert es[0] == VarInsn(ALOAD, vars[0]);
      assert es[1..] == Reloads(vars[1..]);
      var st1 := st.(buffer := st.buffer + [vars[0]]);
      RunReloads(t, st1, vars[1..]);
      assert st1.buffer + vars[1..] == st.buffer + vars;
    }
  }

  lemma {:induction false} ExecReloadsThen(base: seq<int>, vars: seq<int>, rest: seq<Event>)
    ensures Exec(base, Reloads(vars) + rest) == Exec(base + vars, rest)
    decreases |vars|
  {
    var es := Reloads(vars) + rest;
    if |vars| > 0 {
      assert es[0] == VarInsn(ALOAD, vars[0]);
      assert es[1..] == Reloads(vars[1..]) + rest;
      ExecReloadsThen(base + [vars[0]], vars[1..], rest);
      assert base + [vars[0]] + vars[1..] == base + vars;
    } else {
      assert es == rest && base + vars == base;
    }
  }

  /**
   * The rewrite of an instance call to the target after the loads of its receiver and
   * arguments: the loads pass through and are buffered, then the call becomes one `POP` per load,
   * the arguments reloaded, and the static call. Before that static call the operand stack holds
   * the arguments without the receiver.
   */
  lemma LoadsThenCallDropReceiver(t: Target, vars: seq<int>, call: Event, base: seq<int>)
    requires |vars| > 0 && Matches(t, call) && call.opcode != INVOKESTATIC
    ensures var out := Run(t, Start, Reloads(vars) + [call]).0;
      var replacement := MethodInsn(INVOKESTATIC, t.replacementOwner, t.replacementName, call.desc, false);
      && out == Reloads(vars) + Pops(|vars|) + Reloads(vars[1..]) + [replacement]
      && Exec(base, out[..|out| - 1]) == Some(base + vars[1..])
  {
    var replacement := MethodInsn(INVOKESTATIC, t.replacementOwner, t.replacementName, call.desc, false);
    RunAppend(t, Start, Reloads(vars), [call]);
    RunReloads(t, Start, vars);
    var st := Start.(buffer := Start.buffer + vars);
    assert st.buffer == vars;
    assert Run(t, st, [call]).0 == Step(t, st, call).0 + [] by {
      assert [call][1..] == [];
    }
    var fix := Fixup(call.opcode, vars);
    assert fix == Pops(|vars|) + Reloads(vars[1..]);
    var out := Run(t, Start, Reloads(vars) + [call]).0;
    assert out == Reloads(vars) + fix + [replacement];
    assert out[..|out| - 1] == Reloads(vars) + fix;
    ExecReloadsThen(base, vars, fix);
    FixupDropsReceiver(base, vars, call.opcode);
  }
}

=== FILE: self_bound.dfy ===
/**
 * With nested checks on and the corrected nested rule, comparing a spec with the arguments it
 * was recorded from never scores above 1: every inspector earns at most the points the recorder
 * counted for it.
 */
module SelfBound {
  import opened Wrappers
  import opened Values
  import opened Settings
  import opened ReachingSpecs
  import opened Floats
  import opened Similarity
  import opened Recorder
  import opened Comparator
  import opened SelfMatch
  import JavaStrings

  /**
   * The child `n` holds, when its key is the inspector of a probe the recorder descended into,
   * is the node recorded for that probe's output.
   */
  predicate ChildFaithful(cfg: Config, n: Node, v: Value, depth: int)
    requires v != Null && WellTyped(v)
  {
    forall k :: 0 <= k < |v.probes| && Descends(cfg, v, depth, k) && n.nested.Some? && n.nested.value.key == v.probes[k].insp ==>
      n.nested.value.node == Built(cfg, OutputAt(v, k), depth + 1)
  }

  lemma BuiltChildFaithful(cfg: Config, v: Value, depth: int)
    requires v != Null && WellTyped(v) && WellFormed(v)
    ensures ChildFaithful(cfg, Built(cfg, v, depth), v, depth)
  {
    NestedChildOrigin(cfg, EmptyNode, v, depth, 0);
  }

  /** An object found below an argument earns back at most the points recorded for it. */
  lemma {:induction false} SelfNestedBound(cfg: Config, v: Value, depth: int)
    requires v != Null && WellTyped(v) && WellFormed(v)
    ensures Within(CheckNested(cfg, Built(cfg, v, depth), v, depth, 0), NestedCount(cfg, v, depth) as real)
    decreases v, |v.probes| + 1, 0
  {
    BuiltChildFaithful(cfg, v, depth);
    CreditBound(cfg, Built(cfg, v, depth), v, depth, 0);
  }

  lemma {:induction false} CreditBound(cfg: Config, n: Node, v: Value, depth: int, j: nat)
    requires v != Null && WellTyped(v) && WellFormed(v) && j <= |v.probes|
    requires ChildFaithful(cfg, n, v, depth)
    ensures Within(CheckNested(cfg, n, v, depth, j), InsertNested(cfg, EmptyNode, v, depth, j).1 as real)
    decreases v, |v.probes| - j, 1
  {
    if j < |v.probes| {
      CreditBound(cfg, n, v, depth, j + 1);
      ProbeCreditBound(cfg, n, v, depth, j);
      InsertNestedCount(cfg, NestedProbe(cfg, EmptyNode, v, depth, j).0, EmptyNode, v, depth, j + 1);
      AddWithin(NestedCredit(cfg, n, v, depth, j), CheckNested(cfg, n, v, depth, j + 1),
                NestedProbe(cfg, EmptyNode, v, depth, j).1 as real, InsertNested(cfg, EmptyNode, v, depth, j + 1).1 as real);
    }
  }

  lemma {:induction false} ProbeCreditBound(cfg: Config, n: Node, v: Value, depth: int, j: nat)
    requires v != Null && WellTyped(v) && WellFormed(v) && j < |v.probes|
    requires ChildFaithful(cfg, n, v, depth)
    ensures Within(NestedCredit(cfg, n, v, depth, j), NestedProbe(cfg, EmptyNode, v, depth, j).1 as real)
    decreases v, |v.probes| - j, 0
  {
    var p := v.probes[j];
    assert ProbeWellFormed(p);
    if Descends(cfg, v, depth, j) {
      var w := OutputAt(v, j);
      if n.nested.Some? && n.nested.value.key == p.insp {
        SelfNestedBound(cfg, w, depth + 1);
      }
    }
  }

  // ---------------------------------------------------------------------------------------------
  // Top level
  // ---------------------------------------------------------------------------------------------

  /** One inspector of an argument earns at most the points it recorded. */
  lemma ProbeBound(cfg: Config, spec: Spec, i: nat, slot: Slot, p: Probe)
    requires ProbeWellTyped(p) && ProbeWellFormed(p)
    requires At(slot, p.insp) == Absent
    requires RecordProbe(cfg, slot, p).Success?
    requires Covers(spec, i + 1)
    requires At(SlotAt(spec, i), p.insp) == At(RecordProbe(cfg, slot, p).value.0, p.insp)
    ensures CompareProbe(cfg, Mirrored, spec, i, p).Success? ==>
      Within(CompareProbe(cfg, Mirrored, spec, i, p).value, RecordProbe(cfg, slot, p).value.1 as real)
  {
    if p.out.Returned? && p.out.v != Null {
      var t := p.insp.ReturnType();
      if !IsStringLike(t) && !IsBoxedBoolean(t) && !IsEnum(t) && !IgnoredWhenRecording(t) && cfg.doNestedChecks {
        SelfNestedBound(cfg, p.out.v, 0);
      }
    }
  }

  lemma {:induction false} ProbesBound(cfg: Config, spec: Spec, i: nat, slot: Slot, v: Value, j: nat)
    requires v != Null && WellTyped(v) && WellFormed(v) && j <= |v.probes|
    requires forall k :: j <= k < |v.probes| ==> At(slot, v.probes[k].insp) == Absent
    requires RecordProbes(cfg, slot, v, j).Success?
    requires Covers(spec, i + 1) && SlotAt(spec, i) == RecordProbes(cfg, slot, v, j).value.0
    ensures CompareProbes(cfg, Mirrored, spec, i, v, j).Success? ==>
      Within(CompareProbes(cfg, Mirrored, spec, i, v, j).value, RecordProbes(cfg, slot, v, j).value.1 as real)
    decreases |v.probes| - j
  {
    if j < |v.probes| {
      var p := v.probes[j];
      assert ProbeWellTyped(p) && ProbeWellFormed(p);
      RecordStep(cfg, slot, v, j);
      var one := RecordProbe(cfg, slot, p).value;
      var rest := RecordProbes(cfg, one.0, v, j + 1).value;
      StillAbsent(cfg, slot, v, j);
      ProbesBound(cfg, spec, i, one.0, v, j + 1);
      RecordProbesFrame(cfg, one.0, v, j + 1, p.insp);
      ProbeBound(cfg, spec, i, slot, p);
      var a := CompareProbe(cfg, Mirrored, spec, i, p);
      var b := CompareProbes(cfg, Mirrored, spec, i, v, j + 1);
      if a.Success? && b.Success? {
        ProbesStep(cfg, Mirrored, spec, i, v, j, a.value, b.value);
        AddWithin(a.value, b.value, one.1 as real, rest.1 as real);
      }
    }
  }

  /** One argument earns at most its partition. */
  lemma ArgBound(cfg: Config, spec: Spec, arg: Value, i: nat)
    requires WellTyped(arg) && WellFormed(arg)
    requires Covers(spec, i + 1) && i < |spec.argIsNull| && i < |spec.partitionSizes|
    requires Recorded(cfg, EntriesAt(spec, i), arg)
    ensures CompareArg(cfg, Mirrored, spec, arg, i).Success? ==>
      Within(CompareArg(cfg, Mirrored, spec, arg, i).value, spec.partitionSizes[i] as real)
  {
    if !Atom(arg) && !IsMockProxy(arg) {
      ProbesBound(cfg, spec, i, EmptySlot, arg, 0);
    }
  }

  lemma {:induction false} FromBound(cfg: Config, spec: Spec, args: seq<Value>, i: nat)
    requires i <= |args| && Aligned(spec, |args|)
    requires forall k :: 0 <= k < |args| ==> WellTyped(args[k]) && WellFormed(args[k])
    requires forall k :: 0 <= k < |args| ==> Recorded(cfg, EntriesAt(spec, k), args[k])
    ensures CompareFrom(cfg, Mirrored, spec, args, i).Success? ==>
      Within(CompareFrom(cfg, Mirrored, spec, args, i).value, Sum(spec.partitionSizes[i..]) as real)
    decreases |args| - i
  {
    if i < |args| {
      ArgBound(cfg, spec, args[i], i);
      FromBound(cfg, spec, args, i + 1);
      assert spec.partitionSizes[i..][1..] == spec.partitionSizes[i + 1..];
      var a := CompareArg(cfg, Mirrored, spec, args[i], i);
      var b := CompareFrom(cfg, Mirrored, spec, args, i + 1);
      if a.Success? && b.Success? {
        AddWithin(a.value, b.value, spec.partitionSizes[i] as real, Sum(spec.partitionSizes[i + 1..]) as real);
      }
    }
  }

  /**
   * With the corrected nested rule, the arguments a spec was recorded from score between 0 and 1
   * against it (or NaN), whatever the nesting settings: the fitness never rejects the score.
   */
  lemma RecordedArgumentsBounded(cfg: Config, args: seq<Value>)
    requires forall k :: 0 <= k < |args| ==> WellTyped(args[k]) && WellFormed(args[k])
    requires RecordObjects(cfg, EmptySpec, args).Success?
    ensures var spec := RecordObjects(cfg, EmptySpec, args).value;
      CompareObjects(cfg, Mirrored, spec, args).Success? ==> Within(CompareObjects(cfg, Mirrored, spec, args).value, 1.0)
  {
    var spec := RecordObjects(cfg, EmptySpec, args).value;
    RecordObjectsShape(cfg, args);
    FromBound(cfg, spec, args, 0);
    assert spec.partitionSizes[0..] == spec.partitionSizes;
    var total := CompareFrom(cfg, Mirrored, spec, args, 0);
    if total.Success? {
      DivIntWithin(total.value, TotalPossible(spec));
    }
  }

  // ---------------------------------------------------------------------------------------------
  // The nested comparison as written
  // ---------------------------------------------------------------------------------------------

  /** An object of class `dc` whose one inspector `q` returned null. */
  function WitnessDelegate(dc: JType, q: Inspector): Value {
    Obj(dc, "", [Probe(q, Returned(Null))])
  }

  /** An object of class `c` whose inspector `r` returned `b` and whose inspector `p` returned the delegate. */
  function WitnessArg(c: JType, r: Inspector, b: bool, p: Inspector, dc: JType, q: Inspector): Value {
    Obj(c, "", [Probe(r, Returned(Bool(b, []))), Probe(p, Returned(WitnessDelegate(dc, q)))])
  }

  /**
   * `r` is declared Boolean, `p` returns some other class, `q` is declared Integer; nested
   * checks are on and `c` is a named class other than a mock proxy.
   */
  predicate WitnessOk(cfg: Config, c: JType, r: Inspector, p: Inspector, q: Inspector) {
    cfg.doNestedChecks && c.ClassType? && !JavaStrings.Contains(c.name, "EnhancerByMockito")
    && r.ReturnType() == Boxed(PBoolean) && p.ReturnType().ClassType? && q.ReturnType() == Boxed(PInt)
  }

  /** What recording a witness leaves for it: the Boolean, and an empty node for the delegate. */
  function WitnessSlot(r: Inspector, b: bool, p: Inspector): Slot {
    Slot(map[], map[r := Some(b)], map[], map[p := EmptyNode])
  }

  /** The spec recorded from a witness alone, worth one point. */
  function WitnessSpec(r: Inspector, b: bool, p: Inspector): Spec {
    Spec([map[r := Some(b)]], [map[]], [map[]], [map[p := EmptyNode]], [[]], [false], [1])
  }

  lemma WitnessWellFormed(cfg: Config, c: JType, r: Inspector, b: bool, p: Inspector, dc: JType, q: Inspector)
    requires WitnessOk(cfg, c, r, p, q)
    ensures WellFormed(WitnessArg(c, r, b, p, dc, q)) && WellTyped(WitnessArg(c, r, b, p, dc, q))
  {
    var arg := WitnessArg(c, r, b, p, dc, q);
    WitnessProbeWellFormed(r, Bool(b, []));
    WitnessProbeWellFormed(q, Null);
    assert WellFormed(WitnessDelegate(dc, q));
    WitnessProbeWellFormed(p, WitnessDelegate(dc, q));
    assert DistinctInspectors(arg.probes);
    WellFormedIsWellTyped(arg);
  }

  /** A probe whose output is well formed and of a type its inspector may return. */
  lemma WitnessProbeWellFormed(x: Inspector, w: Value)
    requires WellFormed(w) && (w != Null ==> Conforms(x.ReturnType(), w))
    ensures ProbeWellFormed(Probe(x, Returned(w)))
  {
  }

  lemma WitnessRecordProbes(cfg: Config, c: JType, r: Inspector, b: bool, p: Inspector, dc: JType, q: Inspector)
    requires WitnessOk(cfg, c, r, p, q)
    ensures WellTyped(WitnessArg(c, r, b, p, dc, q))
    ensures RecordProbes(cfg, EmptySlot, WitnessArg(c, r, b, p, dc, q), 0) == Success((WitnessSlot(r, b, p), 1))
  {
    WitnessWellFormed(cfg, c, r, b, p, dc, q);
    var arg := WitnessArg(c, r, b, p, dc, q);
    var d := WitnessDelegate(dc, q);
    assert NestedProbe(cfg, EmptyNode, d, 0, 0) == (EmptyNode, 0);
    assert InsertNested(cfg, EmptyNode, d, 0, 1) == (EmptyNode, 0);
    assert InsertNested(cfg, EmptyNode, d, 0, 0) == (EmptyNode, 0);
    var slot1 := Slot(map[], map[r := Some(b)], map[], map[]);
    assert RecordProbe(cfg, EmptySlot, arg.probes[0]) == Success((slot1, 1));
    assert RecordProbe(cfg, slot1, arg.probes[1]) == Success((WitnessSlot(r, b, p), 0));
    assert RecordProbes(cfg, WitnessSlot(r, b, p), arg, 2) == Success((WitnessSlot(r, b, p), 0));
    assert RecordProbes(cfg, slot1, arg, 1) == Success((WitnessSlot(r, b, p), 0));
  }

  lemma WitnessRecorded(cfg: Config, c: JType, r: Inspector, b: bool, p: Inspector, dc: JType, q: Inspector)
    requires WitnessOk(cfg, c, r, p, q)
    ensures WellTyped(WitnessArg(c, r, b, p, dc, q))
    ensures RecordObjects(cfg, EmptySpec, [WitnessArg(c, r, b, p, dc, q)]) == Success(WitnessSpec(r, b, p))
  {
    WitnessRecordProbes(cfg, c, r, b, p, dc, q);
    var arg := WitnessArg(c, r, b, p, dc, q);
    var spec := WitnessSpec(r, b, p);
    var s := EmptySpec.(argStringInspectors := EmptySpec.argStringInspectors + [map[]],
                        argBoolInspectors := EmptySpec.argBoolInspectors + [map[]],
                        argEnumInspectors := EmptySpec.argEnumInspectors + [map[]],
                        argStringValue := EmptySpec.argStringValue + [[]],
                        nestedStringInspectors := EmptySpec.nestedStringInspectors + [map[]]);
    assert SlotAt(s, 0) == EmptySlot;
    assert !Atom(arg) && !IsMockProxy(arg);
    var filled := WithSlot(s, 0, WitnessSlot(r, b, p));
    assert filled.argBoolInspectors == [map[r := Some(b)]];
    assert filled.nestedStringInspectors == [map[p := EmptyNode]];
    assert filled.argStringInspectors == [map[]] && filled.argEnumInspectors == [map[]];
    assert filled.(argIsNull := s.argIsNull + [false], partitionSizes := s.partitionSizes + [1]) == spec;
    assert RecordArg(cfg, EmptySpec, arg, 0) == Success(spec);
    assert RecordFrom(cfg, spec, [arg], 1) == Success(spec);
  }

  /** As written, the delegate inspector earns a point for the null Integer below it. */
  lemma DelegateAsWritten(cfg: Config, c: JType, r: Inspector, b: bool, p: Inspector, dc: JType, q: Inspector)
    requires WitnessOk(cfg, c, r, p, q)
    ensures ProbeWellTyped(Probe(p, Returned(WitnessDelegate(dc, q))))
    ensures CompareProbe(cfg, AsWritten, WitnessSpec(r, b, p), 0, Probe(p, Returned(WitnessDelegate(dc, q)))) == Success(Num(1.0))
  {
    var d := WitnessDelegate(dc, q);
    assert WellTyped(d);
    assert CheckNestedAsWritten(cfg, Some(EmptyNode), d, 0, 1) == Success(Num(0.0));
    assert CheckNestedAsWritten(cfg, Some(EmptyNode), d, 0, 0) == Success(Num(1.0));
  }

  /** Under the corrected rule it earns nothing, as the recorder counted nothing for it. */
  lemma DelegateMirrored(cfg: Config, c: JType, r: Inspector, b: bool, p: Inspector, dc: JType, q: Inspector)
    requires WitnessOk(cfg, c, r, p, q)
    ensures ProbeWellTyped(Probe(p, Returned(WitnessDelegate(dc, q))))
    ensures CompareProbe(cfg, Mirrored, WitnessSpec(r, b, p), 0, Probe(p, Returned(WitnessDelegate(dc, q)))) == Success(Num(0.0))
  {
    var d := WitnessDelegate(dc, q);
    assert WellTyped(d);
    assert NestedCredit(cfg, EmptyNode, d, 0, 0) == Num(0.0);
    assert CheckNested(cfg, EmptyNode, d, 0, 1) == Num(0.0);
  }

  /** The witness's two inspectors earn 1 and `delegate` points under `rule`. */
  lemma WitnessProbes(cfg: Config, c: JType, r: Inspector, b: bool, p: Inspector, dc: JType, q: Inspector,
                      rule: NestedRule, delegate: real)
    requires WitnessOk(cfg, c, r, p, q)
    requires delegate == if rule == AsWritten then 1.0 else 0.0
    ensures WellTyped(WitnessArg(c, r, b, p, dc, q))
    ensures CompareProbes(cfg, rule, WitnessSpec(r, b, p), 0, WitnessArg(c, r, b, p, dc, q), 0) == Success(Num(1.0 + delegate))
  {
    WitnessWellFormed(cfg, c, r, b, p, dc, q);
    var arg := WitnessArg(c, r, b, p, dc, q);
    var spec := WitnessSpec(r, b, p);
    if rule == AsWritten {
      DelegateAsWritten(cfg, c, r, b, p, dc, q);
    } else {
      DelegateMirrored(cfg, c, r, b, p, dc, q);
    }
    assert CompareProbe(cfg, rule, spec, 0, arg.probes[0]) == Success(Num(1.0));
    assert CompareProbes(cfg, rule, spec, 0, arg, 2) == Success(Num(0.0));
    assert CompareProbes(cfg, rule, spec, 0, arg, 1) == Success(Num(delegate));
  }

  lemma WitnessArgCompared(cfg: Config, c: JType, r: Inspector, b: bool, p: Inspector, dc: JType, q: Inspector,
                           rule: NestedRule, delegate: real)
    requires WitnessOk(cfg, c, r, p, q)
    requires delegate == if rule == AsWritten then 1.0 else 0.0
    ensures WellTyped(WitnessArg(c, r, b, p, dc, q))
    ensures CompareArg(cfg, rule, WitnessSpec(r, b, p), WitnessArg(c, r, b, p, dc, q), 0) == Success(Num(1.0 + delegate))
  {
    WitnessProbes(cfg, c, r, b, p, dc, q, rule, delegate);
    var arg := WitnessArg(c, r, b, p, dc, q);
    assert CanonicalName(RuntimeClass(arg)) == Some(c.name);
    assert !IsMockProxy(arg);
  }

  /** A lone argument scoring `x` against a one-point spec scores `x` overall. */
  lemma LoneArgument(cfg: Config, rule: NestedRule, spec: Spec, args: seq<Value>, x: real)
    requires |args| == 1 && WellTyped(args[0]) && TotalPossible(spec) == 1
    requires CompareArg(cfg, rule, spec, args[0], 0) == Success(Num(x))
    ensures CompareObjects(cfg, rule, spec, args) == Success(Num(x))
  {
    LoneArgumentTotal(cfg, rule, spec, args, x);
    ObjectsOverOne(cfg, rule, spec, args, x);
  }

  /** Against a one-point spec, `compareObjects` returns the points earned unchanged. */
  lemma ObjectsOverOne(cfg: Config, rule: NestedRule, spec: Spec, args: seq<Value>, x: real)
    requires forall k :: 0 <= k < |args| ==> WellTyped(args[k])
    requires TotalPossible(spec) == 1
    requires CompareFrom(cfg, rule, spec, args, 0) == Success(Num(x))
    ensures CompareObjects(cfg, rule, spec, args) == Success(Num(x))
  {
    DivOne(x);
  }

  lemma DivOne(x: real)
    ensures DivInt(Num(x), 1) == Num(x)
  {
  }

  lemma SinglePartition(spec: Spec)
    requires spec.partitionSizes == [1]
    ensures TotalPossible(spec) == 1
  {
    var s := spec.partitionSizes;
    assert s[1..] == [];
    assert Sum(s) == s[0] + Sum(s[1..]);
  }

  lemma LoneArgumentTotal(cfg: Config, rule: NestedRule, spec: Spec, args: seq<Value>, x: real)
    requires |args| == 1 && WellTyped(args[0])
    requires CompareArg(cfg, rule, spec, args[0], 0) == Success(Num(x))
    ensures forall k :: 0 <= k < |args| ==> WellTyped(args[k])
    ensures CompareFrom(cfg, rule, spec, args, 0) == Success(Num(x))
  {
    assert CompareFrom(cfg, rule, spec, args, 1) == Success(Num(0.0));
  }

  lemma WitnessCompared(cfg: Config, c: JType, r: Inspector, b: bool, p: Inspector, dc: JType, q: Inspector,
                        rule: NestedRule, delegate: real)
    requires WitnessOk(cfg, c, r, p, q)
    requires delegate == if rule == AsWritten then 1.0 else 0.0
    ensures WellTyped(WitnessArg(c, r, b, p, dc, q))
    ensures CompareObjects(cfg, rule, WitnessSpec(r, b, p), [WitnessArg(c, r, b, p, dc, q)]) == Success(Num(1.0 + delegate))
  {
    WitnessArgCompared(cfg, c, r, b, p, dc, q, rule, delegate);
    SinglePartition(WitnessSpec(r, b, p));
    LoneArgument(cfg, rule, WitnessSpec(r, b, p), [WitnessArg(c, r, b, p, dc, q)], 1.0 + delegate);
  }

  /**
   * Recording a witness gives it one point (its Boolean inspector): the null Integer below the
   * delegate is ignored. The comparison as written awards a point for that null all the same,
   * so the recorded argument scores 2.0 against its own spec, while the corrected rule scores 1.0.
   */
  lemma AsWrittenExceedsOne(cfg: Config, c: JType, r: Inspector, b: bool, p: Inspector, dc: JType, q: Inspector)
    requires WitnessOk(cfg, c, r, p, q)
    ensures WellFormed(WitnessArg(c, r, b, p, dc, q)) && WellTyped(WitnessArg(c, r, b, p, dc, q))
    ensures RecordObjects(cfg, EmptySpec, [WitnessArg(c, r, b, p, dc, q)]).Success?
    ensures var spec := RecordObjects(cfg, EmptySpec, [WitnessArg(c, r, b, p, dc, q)]).value;
      spec.partitionSizes == [1]
      && CompareObjects(cfg, AsWritten, spec, [WitnessArg(c, r, b, p, dc, q)]) == Success(Num(2.0))
      && CompareObjects(cfg, Mirrored, spec, [WitnessArg(c, r, b, p, dc, q)]) == Success(Num(1.0))
  {
    WitnessWellFormed(cfg, c, r, b, p, dc, q);
    WitnessRecorded(cfg, c, r, b, p, dc, q);
    WitnessCompared(cfg, c, r, b, p, dc, q, AsWritten, 1.0);
    WitnessCompared(cfg, c, r, b, p, dc, q, Mirrored, 0.0);
  }

  /** `C.isReady()` returning true and `C.getDelegate()` returning a `D2` whose `getCount()` returns null. */
  lemma ConcreteWitness()
    ensures WitnessOk(Config(DefaultMaxDepth, 1000, true, false, "C", None, None, {}, {}, false), ClassType("C"),
                      Inspector("C", Method("C", "isReady", [], Boxed(PBoolean))),
                      Inspector("C", Method("C", "getDelegate", [], ClassType("D"))),
                      Inspector("D2", Method("D2", "getCount", [], Boxed(PInt))))
  {
    JavaStrings.MissingCharNotContained("C", "EnhancerByMockito", 0);
  }
}

=== FILE: self_match.dfy ===
/**
 * Comparing a spec with the very arguments it was recorded from. With nested checks off, every
 * point the recorder counted is earned back, so the score is exactly 1 (a complete match).
 */
module SelfMatch {
  import opened Wrappers
  import opened Values
  import opened Settings
  import opened ReachingSpecs
  import opened Floats
  import opened Similarity
  import opened Recorder
  import opened Comparator
  import JavaStrings

  /**
   * An inspector output that scores in full against itself: a string-like output is non-empty
   * (two empty strings have NaN similarity) and short enough to be kept, a Boolean output is not
   * null (unboxing null fails), and an enum output is not null and has a non-empty name.
   */
  predicate FullyComparable(cfg: Config, p: Probe) {
    ProbeWellTyped(p) &&
    (p.out.Returned? ==>
      var t := p.insp.ReturnType();
      var w := p.out.v;
      (IsStringLike(t) && w != Null ==> OutputText(w) != "" && |OutputText(w)| <= cfg.maxString)
      && (IsBoxedBoolean(t) ==> w != Null)
      && (IsEnum(t) ==> w != Null && w.text != ""))
  }

  /** An argument that scores in full against itself. */
  predicate ArgComparable(cfg: Config, arg: Value) {
    WellFormed(arg)
    && (IsTextArgument(arg) ==> ArgumentText(arg) != "")
    && (!Atom(arg) ==> HasCanonicalName(arg))
    && (!Atom(arg) ==> forall j :: 0 <= j < |arg.probes| ==> FullyComparable(cfg, arg.probes[j]))
  }

  /** One inspector earns back the points it recorded. */
  lemma ProbeSelfMatch(cfg: Config, rule: NestedRule, spec: Spec, i: nat, slot: Slot, p: Probe)
    requires FullyComparable(cfg, p) && !cfg.doNestedChecks
    requires At(slot, p.insp) == Absent
    requires RecordProbe(cfg, slot, p).Success?
    requires Covers(spec, i + 1)
    requires At(SlotAt(spec, i), p.insp) == At(RecordProbe(cfg, slot, p).value.0, p.insp)
    ensures CompareProbe(cfg, rule, spec, i, p) == Success(Num(RecordProbe(cfg, slot, p).value.1 as real))
  {
    var t := p.insp.ReturnType();
    if p.out.Threw? {
    } else if IsStringLike(t) {
      if p.out.v != Null {
        JavaStrings.MockMarkerTextNever(OutputText(p.out.v));
      }
    } else if IsBoxedBoolean(t) {
    } else if IsEnum(t) {
    }
  }

  /** The inspectors of an object argument earn back the points they recorded. */
  lemma {:induction false} ProbesSelfMatch(cfg: Config, rule: NestedRule, spec: Spec, i: nat, slot: Slot, v: Value, j: nat)
    requires v != Null && WellTyped(v) && DistinctInspectors(v.probes) && j <= |v.probes|
    requires !cfg.doNestedChecks
    requires forall k :: j <= k < |v.probes| ==> FullyComparable(cfg, v.probes[k])
    requires forall k :: j <= k < |v.probes| ==> At(slot, v.probes[k].insp) == Absent
    requires RecordProbes(cfg, slot, v, j).Success?
    requires Covers(spec, i + 1) && SlotAt(spec, i) == RecordProbes(cfg, slot, v, j).value.0
    ensures CompareProbes(cfg, rule, spec, i, v, j) == Success(Num(RecordProbes(cfg, slot, v, j).value.1 as real))
    decreases |v.probes| - j
  {
    if j < |v.probes| {
      var p := v.probes[j];
      assert ProbeWellTyped(p);
      RecordStep(cfg, slot, v, j);
      var one := RecordProbe(cfg, slot, p).value;
      var rest := RecordProbes(cfg, one.0, v, j + 1).value;
      StillAbsent(cfg, slot, v, j);
      ProbesSelfMatch(cfg, rule, spec, i, one.0, v, j + 1);
      RecordProbesFrame(cfg, one.0, v, j + 1, p.insp);
      ProbeSelfMatch(cfg, rule, spec, i, slot, p);
      ProbesStep(cfg, rule, spec, i, v, j, Num(one.1 as real), Num(rest.1 as real));
      CountsAdd(CompareProbes(cfg, rule, spec, i, v, j), one.1, rest.1, RecordProbes(cfg, slot, v, j).value.1);
    }
  }

  /** Two counts scored as reals add up to their sum scored as a real. */
  lemma CountsAdd(r: Result<Float, Fault>, a: int, b: int, total: int)
    requires r == Success(Add(Num(a as real), Num(b as real))) && total == a + b
    ensures r == Success(Num(total as real))
  {
    assert Add(Num(a as real), Num(b as real)) == Num((a + b) as real);
  }

  /** After the `j`-th inspector is recorded, the later ones are still absent from the slot. */
  lemma StillAbsent(cfg: Config, slot: Slot, v: Value, j: nat)
    requires v != Null && WellTyped(v) && DistinctInspectors(v.probes) && j < |v.probes|
    requires ProbeWellTyped(v.probes[j]) && RecordProbe(cfg, slot, v.probes[j]).Success?
    requires forall k :: j <= k < |v.probes| ==> At(slot, v.probes[k].insp) == Absent
    ensures forall k :: j + 1 <= k < |v.probes| ==> At(RecordProbe(cfg, slot, v.probes[j]).value.0, v.probes[k].insp) == Absent
  {
    forall k | j + 1 <= k < |v.probes|
      ensures At(RecordProbe(cfg, slot, v.probes[j]).value.0, v.probes[k].insp) == Absent
    {
      assert v.probes[k].insp != v.probes[j].insp;
    }
  }

  lemma ProbesStep(cfg: Config, rule: NestedRule, spec: Spec, i: nat, v: Value, j: nat, a: Float, b: Float)
    requires v != Null && WellTyped(v) && j < |v.probes| && ProbeWellTyped(v.probes[j]) && HasCanonicalName(v)
    requires CompareProbe(cfg, rule, spec, i, v.probes[j]) == Success(a)
    requires CompareProbes(cfg, rule, spec, i, v, j + 1) == Success(b)
    ensures CompareProbes(cfg, rule, spec, i, v, j) == Success(Add(a, b))
  {
  }

  lemma RecordStep(cfg: Config, slot: Slot, v: Value, j: nat)
    requires v != Null && WellTyped(v) && j < |v.probes| && ProbeWellTyped(v.probes[j])
    requires RecordProbes(cfg, slot, v, j).Success?
    ensures HasCanonicalName(v)
    ensures RecordProbe(cfg, slot, v.probes[j]).Success?
    ensures var one := RecordProbe(cfg, slot, v.probes[j]).value;
      RecordProbes(cfg, one.0, v, j + 1).Success? &&
      var rest := RecordProbes(cfg, one.0, v, j + 1).value;
      RecordProbes(cfg, slot, v, j).value == (rest.0, one.1 + rest.1)
  {
  }

  /** One argument earns back its whole partition. */
  lemma ArgSelfMatch(cfg: Config, rule: NestedRule, spec: Spec, arg: Value, i: nat)
    requires ArgComparable(cfg, arg) && !cfg.doNestedChecks
    requires Covers(spec, i + 1) && i < |spec.argIsNull| && i < |spec.partitionSizes|
    requires WellTyped(arg) && Recorded(cfg, EntriesAt(spec, i), arg)
    ensures CompareArg(cfg, rule, spec, arg, i) == Success(Num(spec.partitionSizes[i] as real))
  {
    if !Atom(arg) && !IsMockProxy(arg) {
      ProbesSelfMatch(cfg, rule, spec, i, EmptySlot, arg, 0);
    }
  }

  lemma FromSelfMatch(cfg: Config, rule: NestedRule, spec: Spec, args: seq<Value>, i: nat)
    requires i <= |args| && Aligned(spec, |args|) && !cfg.doNestedChecks
    requires forall k :: 0 <= k < |args| ==> ArgComparable(cfg, args[k]) && WellTyped(args[k])
    requires forall k :: 0 <= k < |args| ==> Recorded(cfg, EntriesAt(spec, k), args[k])
    ensures CompareFrom(cfg, rule, spec, args, i) == Success(Num(Sum(spec.partitionSizes[i..]) as real))
  {
    forall k | 0 <= k < |args|
      ensures CompareArg(cfg, rule, spec, args[k], k) == Success(Num(spec.partitionSizes[k] as real))
    {
      ArgSelfMatch(cfg, rule, spec, args[k], k);
    }
    FromScores(cfg, rule, spec, args, i);
  }

  /** Arguments that each score their partition size score the sum of the sizes from `i` on. */
  lemma {:induction false} FromScores(cfg: Config, rule: NestedRule, spec: Spec, args: seq<Value>, i: nat)
    requires i <= |args| && |spec.partitionSizes| == |args|
    requires forall k :: 0 <= k < |args| ==> WellTyped(args[k])
    requires forall k :: 0 <= k < |args| ==> CompareArg(cfg, rule, spec, args[k], k) == Success(Num(spec.partitionSizes[k] as real))
    ensures CompareFrom(cfg, rule, spec, args, i) == Success(Num(Sum(spec.partitionSizes[i..]) as real))
    decreases |args| - i
  {
    if i < |args| {
      FromScores(cfg, rule, spec, args, i + 1);
      ScoreStep(cfg, rule, spec, args, i);
    } else {
      NoneLeft(cfg, rule, spec, args, i);
    }
  }

  lemma NoneLeft(cfg: Config, rule: NestedRule, spec: Spec, args: seq<Value>, i: nat)
    requires i == |args| == |spec.partitionSizes|
    requires forall k :: 0 <= k < |args| ==> WellTyped(args[k])
    ensures CompareFrom(cfg, rule, spec, args, i) == Success(Num(Sum(spec.partitionSizes[i..]) as real))
  {
    assert spec.partitionSizes[i..] == [];
    var total := Sum(spec.partitionSizes[i..]);
    assert total == 0;
    assert Num(total as real) == Num(0.0);
  }

  lemma ScoreStep(cfg: Config, rule: NestedRule, spec: Spec, args: seq<Value>, i: nat)
    requires i < |args| && |spec.partitionSizes| == |args|
    requires forall k :: 0 <= k < |args| ==> WellTyped(args[k])
    requires CompareArg(cfg, rule, spec, args[i], i) == Success(Num(spec.partitionSizes[i] as real))
    requires CompareFrom(cfg, rule, spec, args, i + 1) == Success(Num(Sum(spec.partitionSizes[i + 1..]) as real))
    ensures CompareFrom(cfg, rule, spec, args, i) == Success(Num(Sum(spec.partitionSizes[i..]) as real))
  {
    var total := Sum(spec.partitionSizes[i..]);
    var here := spec.partitionSizes[i];
    var later := Sum(spec.partitionSizes[i + 1..]);
    SumFrom(spec.partitionSizes, i);
    assert total == here + later;
    FromStep(cfg, rule, spec, args, i, here, later);
    assert CompareFrom(cfg, rule, spec, args, i) == Success(Num((here + later) as real));
    assert (here + later) as real == total as real;
    assert Num((here + later) as real) == Num(total as real);
    assert CompareFrom(cfg, rule, spec, args, i) == Success(Num(total as real));
  }

  lemma SumFrom(s: seq<int>, i: nat)
    requires i < |s|
    ensures Sum(s[i..]) == s[i] + Sum(s[i + 1..])
  {
    assert s[i..][1..] == s[i + 1..];
  }

  lemma FromStep(cfg: Config, rule: NestedRule, spec: Spec, args: seq<Value>, i: nat, a: int, b: int)
    requires i < |args| && forall k :: 0 <= k < |args| ==> WellTyped(args[k])
    requires CompareArg(cfg, rule, spec, args[i], i) == Success(Num(a as real))
    requires CompareFrom(cfg, rule, spec, args, i + 1) == Success(Num(b as real))
    ensures CompareFrom(cfg, rule, spec, args, i) == Success(Num((a + b) as real))
  {
    assert CompareFrom(cfg, rule, spec, args, i) == Success(Add(Num(a as real), Num(b as real)));
    assert Add(Num(a as real), Num(b as real)) == Num((a + b) as real);
  }

  /**
   * Recording arguments into a fresh spec and comparing the same arguments against it gives
   * similarity exactly 1, or NaN when the arguments offered nothing to count; nested checks off.
   */
  lemma RecordedArgumentsMatch(cfg: Config, rule: NestedRule, args: seq<Value>)
    requires !cfg.doNestedChecks
    requires forall k :: 0 <= k < |args| ==> ArgComparable(cfg, args[k])
    ensures forall k :: 0 <= k < |args| ==> WellTyped(args[k])
    ensures RecordObjects(cfg, EmptySpec, args).Success?
    ensures var spec := RecordObjects(cfg, EmptySpec, args).value;
      CompareObjects(cfg, rule, spec, args) == Success(if TotalPossible(spec) == 0 then NaN else Num(1.0))
  {
    assert NoNullEnum(args) && NamedObjects(args);
    RecordFromSucceeds(cfg, EmptySpec, args, 0);
    var spec := RecordObjects(cfg, EmptySpec, args).value;
    RecordObjectsShape(cfg, args);
    FromSelfMatch(cfg, rule, spec, args, 0);
    assert spec.partitionSizes[0..] == spec.partitionSizes;
    DivIntSelf(TotalPossible(spec));
  }
}

=== FILE: serializable_inspector.dfy ===
/**
 * `SerializableInspector`: an inspector (a class and a no-argument method) in the form written to
 * and read back from the recorded specs. A class is known by its canonical name; the reflective
 * lookups that turn names back into `Class` and `Method` objects are not part of this model.
 */
module SerializableInspectors {
  import opened Wrappers
  import opened Values
  import opened JavaStrings

  /** Both fields may be null (the no-argument constructor used by Gson leaves them so). */
  datatype SInspector = SInspector(clazz: Option<string>, meth: Option<Method>)

  /** The argument of `equals`: another inspector, an object of another class, or null. */
  datatype Obj = Insp(i: SInspector) | OtherObject | NullObject

  /** `SerializableInspector.from(i)`. */
  function From(i: Inspector): (r: SInspector)
    ensures r.clazz.Some? && r.meth.Some?
  {
    SInspector(Some(i.clazz), Some(i.m))
  }

  /** Inspectors are copied one to one. */
  lemma FromInjective(a: Inspector, b: Inspector)
    ensures From(a) == From(b) <==> a == b
  {
  }

  /**
   * `toString()`: class, method name and the comma-joined parameter types, separated by ':'.
   * Dereferencing a null field throws.
   */
  function ToString(si: SInspector): (r: Result<string, Fault>)
    ensures r.Success? <==> si.clazz.Some? && si.meth.Some?
    ensures r.Success? ==> StartsWith(r.value, si.clazz.value + ":" + si.meth.value.name + ":")
  {
    match (si.clazz, si.meth)
    case (Some(c), Some(m)) =>
      var r := c + ":" + m.name + ":" + Join(",", m.params);
      assert r[..|c + ":" + m.name + ":"|] == c + ":" + m.name + ":";
      Success(r)
    case _ => Failure(NullPointer)
  }

  /**
   * `equals(obj)`: false for null and for other classes; otherwise the classes and the methods
   * must both be null or both be equal. `Method.equals` compares declaring class, name,
   * parameter types and return type, which is what equality of `Method` values does.
   */
  predicate Equals(a: SInspector, obj: Obj) {
    match obj
    case NullObject => false
    case OtherObject => false
    case Insp(b) =>
      (if a.clazz.None? then b.clazz.None? else b.clazz.Some? && a.clazz.value == b.clazz.value)
      && (if a.meth.None? then b.meth.None? else b.meth.Some? && a.meth.value == b.meth.value)
  }

  /** `String.hashCode()` in 32-bit arithmetic: `h = 31 * h + c` over the characters. */
  function StringHash(s: string): bv32
    decreases |s|
  {
    if |s| == 0 then 0 else 31 * StringHash(s[..|s| - 1]) + (s[|s| - 1] as int % 0x1_0000_0000) as bv32
  }

  /** `Method.hashCode()`: the hashes of the declaring class's name and of the method name, xor-ed. */
  function MethodHash(m: Method): bv32 {
    StringHash(m.declaringClass) ^ StringHash(m.name)
  }

  /**
   * `hashCode()`: `31 * (31 * 1 + h(clazz)) + h(method)`, wrapping at 32 bits, 0 for a null field.
   * `Class.hashCode()` is the identity hash, so it is a parameter.
   */
  function HashCode(si: SInspector, classHash: string -> bv32): bv32 {
    var ch: bv32 := if si.clazz.None? then 0 else classHash(si.clazz.value);
    var mh: bv32 := if si.meth.None? then 0 else MethodHash(si.meth.value);
    31 * (31 * 1 + ch) + mh
  }

  /**
   * `equals` is an equivalence on inspectors, never holds for null or another class, holds
   * exactly for equal field values, and agrees with `hashCode`.
   */
  lemma EqualsContract(a: SInspector, b: SInspector, c: SInspector, classHash: string -> bv32)
    ensures Equals(a, Insp(a))
    ensures Equals(a, Insp(b)) <==> Equals(b, Insp(a))
    ensures Equals(a, Insp(b)) && Equals(b, Insp(c)) ==> Equals(a, Insp(c))
    ensures !Equals(a, NullObject) && !Equals(a, OtherObject)
    ensures Equals(a, Insp(b)) <==> a == b
    ensures Equals(a, Insp(b)) ==> HashCode(a, classHash) == HashCode(b, classHash)
  {
  }

  /** The fields of an inspector reference, as far as the deserializer splits the text. */
  datatype Ref = Ref(className: string, methodName: string, params: seq<string>)

  /**
   * The text handling of `SerializableInspectorDeserializer.deserialize`: split on ':'; the first
   * piece names the class, the second the method; parameter types are read, split on ',', only
   * when there are exactly three pieces.
   */
  function ParseRef(text: string): (r: Result<Ref, Fault>)
    ensures r.Success? <==> |Split(text, ":")| >= 2
    ensures r.Success? ==> r.value.params != [] ==> |Split(text, ":")| == 3
  {
    var split := Split(text, ":");
    var className :- Get(split, 0);
    var methodName :- Get(split, 1);
    var params := if |split| == 3 then Split(split[2], ",") else [];
    Success(Ref(className, methodName, params))
  }

  /** A name that survives the text form: not empty, and free of both separators. */
  predicate CleanName(s: string) {
    s != "" && ':' !in s && ',' !in s
  }

  /**
   * Reading back the text of an inspector recovers its class, method name and parameter types,
   * with or without parameters: without any, the trailing ':' leaves only two pieces.
   */
  lemma RoundTrip(si: SInspector)
    requires si.clazz.Some? && si.meth.Some?
    requires CleanName(si.clazz.value) && CleanName(si.meth.value.name)
    requires forall k :: 0 <= k < |si.meth.value.params| ==> CleanName(si.meth.value.params[k])
    ensures ToString(si).Success?
    ensures ParseRef(ToString(si).value) == Success(Ref(si.clazz.value, si.meth.value.name, si.meth.value.params))
  {
    var c := si.clazz.value;
    var m := si.meth.value;
    var joined := Join(",", m.params);
    var text := ToString(si).value;
    JoinKeepsOut(m.params, ',', ':');
    assert text == Join(":", [c, m.name, joined]) by {
      assert [c, m.name, joined][1..] == [m.name, joined];
      assert [m.name, joined][1..] == [joined];
      assert Join(":", [m.name, joined]) == m.name + ":" + joined;
    }
    if |m.params| == 0 {
      PiecesJoin([c, m.name, joined], ':');
      assert Split(text, ":") == [c, m.name] by {
        assert text == c + [':'] + (m.name + ":" + joined);
        IndexOfChar(c, ':', m.name + ":" + joined);
        assert DropTrailingEmpty([c, m.name, joined]) == DropTrailingEmpty([c, m.name]);
      }
    } else {
      JoinNonEmpty(m.params, ',');
      SplitJoin([c, m.name, joined], ':');
      SplitJoin(m.params, ',');
    }
  }

  /** `from` followed by `toString` and the deserializer's split gives back the inspector's names. */
  lemma FromRoundTrip(i: Inspector)
    requires CleanName(i.clazz) && CleanName(i.m.name)
    requires forall k :: 0 <= k < |i.m.params| ==> CleanName(i.m.params[k])
    ensures ToString(From(i)).Success?
    ensures ParseRef(ToString(From(i)).value) == Success(Ref(i.clazz, i.m.name, i.m.params))
  {
    RoundTrip(From(i));
  }

  /** Joining parts free of a character (other than the separator) gives a text free of it. */
  lemma {:induction false} JoinKeepsOut(parts: seq<string>, sep: char, c: char)
    requires c != sep
    requires forall k :: 0 <= k < |parts| ==> c !in parts[k]
    ensures c !in Join([sep], parts)
    decreases |parts|
  {
    if |parts| > 1 {
      JoinKeepsOut(parts[1..], sep, c);
    }
  }

  /** Joining at least one non-empty part gives a non-empty text. */
  lemma JoinNonEmpty(parts: seq<string>, sep: char)
    requires |parts| > 0 && parts[0] != ""
    ensures Join([sep], parts) != ""
  {
  }
}

=== FILE: settings.dfy ===
/**
 * The process-wide static configuration the source reads once at start-up (the target
 * files and `Properties`), passed around as one immutable record.
 */
module Settings {
  import opened Wrappers

  /** `ReachabilitySpecUnderInferenceUtils.MAX_DEPTH`'s initial value. */
  const DefaultMaxDepth: int := 2

  /** The target callee: `targetCalleeClazzAsNormalName` and `targetCalleeMethod`. */
  datatype Callee = Callee(classNormalName: string, methodName: string)

  /** The target caller: `targetCallerClazz` and `targetCallerMethod`. */
  datatype Caller = Caller(clazz: string, methodName: string)

  datatype Config = Config(
    maxDepth: int,               // MAX_DEPTH
    maxString: int,              // Properties.MAX_STRING
    doNestedChecks: bool,        // ReachabilityCoverageFactory.doNestedChecks
    calleeIsStatic: bool,        // ReachabilityCoverageFactory.targetCalledMethodIsStatic
    targetClass: string,         // Properties.TARGET_CLASS
    callee: Option<Callee>,      // None while the callee file has not been read
    caller: Option<Caller>,      // None while the caller file has not been read
    additionalClasses: set<string>,
    forbiddenCalls: set<string>, // forbiddenMethodCallsOnCallee
    testArchive: bool)           // Properties.TEST_ARCHIVE
}

=== FILE: similarity.dfy ===
/**
 * `stringSimilarity`: one minus the Levenshtein distance divided by the longer length.
 * The distance itself (`StringHelper.editDistance`) lives outside the modelled code, so it is
 * defined here as the textbook Levenshtein distance, together with a dynamic-programming
 * computation proved to agree with it.
 */
module Similarity {
  import opened Floats

  function Max(a: nat, b: nat): nat {
    if a >= b then a else b
  }

  function Min3(a: nat, b: nat, c: nat): nat {
    if a <= b && a <= c then a else if b <= c then b else c
  }

  /** Levenshtein distance: fewest single-character insertions, deletions and substitutions. */
  function Lev(a: string, b: string): nat
    decreases |a| + |b|
  {
    if |a| == 0 then |b|
    else if |b| == 0 then |a|
    else Min3(Lev(a[..|a| - 1], b) + 1,
              Lev(a, b[..|b| - 1]) + 1,
              Lev(a[..|a| - 1], b[..|b| - 1]) + (if a[|a| - 1] == b[|b| - 1] then 0 else 1))
  }

  /** Number of positions at which two equally long strings differ. */
  function Hamming(a: string, b: string): nat
    requires |a| == |b|
  {
    if |a| == 0 then 0
    else Hamming(a[..|a| - 1], b[..|b| - 1]) + (if a[|a| - 1] == b[|b| - 1] then 0 else 1)
  }

  /** `stringSimilarity(expected, actual)`; Java divides 0 by 0 when both are empty. */
  function StringSimilarity(expected: string, actual: string): (r: real)
    requires |expected| > 0 || |actual| > 0
    ensures 0.0 <= r <= 1.0
    ensures r == 1.0 <==> expected == actual
  {
    LevBounded(expected, actual);
    LevZeroIff(expected, actual);
    var ratio := Ratio(Lev(expected, actual), Max(|expected|, |actual|));
    1.0 - ratio
  }

  /** `(float) edit / longerLen` for a distance no larger than the length. */
  function Ratio(edit: nat, longer: nat): (q: real)
    requires 0 < longer && edit <= longer
    ensures 0.0 <= q <= 1.0
    ensures q == 0.0 <==> edit == 0
    ensures q == 1.0 <==> edit == longer
  {
    var q := (edit as real) / (longer as real);
    assert q * (longer as real) == edit as real;
    q
  }

  /** The similarity as the Java float expression evaluates it: two empty strings give NaN. */
  function Sim(expected: string, actual: string): (r: Float)
    ensures r.NaN? <==> expected == "" && actual == ""
    ensures !r.NaN? ==> r.Num? && 0.0 <= r.x <= 1.0 && (r.x == 1.0 <==> expected == actual)
  {
    if expected == "" && actual == "" then NaN
    else Num(StringSimilarity(expected, actual))
  }

  // ---------------------------------------------------------------------------------------------
  // Lemmas about the distance
  // ---------------------------------------------------------------------------------------------

  /** No more edits than the longer string has characters. */
  lemma {:induction false} LevBounded(a: string, b: string)
    ensures Lev(a, b) <= Max(|a|, |b|)
    decreases |a| + |b|
  {
    if |a| > 0 && |b| > 0 {
      LevBounded(a[..|a| - 1], b[..|b| - 1]);
    }
  }

  /** The distance is zero exactly for equal strings. */
  lemma {:induction false} LevZeroIff(a: string, b: string)
    ensures Lev(a, b) == 0 <==> a == b
    decreases |a| + |b|
  {
    if |a| > 0 && |b| > 0 {
      LevZeroIff(a[..|a| - 1], b[..|b| - 1]);
      if a == b {
        assert a[..|a| - 1] == b[..|b| - 1];
      }
      if Lev(a, b) == 0 {
        assert a == a[..|a| - 1] + [a[|a| - 1]];
        assert b == b[..|b| - 1] + [b[|b| - 1]];
      }
    }
  }

  /** Substitutions alone transform one string into an equally long one. */
  lemma {:induction false} LevAtMostHamming(a: string, b: string)
    requires |a| == |b|
    ensures Lev(a, b) <= Hamming(a, b)
    decreases |a|
  {
    if |a| > 0 {
      LevAtMostHamming(a[..|a| - 1], b[..|b| - 1]);
    }
  }

  /** When no character of one string occurs in the other, every position needs an edit. */
  lemma {:induction false} LevDisjoint(a: string, b: string)
    requires forall i, j :: 0 <= i < |a| && 0 <= j < |b| ==> a[i] != b[j]
    ensures Lev(a, b) == Max(|a|, |b|)
    decreases |a| + |b|
  {
    LevBounded(a, b);
    if |a| > 0 && |b| > 0 {
      var a', b' := a[..|a| - 1], b[..|b| - 1];
      assert a[|a| - 1] != b[|b| - 1];
      LevDisjoint(a', b);
      LevDisjoint(a, b');
      LevDisjoint(a', b');
    }
  }

  /** Similarity is 1 for identical non-empty strings and 0 for character-disjoint ones. */
  lemma SimilarityExtremes(a: string, b: string)
    requires |a| > 0
    requires forall i, j :: 0 <= i < |a| && 0 <= j < |b| ==> a[i] != b[j]
    ensures StringSimilarity(a, a) == 1.0
    ensures StringSimilarity(a, b) == 0.0
  {
    LevDisjoint(a, b);
  }

  /** Strings of equal length that differ in one position are one edit apart. */
  lemma OneSubstitution(a: string, b: string)
    requires |a| == |b| && Hamming(a, b) == 1
    ensures StringSimilarity(a, b) == 1.0 - 1.0 / (|a| as real)
  {
    LevAtMostHamming(a, b);
    LevZeroIff(a, b);
  }

  lemma HammingHelloHullo()
    ensures Hamming("hello", "hullo") == 1
  {
    assert "hello"[..4] == "hell" && "hullo"[..4] == "hull";
    assert "hell"[..3] == "hel" && "hull"[..3] == "hul";
    assert "hel"[..2] == "he" && "hul"[..2] == "hu";
    assert "he"[..1] == "h" && "hu"[..1] == "h";
  }

  /** One substituted character out of five: similarity 0.8. */
  lemma HelloHullo()
    ensures StringSimilarity("hello", "hullo") == 0.8
  {
    HammingHelloHullo();
    OneSubstitution("hello", "hullo");
  }

  // ---------------------------------------------------------------------------------------------
  // The distance computed row by row
  // ---------------------------------------------------------------------------------------------

  /** Row `i` of the table: the distances from `a[..i]` to every prefix of `b`. */
  method NextRow(a: string, b: string, i: nat, prev: seq<nat>) returns (row: seq<nat>)
    requires 0 < i <= |a|
    requires |prev| == |b| + 1
    requires forall j :: 0 <= j <= |b| ==> prev[j] == Lev(a[..i - 1], b[..j])
    ensures |row| == |b| + 1
    ensures forall j :: 0 <= j <= |b| ==> row[j] == Lev(a[..i], b[..j])
  {
    row := [i];
    assert Lev(a[..i], b[..0]) == i;
    var j := 1;
    while j <= |b|
      invariant 1 <= j <= |b| + 1
      invariant |row| == j
      invariant forall k :: 0 <= k < j ==> row[k] == Lev(a[..i], b[..k])
    {
      assert a[..i][..i - 1] == a[..i - 1];
      assert b[..j][..j - 1] == b[..j - 1];
      var cost := if a[i - 1] == b[j - 1] then 0 else 1;
      row := row + [Min3(prev[j] + 1, row[j - 1] + 1, prev[j - 1] + cost)];
      j := j + 1;
    }
  }

  /** `StringHelper.editDistance`, by the usual dynamic programme. */
  method EditDistance(a: string, b: string) returns (d: nat)
    ensures d == Lev(a, b)
  {
    var row: seq<nat> := [];
    var j := 0;
    while j <= |b|
      invariant 0 <= j <= |b| + 1
      invariant |row| == j
      invariant forall k :: 0 <= k < j ==> row[k] == Lev(a[..0], b[..k])
    {
      row := row + [j];
      j := j + 1;
    }
    var i := 1;
    while i <= |a|
      invariant 1 <= i <= |a| + 1
      invariant |row| == |b| + 1
      invariant forall k :: 0 <= k <= |b| ==> row[k] == Lev(a[..i - 1], b[..k])
    {
      row := NextRow(a, b, i, row);
      i := i + 1;
    }
    assert a[..|a|] == a && b[..|b|] == b;
    d := row[|b|];
  }
}

=== FILE: statements.dfy ===
/**
 * `TestFitnessFunction`'s searches over the statements of a generated test: does the test call
 * the vulnerable callee itself (or a forbidden method of its package), and does it call the
 * client's caller method. Each is defined once as a recursive reference and implemented as the
 * source's loop.
 */
module Statements {
  import opened Wrappers
  import opened Settings
  import opened JavaStrings
  import opened CoverageFactory

  /**
   * A statement of a generated test. Method and constructor statements are the only ones the
   * searches look at; they carry the declaring class, the method name and the JVM descriptor.
   */
  datatype Statement = Call(declaringClass: string, methodName: string, descriptor: string) | Other

  /**
   * How a call's name and descriptor become the signature searched: the searches below take it as
   * a parameter and the source always passes `CoverageFactory.DescriptorToActualName`, which keeps
   * the searches' proofs independent of the renaming table.
   */
  type Converter = string -> Result<string, Fault>

  /** The readable signature of a call: `descriptorToActualName(getMethodName() + getDescriptor())`. */
  function CallName(conv: Converter, st: Statement): Result<string, Fault>
    requires st.Call?
  {
    conv(st.methodName + st.descriptor)
  }

  /** The call is to the target callee itself: same class, and the signature mentions its name. */
  predicate DirectHit(cfg: Config, className: string, name: string) {
    cfg.callee.Some? && cfg.callee.value.classNormalName == className
    && Contains(name, cfg.callee.value.methodName)
  }

  /**
   * The callee's package: its class name up to the last '.'. Reading it throws when the callee is
   * unknown, and `substring(0, -1)` throws when the class name has no '.'.
   */
  function TargetPackage(cfg: Config): (r: Result<string, Fault>)
    ensures r.Success? <==> cfg.callee.Some? && '.' in cfg.callee.value.classNormalName
    ensures r.Success? ==> StartsWith(cfg.callee.value.classNormalName, r.value + ".")
  {
    match cfg.callee
    case None => Failure(NullPointer)
    case Some(c) =>
      match LastIndexOf(c.classNormalName, '.')
      case None => Failure(IndexOutOfBounds)
      case Some(k) =>
        assert c.classNormalName[..k + 1] == c.classNormalName[..k] + ".";
        Success(c.classNormalName[..k])
  }

  /**
   * The forbidden-call check of one statement: when forbidden names are configured, a call into
   * the callee's package whose signature mentions one of them. The package is computed for each
   * forbidden name, so it throws as soon as there is one.
   */
  function ForbiddenHit(cfg: Config, className: string, name: string): Result<bool, Fault> {
    if |cfg.forbiddenCalls| == 0 then Success(false)
    else
      var pkg :- TargetPackage(cfg);
      Success(Contains(className, pkg) && exists f :: f in cfg.forbiddenCalls && Contains(name, f))
  }

  /**
   * `hasCalleeMethodAsTestStatement(test)`: a direct hit ends the search at once; a forbidden hit
   * only stops the inner loop, so the remaining statements are still converted (and may throw).
   */
  function HasCallee(cfg: Config, conv: Converter, test: seq<Statement>): Result<bool, Fault> {
    if |test| == 0 then Success(false)
    else match test[0]
      case Other => HasCallee(cfg, conv, test[1..])
      case Call(cls, _, _) =>
        var name :- CallName(conv, test[0]);
        if DirectHit(cfg, cls, name) then Success(true)
        else
          var hit :- ForbiddenHit(cfg, cls, name);
          var rest :- HasCallee(cfg, conv, test[1..]);
          Success(hit || rest)
  }

  /** One statement counts against the test: a call that converts and hits directly or forbiddenly. */
  predicate CalleeHit(cfg: Config, conv: Converter, st: Statement) {
    st.Call? && CallName(conv, st).Success?
    && (DirectHit(cfg, st.declaringClass, CallName(conv, st).value)
        || ForbiddenHit(cfg, st.declaringClass, CallName(conv, st).value) == Success(true))
  }

  /** Every call converts, and the forbidden check cannot throw. */
  predicate CalleeSearchSafe(cfg: Config, conv: Converter, test: seq<Statement>) {
    (|cfg.forbiddenCalls| == 0 || (cfg.callee.Some? && '.' in cfg.callee.value.classNormalName))
    && forall i :: 0 <= i < |test| && test[i].Call? ==> CallName(conv, test[i]).Success?
  }

  /** The loop of `hasCalleeMethodAsTestStatement`, with the early exit on a direct hit. */
  method HasCalleeMethodAsTestStatement(cfg: Config, conv: Converter, test: seq<Statement>) returns (r: Result<bool, Fault>)
    ensures r == HasCallee(cfg, conv, test)
  {
    var found := false;
    var i := 0;
    while i < |test|
      invariant 0 <= i <= |test|
      invariant HasCallee(cfg, conv, test) == (
        if found then (var rest := HasCallee(cfg, conv, test[i..]); if rest.Failure? then rest else Success(true))
        else HasCallee(cfg, conv, test[i..]))
    {
      assert test[i..][1..] == test[i + 1..];
      var st := test[i];
      if st.Call? {
        var name := CallName(conv, st);
        if name.Failure? {
          return Failure(name.error);
        }
        if DirectHit(cfg, st.declaringClass, name.value) {
          return Success(true);
        }
        var hit := ForbiddenHit(cfg, st.declaringClass, name.value);
        if hit.Failure? {
          return Failure(hit.error);
        }
        found := found || hit.value;
      }
      i := i + 1;
    }
    return Success(found);
  }

  /** A successful search answers true exactly when some statement hits. */
  lemma {:induction false} HasCalleeMeans(cfg: Config, conv: Converter, test: seq<Statement>)
    requires HasCallee(cfg, conv, test).Success?
    ensures HasCallee(cfg, conv, test).value <==> exists i :: 0 <= i < |test| && CalleeHit(cfg, conv, test[i])
  {
    if |test| > 0 {
      assert forall i :: 0 < i < |test| ==> test[i] == test[1..][i - 1];
      match test[0]
      case Other =>
        HasCalleeMeans(cfg, conv, test[1..]);
      case Call(cls, _, _) =>
        var name := CallName(conv, test[0]).value;
        if !DirectHit(cfg, cls, name) {
          HasCalleeMeans(cfg, conv, test[1..]);
          if exists i :: 1 <= i < |test| && CalleeHit(cfg, conv, test[i]) {
            var i :| 1 <= i < |test| && CalleeHit(cfg, conv, test[i]);
            assert CalleeHit(cfg, conv, test[1..][i - 1]);
          }
        }
    }
  }

  /** The search throws only when some call fails to convert or the forbidden check throws. */
  lemma {:induction false} HasCalleeSucceeds(cfg: Config, conv: Converter, test: seq<Statement>)
    requires CalleeSearchSafe(cfg, conv, test)
    ensures HasCallee(cfg, conv, test).Success?
  {
    if |test| > 0 {
      assert CalleeSearchSafe(cfg, conv, test[1..]) by {
        assert forall i :: 0 <= i < |test| - 1 ==> test[1..][i] == test[i + 1];
      }
      HasCalleeSucceeds(cfg, conv, test[1..]);
    }
  }

  /** With forbidden names but no known callee, any call statement makes the search throw. */
  lemma {:induction false} HasCalleeWithoutCallee(cfg: Config, conv: Converter, test: seq<Statement>)
    requires cfg.callee.None? && |cfg.forbiddenCalls| > 0
    ensures HasCallee(cfg, conv, test).Success? <==> forall i :: 0 <= i < |test| ==> !test[i].Call?
    ensures HasCallee(cfg, conv, test).Success? ==> !HasCallee(cfg, conv, test).value
  {
    if |test| > 0 {
      assert forall i :: 0 < i < |test| ==> test[i] == test[1..][i - 1];
      HasCalleeWithoutCallee(cfg, conv, test[1..]);
    }
  }

  /**
   * A test that calls the callee method itself, under its own class, is flagged whenever the
   * search completes: the converted signature still begins with the method name.
   */
  lemma DirectCalleeCallFlagged(cfg: Config, test: seq<Statement>, k: nat)
    requires cfg.callee.Some?
    requires k < |test| && test[k].Call?
    requires test[k].declaringClass == cfg.callee.value.classNormalName
    requires test[k].methodName == cfg.callee.value.methodName
    requires var m := test[k].methodName; '(' !in m && ')' !in m && ';' !in m && '/' !in m
    requires |test[k].descriptor| > 0 && test[k].descriptor[0] == '('
    requires HasCallee(cfg, DescriptorToActualName, test).Success?
    ensures HasCallee(cfg, DescriptorToActualName, test).value
  {
    DescriptorKeepsName(test[k].methodName, test[k].descriptor);
    assert CalleeHit(cfg, DescriptorToActualName, test[k]);
    HasCalleeMeans(cfg, DescriptorToActualName, test);
  }

  /** `hasCallerMethodAsTestStatement(test)`: the first call to the caller method ends the search. */
  function HasCaller(cfg: Config, conv: Converter, test: seq<Statement>): Result<bool, Fault> {
    if |test| == 0 then Success(false)
    else match test[0]
      case Other => HasCaller(cfg, conv, test[1..])
      case Call(cls, _, _) =>
        var name :- CallName(conv, test[0]);
        if CallerHit(cfg, cls, name) then Success(true)
        else HasCaller(cfg, conv, test[1..])
  }

  /** The call is to the target caller: same class, and the signature mentions its method. */
  predicate CallerHit(cfg: Config, className: string, name: string) {
    cfg.caller.Some? && cfg.caller.value.clazz == className && Contains(name, cfg.caller.value.methodName)
  }

  /** Statement `k` is a call to the caller, and every call before it converts. */
  predicate CallerFoundAt(cfg: Config, conv: Converter, test: seq<Statement>, k: nat)
    requires k < |test|
  {
    test[k].Call? && CallName(conv, test[k]).Success?
    && CallerHit(cfg, test[k].declaringClass, CallName(conv, test[k]).value)
    && forall i :: 0 <= i < k && test[i].Call? ==> CallName(conv, test[i]).Success?
  }

  /** The loop of `hasCallerMethodAsTestStatement`. */
  method HasCallerMethodAsTestStatement(cfg: Config, conv: Converter, test: seq<Statement>) returns (r: Result<bool, Fault>)
    ensures r == HasCaller(cfg, conv, test)
  {
    var i := 0;
    while i < |test|
      invariant 0 <= i <= |test|
      invariant HasCaller(cfg, conv, test) == HasCaller(cfg, conv, test[i..])
    {
      assert test[i..][1..] == test[i + 1..];
      var st := test[i];
      if st.Call? {
        var name := CallName(conv, st);
        if name.Failure? {
          return Failure(name.error);
        }
        if CallerHit(cfg, st.declaringClass, name.value) {
          return Success(true);
        }
      }
      i := i + 1;
    }
    return Success(false);
  }

  /**
   * The caller search succeeds with true exactly when some call hits the caller and every call
   * before it converts; it answers false when no call hits and every call converts.
   */
  lemma {:induction false} HasCallerMeans(cfg: Config, conv: Converter, test: seq<Statement>)
    ensures HasCaller(cfg, conv, test) == Success(true) <==>
      exists k :: 0 <= k < |test| && CallerFoundAt(cfg, conv, test, k)
    ensures HasCaller(cfg, conv, test) == Success(false) <==>
      forall i :: 0 <= i < |test| && test[i].Call? ==>
        CallName(conv, test[i]).Success? && !CallerHit(cfg, test[i].declaringClass, CallName(conv, test[i]).value)
  {
    if |test| > 0 {
      HasCallerMeans(cfg, conv, test[1..]);
      var tail := test[1..];
      assert forall i :: 0 < i < |test| ==> test[i] == tail[i - 1];
      if test[0].Other? || (CallName(conv, test[0]).Success? && !CallerHit(cfg, test[0].declaringClass, CallName(conv, test[0]).value)) {
        if HasCaller(cfg, conv, tail) == Success(true) {
          var k :| 0 <= k < |tail| && CallerFoundAt(cfg, conv, tail, k);
          assert CallerFoundAt(cfg, conv, test, k + 1);
        }
        if exists k :: 0 <= k < |test| && CallerFoundAt(cfg, conv, test, k) {
          var k :| 0 <= k < |test| && CallerFoundAt(cfg, conv, test, k);
          assert k > 0;
          assert CallerFoundAt(cfg, conv, tail, k - 1);
        }
      } else if CallName(conv, test[0]).Success? {
        assert CallerFoundAt(cfg, conv, test, 0);
      } else {
        assert forall k :: 0 <= k < |test| ==> !CallerFoundAt(cfg, conv, test, k);
      }
    }
  }

  /** Without a known caller the search never answers true. */
  lemma NoCallerNeverFound(cfg: Config, conv: Converter, test: seq<Statement>)
    requires cfg.caller.None?
    ensures HasCaller(cfg, conv, test) != Success(true)
  {
    HasCallerMeans(cfg, conv, test);
  }
}

=== FILE: values.dfy ===
/**
 * Runtime values as the recorder and the comparator see them, and the inspectors that observe
 * them. Reflection is replaced by data: every non-null value carries the outcomes of the
 * inspectors `InspectorManager.getInspectors(value.getClass())` lists for its class, in order.
 */
module Values {
  import opened Wrappers
  import JavaStrings

  datatype PrimKind = PBoolean | PByte | PChar | PShort | PInt | PLong | PFloat | PDouble

  /** A declared Java type as far as the classification of inspector return types needs it. */
  datatype JType =
    | StringType                   // java.lang.String
    | ByteArrayType                // byte[]
    | CharArrayType                // char[]
    | Primitive(kind: PrimKind)    // int, boolean, ...
    | Boxed(kind: PrimKind)        // java.lang.Integer, java.lang.Boolean, ...
    | EnumType(name: string)
    | ClassType(name: string)      // any other class, by canonical name
    | LocalClass(name: string)     // an anonymous or local class, which has no canonical name

  /** `java.lang.reflect.Method`: declaring class, name, parameter types and return type. */
  datatype Method = Method(declaringClass: string, name: string, params: seq<string>, ret: JType)

  /** `org.evosuite.assertion.Inspector`: a zero-argument method observed on objects of `clazz`. */
  datatype Inspector = Inspector(clazz: string, m: Method) {
    function ReturnType(): JType { m.ret }
  }

  /**
   * A runtime value. Every non-null value lists the inspectors of its class together with what
   * each returned (or that it threw), in the order the inspector manager yields them.
   */
  datatype Value =
    | Null
    | Str(s: string, probes: seq<Probe>)
    | Bytes(bytes: seq<bv8>, probes: seq<Probe>)
    | Chars(chars: string, probes: seq<Probe>)
    | Bool(b: bool, probes: seq<Probe>)                 // a java.lang.Boolean
    | Obj(cls: JType, text: string, probes: seq<Probe>) // any other object; `text` is its toString()

  /** `inspector.getValue(target)`: it either returned a value or threw. */
  datatype Outcome = Threw | Returned(v: Value)

  datatype Probe = Probe(insp: Inspector, out: Outcome)

  /** `value.getClass()`. */
  function RuntimeClass(v: Value): JType
    requires v != Null
  {
    match v
    case Str(_, _) => StringType
    case Bytes(_, _) => ByteArrayType
    case Chars(_, _) => CharArrayType
    case Bool(_, _) => Boxed(PBoolean)
    case Obj(cls, _, _) => cls
  }

  function PrimName(k: PrimKind): string {
    match k
    case PBoolean => "boolean" case PByte => "byte" case PChar => "char" case PShort => "short"
    case PInt => "int" case PLong => "long" case PFloat => "float" case PDouble => "double"
  }

  function BoxName(k: PrimKind): string {
    match k
    case PBoolean => "java.lang.Boolean" case PByte => "java.lang.Byte"
    case PChar => "java.lang.Character" case PShort => "java.lang.Short"
    case PInt => "java.lang.Integer" case PLong => "java.lang.Long"
    case PFloat => "java.lang.Float" case PDouble => "java.lang.Double"
  }

  /** `Class.getCanonicalName()`: null for anonymous and local classes. */
  function CanonicalName(t: JType): Option<string> {
    match t
    case StringType => Some("java.lang.String")
    case ByteArrayType => Some("byte[]")
    case CharArrayType => Some("char[]")
    case Primitive(k) => Some(PrimName(k))
    case Boxed(k) => Some(BoxName(k))
    case EnumType(n) => Some(n)
    case ClassType(n) => Some(n)
    case LocalClass(_) => None
  }

  /**
   * Whether the mock-proxy test can read the class name of `v`. Where it cannot, the test
   * itself throws a `NullPointerException`.
   */
  predicate HasCanonicalName(v: Value)
    requires v != Null
  {
    CanonicalName(RuntimeClass(v)).Some?
  }

  /** Mockito proxies are never inspected: their canonical class name carries this marker. */
  predicate IsMockProxy(v: Value)
    requires v != Null
  {
    HasCanonicalName(v) && JavaStrings.Contains(CanonicalName(RuntimeClass(v)).value, "EnhancerByMockito")
  }

  // ---------------------------------------------------------------------------------------------
  // Classification of inspector return types, exactly as each site of the source tests them
  // ---------------------------------------------------------------------------------------------

  /** `getReturnType().equals(String.class) || getReturnType().equals(byte[].class)`. */
  predicate IsStringLike(t: JType) {
    t == StringType || t == ByteArrayType
  }

  /** `getReturnType().equals(Boolean.class)`: only the boxed type. */
  predicate IsBoxedBoolean(t: JType) {
    t == Boxed(PBoolean)
  }

  /** `getReturnType().isEnum()`. */
  predicate IsEnum(t: JType) {
    t.EnumType?
  }

  /**
   * The numeric and boolean return types the recorder ignores: Long, Integer, Double, Float,
   * Boolean, Byte and the primitives long, int, double, float, boolean, short, byte. Short,
   * Character and char are not on the list and so count as object-like.
   */
  predicate IgnoredWhenRecording(t: JType) {
    t in {Boxed(PLong), Boxed(PInt), Boxed(PDouble), Boxed(PFloat), Boxed(PBoolean), Boxed(PByte),
          Primitive(PLong), Primitive(PInt), Primitive(PDouble), Primitive(PFloat),
          Primitive(PBoolean), Primitive(PShort), Primitive(PByte)}
  }

  /** The list the nested comparison uses: the recorder's list without Byte and byte. */
  predicate IgnoredWhenComparing(t: JType) {
    IgnoredWhenRecording(t) && t != Boxed(PByte) && t != Primitive(PByte)
  }

  /** Object-like at the top level: none of string-like, Boolean, enum or ignored. */
  predicate IsObjectLike(t: JType) {
    !IsStringLike(t) && !IsBoxedBoolean(t) && !IsEnum(t) && !IgnoredWhenRecording(t)
  }

  // ---------------------------------------------------------------------------------------------
  // Conversions to text
  // ---------------------------------------------------------------------------------------------

  /** A String, byte[] or char[] argument as text: `new String(chars)` or ISO/IEC 8859-1 for bytes. */
  predicate IsTextArgument(v: Value) {
    v.Str? || v.Bytes? || v.Chars?
  }

  function ArgumentText(v: Value): string
    requires IsTextArgument(v)
  {
    match v
    case Str(s, _) => s
    case Bytes(bs, _) => JavaStrings.Latin1(bs)
    case Chars(cs, _) => cs
  }

  /**
   * The text of a non-null string-like output: the String itself, or a byte[] decoded as
   * ISO/IEC 8859-1.
   */
  function OutputText(v: Value): string
    requires v.Str? || v.Bytes?
  {
    match v
    case Str(s, _) => s
    case Bytes(bs, _) => JavaStrings.Latin1(bs)
  }

  /** `(Boolean) value` for an output declared Boolean: null stays null. */
  function BoolOf(v: Value): Option<bool>
    requires v == Null || v.Bool?
  {
    if v == Null then None else Some(v.b)
  }

  /** No inspector appears twice in a value's list, as the inspector manager guarantees. */
  predicate DistinctInspectors(ps: seq<Probe>) {
    forall j, k :: 0 <= j < k < |ps| ==> ps[j].insp != ps[k].insp
  }

  /**
   * What the JVM guarantees about a non-null inspector output: it belongs to the declared
   * return type wherever the modelled code casts it.
   */
  predicate Conforms(t: JType, v: Value)
    requires v != Null
  {
    match t
    case StringType => v.Str?
    case ByteArrayType => v.Bytes?
    case CharArrayType => v.Chars?
    case Boxed(PBoolean) => v.Bool?
    case Primitive(PBoolean) => v.Bool?
    case EnumType(_) => v.Obj? && v.cls.EnumType?
    case _ => true
  }

  /** A probe whose output, when there is one, conforms to its return type, and so on below it. */
  predicate ProbeWellTyped(p: Probe)
    decreases p
  {
    p.out.Returned? ==> (p.out.v != Null ==> Conforms(p.insp.ReturnType(), p.out.v)) && WellTyped(p.out.v)
  }

  /** Every output reachable through the probes conforms to its inspector's return type. */
  predicate WellTyped(v: Value)
    decreases v
  {
    v == Null || forall j :: 0 <= j < |v.probes| ==> ProbeWellTyped(v.probes[j])
  }

  /** The output of `v`'s `j`-th inspector, with what well-typedness promises about it. */
  function OutputAt(v: Value, j: nat): (w: Value)
    requires v != Null && WellTyped(v) && j < |v.probes| && v.probes[j].out.Returned?
    ensures w == v.probes[j].out.v && WellTyped(w)
    ensures w != Null ==> Conforms(v.probes[j].insp.ReturnType(), w)
  {
    assert ProbeWellTyped(v.probes[j]);
    v.probes[j].out.v
  }

  predicate ProbeWellFormed(p: Probe)
    decreases p
  {
    p.out.Returned? ==> (p.out.v != Null ==> Conforms(p.insp.ReturnType(), p.out.v)) && WellFormed(p.out.v)
  }

  /** Well-typed, and no inspector is listed twice for any value reachable through the probes. */
  predicate WellFormed(v: Value)
    decreases v
  {
    v == Null || (DistinctInspectors(v.probes) && forall j :: 0 <= j < |v.probes| ==> ProbeWellFormed(v.probes[j]))
  }

  lemma {:induction false} WellFormedIsWellTyped(v: Value)
    requires WellFormed(v)
    ensures WellTyped(v)
    decreases v
  {
    if v != Null {
      forall j | 0 <= j < |v.probes|
        ensures ProbeWellTyped(v.probes[j])
      {
        var p := v.probes[j];
        if p.out.Returned? {
          WellFormedIsWellTyped(p.out.v);
        }
      }
    }
  }
}

=== FILE: wrappers.dfy ===
/** Failure-compatible Option and Result types, and the Java exceptions the model surfaces. */
module Wrappers {

  /** A Java reference that may be null. */
  datatype Option<+T> = None | Some(value: T)

  /** The Java exceptions that the modelled code can raise. */
  datatype Fault =
    | NullPointer          // NullPointerException, including unboxing a null Boolean
    | IndexOutOfBounds     // List.get / array index past the end
    | NoSuchElement        // iterator().next() on an empty set
    | IllegalState         // a RuntimeException on an inconsistent spec ("should be uninitialized", "sizes differ")
    | InvalidSimilarity    // RuntimeException("invalid object similarity value ...")

  /** Success carries the value computed; Failure the exception that escaped. */
  datatype Result<+T, +E> = Success(value: T) | Failure(error: E) {

    predicate IsFailure() {
      Failure?
    }

    function PropagateFailure<U>(): Result<U, E>
      requires Failure?
    {
      Failure(error)
    }

    function Extract(): T
      requires Success?
    {
      value
    }
  }

  /** `list.get(i)` on a Java list. */
  function Get<T>(s: seq<T>, i: nat): (r: Result<T, Fault>)
    ensures r.Success? <==> i < |s|
    ensures r.Success? ==> r.value == s[i]
  {
    if i < |s| then Success(s[i]) else Failure(IndexOutOfBounds)
  }
}
